=== FILE: README.md ===
# duro: the `sx` transform, the theme compiler and three components, in Dafny

duro is a React component library whose styling runs through CSS custom
properties named `--duro-<category>-<key>`. Two build-time pipelines share
that naming scheme, and this project models both of them:

- **The `sx` transform.** The Babel plugin rewrites an `sx={{ … }}` JSX
  attribute into a `style` attribute. Shorthand keys become CSS properties,
  and theme keys become `var(--duro-…)` references.
- **The theme compiler.** It turns a theme object into the variable blocks
  of the stylesheet. It adds one rule per section layout and variant, and a
  `@container` rule per container query.

The project also models the section registry (`createSection` and
`commonSections`) and the walk that turns it into rules. It models the class
list of the `Section` component, the open-item state of `Accordion`, and the
open state of `Dialog`.

The model is functional:

- The syntax tree is an abstract datatype.
- A JavaScript object is an ordered list of entries, in the order
  `Object.entries` gives (module `Entries`). `obj[k] = v` keeps an existing
  key in place and appends a new one. `{ ...a, ...b }` is two such copies.
- An absent optional value is `None`.
- Components are pure state-transition functions.

Strings are `seq<char>`. Case conversion is ASCII-only (module `Strings`).
Numbers in `sx` objects are natural numbers, and `String(n)` is their
decimal text. That is what JavaScript gives for the integers it holds exactly
below 10^21; the larger ones are listed under "Left out".

Properties proved, in the system's own terms:

- **Transform.** The transform keeps the read members in order and replaces
  each one by its rewrite (`TransformIsFilterMap`). It is idempotent, both on
  objects and on attributes. This rests on two facts: the shorthand table is
  closed under its own output, and a `var(...)` reference is never a theme
  key.
- **Kebab case.** The two kebab-case helpers are the same function on every
  string, so `themeVar` is `getThemeVar`. The reference the plugin writes is
  the name the compiler declares on the entry's own line, with two
  exceptions:
  - the `font-weight` category, which has no scale of its own. A
    `fontWeight` reference can only meet a `fonts` entry whose kebab-cased
    key is `weight-<key>`: a `fonts` key `weightBold` declares
    `--duro-font-weight-bold`.
  - space keys with an upper-case letter, which the compiler does not
    kebab-case.
  Every line the compiler writes declares one entry of one scale.
- **Theme compiler.** The emptiness rule holds for section and
  container-query rules. Dark colors override the base palette in base
  order, and new dark colors are appended. The dark block appears exactly
  when there is a dark palette and dark mode writes at least one variable.
- **Stylesheet.** The common sections yield 22 plain rules and no container
  query, because `createSection` drops the `768px` query of the hero
  section. The rules sit together between the section header and the
  utility classes.
- **`Section` class names.** A `Section` class matches the compiler's
  selector exactly when the section and variant names have no upper-case
  letter. So the `cluster` section's `spaceBetween` variant gets a class that
  no rule selects.
- **Props spread.** The Accordion and Dialog triggers spread the caller's
  props after their own `onClick` and `aria-expanded`, so a caller's
  `onClick` replaces the toggle or the open request, and a caller's
  `aria-expanded` replaces the computed one.
- **Accordion.** A toggle flips the item clicked. In `single` mode it also
  closes every other item; in `multiple` mode it leaves them alone. It keeps
  the list free of duplicates. In `multiple` mode, toggling a closed item
  twice restores the list.
- **Dialog.** A controlled dialog's open state ignores every event. Every request is
  reported to `onOpenChange`. In an uncontrolled dialog the last report is
  the state.

The modules follow the source files:

| module | file |
|---|---|
| `ThemeMapping` | `theme-mapping.ts` |
| `Transform` | `transform.ts` |
| `Theme` | `theme.ts` |
| `CssGenerator` | `css-generator.ts` |
| `Sections` | `sections.ts` |
| `BuildCss` | `build-css.ts` |
| `SectionComponent` | `Section/index.tsx` |
| `Accordion` | `Accordion/index.tsx` |
| `Dialog` | `Dialog/index.tsx` |

The other modules are:

- `NamingContract` relates the two packages.
- `ThemeMappingExamples` and `TransformExamples` hold the worked cases of
  the plugin's own examples.
- `Wrappers`, `Strings`, `Entries` and `Lists` hold the JavaScript built-ins
  the code relies on.

## Model

| member | source | states |
|---|---|---|
| ThemeMapping.ParseKey | packages/duro-swc-plugin/src/theme-mapping.ts:19-98 | every key of `sxThemeMapping` is found under its own spelling |
| ThemeMapping.ParseMiss | packages/duro-swc-plugin/src/theme-mapping.ts:19-98 | a name the lookup does not find is no key of the table |
| ThemeMapping.Lookup | packages/duro-swc-plugin/src/theme-mapping.ts:19-98 | `sxThemeMapping[name]` as a table lookup; it carries no contract of its own, and `ParseKey`, `ParseMiss` and `Transform.Classify` state what it finds |
| ThemeMapping.PassthroughNotMapped | packages/duro-swc-plugin/src/theme-mapping.ts:103-141 | a passthrough property is never a shorthand key, so the order in which the transform consults the two tables is irrelevant |
| ThemeMapping.TableDisjointFromPassthrough | packages/duro-swc-plugin/src/theme-mapping.ts:19-141 | no shorthand key is a passthrough property |
| ThemeMapping.TableClosed | packages/duro-swc-plugin/src/theme-mapping.ts:19-98 | when the property a key maps to is itself a key, that key maps to the same property and category |
| ThemeMapping.RowNotPrototypeMember | packages/duro-swc-plugin/src/theme-mapping.ts:19-98 | no property the table maps to is a name the table object inherits from `Object.prototype` |
| ThemeMapping.MarginAliasesShareRow | packages/duro-swc-plugin/src/theme-mapping.ts:36-39 | `mx`/`marginX` map to `marginInline` and `my`/`marginY` map to `marginBlock`, in the space category |
| ThemeMapping.PaddingAliasesShareRow | packages/duro-swc-plugin/src/theme-mapping.ts:52-55 | `px`/`paddingX` map to `paddingInline` and `py`/`paddingY` map to `paddingBlock` |
| ThemeMapping.SizeAliasesShareRow | packages/duro-swc-plugin/src/theme-mapping.ts:58-61 | `w` and `h` share the rows of `width` and `height` |
| ThemeMapping.HyphenateUpper | packages/duro-swc-plugin/src/theme-mapping.ts:154 | the regex replacement makes the string one character longer per upper-case letter; where the hyphens go is stated by `HyphenateUpperChar` and `HyphenateUpperAppend` |
| ThemeMapping.HyphenateUpperChar | packages/duro-swc-plugin/src/theme-mapping.ts:154 | a single character gets a hyphen in front exactly when it is upper case, and is otherwise kept alone |
| ThemeMapping.HyphenateUpperAppend | packages/duro-swc-plugin/src/theme-mapping.ts:154 | the replacement works piecewise: replacing in a concatenation is concatenating the replacements, so each hyphen lands right before its own letter |
| ThemeMapping.CamelToKebab | packages/duro-swc-plugin/src/theme-mapping.ts:153-155 | the result is one character longer per upper-case letter and holds no upper-case letter |
| ThemeMapping.CamelToKebabCons | packages/duro-swc-plugin/src/theme-mapping.ts:153-155 | each character is converted on its own: an upper-case letter becomes a hyphen and its lower case, and any other character is kept |
| ThemeMapping.CamelToKebabIdentity | packages/duro-swc-plugin/src/theme-mapping.ts:153-155 | `camelToKebab` leaves a string unchanged exactly when it has no upper-case letter |
| ThemeMapping.KebabToCamel | packages/duro-swc-plugin/src/theme-mapping.ts:146-148 | the result is never longer than the input |
| ThemeMapping.KebabRoundTrip | packages/duro-swc-plugin/src/theme-mapping.ts:146-155 | `kebabToCamel(camelToKebab(s)) == s` for every hyphen-free `s` |
| ThemeMapping.IsThemeKey | packages/duro-swc-plugin/src/theme-mapping.ts:168-170 | holds exactly for non-empty strings over letters, digits and `-` |
| ThemeMapping.GetThemeVar | packages/duro-swc-plugin/src/theme-mapping.ts:160-163 | the reference starts with `var(--duro-` and ends with `)`, and is never itself a theme key |
| ThemeMapping.GetThemeVarInjective | packages/duro-swc-plugin/src/theme-mapping.ts:160-163 | distinct hyphen-free values of one category get distinct references |
| Transform.Classify | packages/duro-swc-plugin/src/transform.ts:35-61 | an identifier key is mapped exactly when the table has it, and then gets that row; otherwise it is inherited exactly when it names an `Object.prototype` member, passthrough exactly when it does not and is a passthrough property, and unknown in the remaining case |
| Transform.TransformValue | packages/duro-swc-plugin/src/transform.ts:70-100 | a value changes exactly when it is a theme-key string or a number in the space category; it then becomes the `getThemeVar` reference, and every other value is kept |
| Transform.TransformValueIdempotent | packages/duro-swc-plugin/src/transform.ts:70-100 | rewriting a rewritten value changes nothing |
| Transform.TransformMember | packages/duro-swc-plugin/src/transform.ts:25-61 | a member that is not read yields nothing; a mapped key yields one member keyed by the row's property; a passthrough key is rebuilt as a plain identifier property with its value; an unknown key keeps its original member, computed flag included; an inherited key throws |
| Transform.TransformSxProp | packages/duro-swc-plugin/src/transform.ts:18-65 | throws exactly when some read key is inherited; otherwise yields at most one member per input member, each an identifier-keyed property |
| Transform.TransformIsFilterMap | packages/duro-swc-plugin/src/transform.ts:25-64 | the output is the read members, in order, each replaced by its own rewrite |
| Transform.TransformAppend | packages/duro-swc-plugin/src/transform.ts:25-64 | the transform of a concatenation is the concatenation of the transforms |
| Transform.RowPropertyClass | packages/duro-swc-plugin/src/transform.ts:35-50 | the property a row maps to reads again as that row or as a name outside the table, and never throws |
| Transform.MemberOutputFixed | packages/duro-swc-plugin/src/transform.ts:34-61 | a member's rewrite is its own rewrite |
| Transform.TransformIdempotent | packages/duro-swc-plugin/src/transform.ts:18-65 | `transformSxProp` applied to its own output changes nothing |
| Transform.IsSxProp | packages/duro-swc-plugin/src/transform.ts:105-107 | an attribute is the `sx` prop when its name is a plain identifier spelled `propName`; it is a predicate with no contract of its own, and `TransformSxAttribute` states what follows from it |
| Transform.TransformSxAttribute | packages/duro-swc-plugin/src/transform.ts:112-139 | any attribute other than `propName={{…}}` comes back alone and unchanged; otherwise a throw exactly when the object's transform throws, and else exactly one `style` attribute whose object is the transformed members |
| Transform.AttributeIdempotent | packages/duro-swc-plugin/src/transform.ts:105-139 | transforming the resulting attribute again leaves it unchanged, whatever `propName` is |
| ThemeMappingExamples.AutoIsKey | packages/duro-swc-plugin/src/transform.ts:75-81 | `auto` matches the theme-key pattern, so it is not among the strings kept as they are |
| ThemeMappingExamples.DefaultScaleKeysAreThemeKeys | packages/duro-core/src/theme/theme.ts:152-245 | every key of every default scale, `2xl` and `glowStrong` included, is a theme key |
| TransformExamples.BgExample | packages/duro-swc-plugin/src/transform.test.ts:10-14 | `bg: 'primary'` becomes `background: "var(--duro-color-primary)"` |
| TransformExamples.HexExample | packages/duro-swc-plugin/src/transform.test.ts:22-26 | `bg: '#FF0000'` becomes `background: "#FF0000"` |
| TransformExamples.PaddingExample | packages/duro-swc-plugin/src/transform.test.ts:30-34 | `p: 4` becomes `padding: "var(--duro-space-4)"` |
| TransformExamples.PaddingInlineExample | packages/duro-swc-plugin/src/transform.test.ts:51-56 | `px: 4` becomes `paddingInline: "var(--duro-space-4)"` |
| TransformExamples.DisplayExample | packages/duro-swc-plugin/src/transform.test.ts:94-98 | `display: 'flex'` passes through |
| TransformExamples.AttributeExample | packages/duro-swc-plugin/src/transform.test.ts:134-139 | `sx={{ bg: 'primary' }}` becomes a `style` attribute |
| TransformExamples.AutoExample | packages/duro-swc-plugin/src/transform.ts:75-81 | `width: 'auto'` becomes `width: "var(--duro-space-auto)"` |
| TransformExamples.ComputedKeyExample | packages/duro-swc-plugin/src/transform.ts:26 | the computed key `[bg]` is read as `bg` |
| TransformExamples.UnknownExample | packages/duro-swc-plugin/src/transform.ts:58-61 | an unknown property keeps its original member |
| TransformExamples.InheritedExample | packages/duro-swc-plugin/src/transform.ts:35-47 | the key `constructor` finds the inherited member and the transform throws |
| Theme.DefaultThemeHasNoDarkPalette | packages/duro-core/src/theme/theme.ts:165-173 | the default theme's modes record holds only `light`, so it has no dark palette; its section registry is empty |
| Theme.DefaultSpaceKeys | packages/duro-core/src/theme/theme.ts:176-186 | the default space scale has exactly the keys `0` to `8`, in order |
| CssGenerator.KebabCase | packages/duro-core/src/theme/css-generator.ts:151-153 | the result holds no upper-case letter |
| CssGenerator.ThemeVar | packages/duro-core/src/theme/css-generator.ts:158-160 | the reference starts with `var(--duro-<category>-` and ends with `)` |
| CssGenerator.ColorsFor | packages/duro-core/src/theme/css-generator.ts:17-19 | dark mode with a dark palette uses `{ ...colors, ...dark }`, which for duplicate-free palettes is the base colors in order, each overridden by the dark palette, then the colors only the dark palette has; every other case uses the base palette |
| CssGenerator.DarkColorsOverrideBase | packages/duro-core/src/theme/css-generator.ts:17-19 | the dark colors are the base colors in base order, each overridden by the dark palette, followed by the colors only the dark palette has |
| CssGenerator.OnlyDarkModeRead | packages/duro-core/src/theme/css-generator.ts:17-19 | any modes record with the same dark palette (a `light` palette, say) gives the same variables and stylesheet |
| CssGenerator.ScaleLines | packages/duro-core/src/theme/css-generator.ts:28-60 | one indented line per scale entry, in order, holding the key (kebab-cased when asked) and the value |
| CssGenerator.ColorLinesAreTextColorLines | packages/duro-core/src/theme/css-generator.ts:21-25 | the color lines are the lines of the string-valued colors other than `modes`, in order |
| CssGenerator.VariableLines | packages/duro-core/src/theme/css-generator.ts:13-62 | as many lines as emitted colors plus the entries of the seven other scales, every line indented |
| CssGenerator.VariableLinesWritten | packages/duro-core/src/theme/css-generator.ts:21-60 | the lines are the color `forEach` lines followed by the lines of the space, font, font-size, line-height, border, radius and shadow loops, in that order |
| CssGenerator.PartLineAt | packages/duro-core/src/theme/css-generator.ts:21-60 | the `i`-th entry of a part is declared on the line after the lines of the parts before it plus `i`, as `  --duro-<family>-<key>: <value>;` |
| CssGenerator.PartLineLocate | packages/duro-core/src/theme/css-generator.ts:21-60 | every line is the line of some entry of some part |
| CssGenerator.CSSVariables | packages/duro-core/src/theme/css-generator.ts:13-63 | the joined text is empty exactly when no line is emitted |
| CssGenerator.CSSVariablesSplit | packages/duro-core/src/theme/css-generator.ts:62 | when no value holds a newline, the text splits at its newlines back into the lines, one per entry |
| CssGenerator.DarkVars | packages/duro-core/src/theme/css-generator.ts:70-72 | empty exactly when there is no dark palette or the dark mode emits no line; otherwise the dark-mode variables |
| CssGenerator.RootBlock | packages/duro-core/src/theme/css-generator.ts:76-79 | the light block opens with `:root` and closes with a brace, and holds the variables whole right after its 30-character opening |
| CssGenerator.DarkBlock | packages/duro-core/src/theme/css-generator.ts:81-83 | the dark block opens with `[data-theme` and closes with a brace, and holds the variables whole right after its 22-character opening |
| CssGenerator.MediaBlock | packages/duro-core/src/theme/css-generator.ts:85-89 | the media block opens with `@media` and closes with a brace, and holds the variables whole right after its 66-character opening |
| CssGenerator.ThemeDocument | packages/duro-core/src/theme/css-generator.ts:74-90 | the stylesheet is non-empty, its first character is the `/` of the banner comment and its last is a closing brace; the block order is stated by `NoDarkPaletteNoDarkBlock` and `DarkPaletteDarkBlock` |
| CssGenerator.TrimDocument | packages/duro-core/src/theme/css-generator.ts:90 | trimming the template removes exactly its opening and closing newline |
| CssGenerator.ThemeCSS | packages/duro-core/src/theme/css-generator.ts:68-91 | `generateThemeCSS` is exactly the document of light block, optional dark block and media block, the template's opening and closing newline being trimmed away (`TrimDocument`) |
| CssGenerator.NoDarkPaletteNoDarkBlock | packages/duro-core/src/theme/css-generator.ts:70-90 | without a dark palette there is no dark block, and the media block repeats the light variables |
| CssGenerator.DefaultThemeNoDarkBlock | packages/duro-core/src/theme/css-generator.ts:70-90 | the default theme's stylesheet has no dark block |
| CssGenerator.DarkPaletteDarkBlock | packages/duro-core/src/theme/css-generator.ts:70-90 | with dark variables, the dark block follows the light one and the media block holds the dark variables |
| CssGenerator.SectionSelector | packages/duro-core/src/theme/css-generator.ts:97-99 | `.duro-section-<kebab name>`, followed by `-<kebab variant>` exactly when the variant is truthy; the selector holds no upper-case letter |
| CssGenerator.DefinedEntries | packages/duro-core/src/theme/css-generator.ts:103-107 | a pair is kept exactly when its key has a defined value equal to it; empty exactly when every layout value is undefined |
| CssGenerator.DefinedEntriesAppend | packages/duro-core/src/theme/css-generator.ts:103-107 | the filter of two layouts in a row is the filter of each, in order |
| CssGenerator.DefinedEntriesSingleton | packages/duro-core/src/theme/css-generator.ts:103-107 | one entry is kept, with its value unwrapped, exactly when it is defined |
| CssGenerator.DeclLines | packages/duro-core/src/theme/css-generator.ts:103-107 | one `kebab(key): value;` line per entry, in order |
| CssGenerator.SectionCSS | packages/duro-core/src/theme/css-generator.ts:96-115 | `''` exactly when every layout value is undefined; otherwise the selector and one declaration per defined value, opening with `.` and closing with a brace |
| CssGenerator.ContainerQueryCSS | packages/duro-core/src/theme/css-generator.ts:120-146 | the same emptiness rule; otherwise the same selector and declarations inside `@container (min-width: <bp>)` |
| CssGenerator.ContainerRuleIffSectionRule | packages/duro-core/src/theme/css-generator.ts:109-138 | a container-query rule exists exactly when the plain rule for the same layout does |
| CssGenerator.KebabScan | packages/duro-core/src/theme/css-generator.ts:152 | the compiler's regex replacement makes the string one character longer per upper-case letter; `NamingContract.KebabScanIsHyphenateUpper` pins the result |
| NamingContract.KebabScanIsHyphenateUpper | packages/duro-core/src/theme/css-generator.ts:152 | the compiler's regex inserts exactly the hyphens the plugin's regex inserts |
| NamingContract.KebabCaseIsCamelToKebab | packages/duro-core/src/theme/css-generator.ts:151-153 | `kebabCase` and `camelToKebab` agree on every string |
| NamingContract.ThemeVarIsGetThemeVar | packages/duro-core/src/theme/css-generator.ts:158-160 | `themeVar` is the plugin's `getThemeVar` for every category and key |
| NamingContract.Family | packages/duro-core/src/theme/css-generator.ts:21-60 | the compiler declares a variable family for every category except `font-weight`, under the category's own name |
| NamingContract.DeclaredName | packages/duro-core/src/theme/css-generator.ts:23-59 | a declared name exists exactly for the categories with a family, and it starts with `--duro-<family>-` |
| NamingContract.DeclarationLine | packages/duro-core/src/theme/css-generator.ts:21-60 | the `i`-th entry of a category's scale is declared on the line after the lines of the categories written before it plus `i`, under its declared name |
| NamingContract.EveryLineDeclares | packages/duro-core/src/theme/css-generator.ts:13-62 | every line the compiler writes is the declaration of one entry of the scale of a category other than `font-weight` |
| NamingContract.ReferenceMatchesDeclaration | packages/duro-swc-plugin/src/theme-mapping.ts:160-163 | for every entry the compiler writes, in either mode and for every category but `font-weight`, the line at the entry's position is `  <name>: <value>;` and the plugin's reference to the entry's key is `var(<name>)`, when a space key has no upper-case letter |
| NamingContract.SpaceKeyWithUpperMismatch | packages/duro-core/src/theme/css-generator.ts:28-30 | a space key with an upper-case letter is declared on its line under its raw name, and the plugin references another name |
| NamingContract.FontWeightUndeclared | packages/duro-swc-plugin/src/theme-mapping.ts:70 | `fontWeight` references a `--duro-font-weight-` variable, and no scale of the theme is declared under the `font-weight` family |
| NamingContract.FontWeightOnlyThroughFonts | packages/duro-core/src/theme/css-generator.ts:33-35 | a `fontWeight` reference names a declared variable only when that variable is a `fonts` entry whose kebab-cased key is `weight-` followed by the kebab-cased weight key |
| Sections.PlainVariants | packages/duro-core/src/theme/sections.ts:22-25 | each layout is stored as a plain variant under its own name, in order |
| Sections.AssignPlainVariants | packages/duro-core/src/theme/sections.ts:20-25 | assigning a duplicate-free record into an empty object copies it in order |
| Sections.CreateSection | packages/duro-core/src/theme/sections.ts:12-31 | the base layout is returned unchanged, and the variants of a duplicate-free record are its layouts, one for one |
| Sections.CreateSectionPlain | packages/duro-core/src/theme/sections.ts:15-30 | every variant is a plain layout under its own name, and `containerQueries` has no effect on the result |
| Sections.CreateSectionNoVariants | packages/duro-core/src/theme/sections.ts:17 | absent variants yield an empty variants record |
| Sections.CreateAll | packages/duro-core/src/theme/sections.ts:79-202 | each configuration goes through `createSection` under its own name, in order |
| Sections.HeroWellFormed | packages/duro-core/src/theme/sections.ts:80-104 | the hero layouts are fully given, with two distinct variants |
| Sections.DashboardWellFormed | packages/duro-core/src/theme/sections.ts:106-127 | the dashboard layouts are fully given, with three distinct variants |
| Sections.StackWellFormed | packages/duro-core/src/theme/sections.ts:129-143 | the stack layouts are fully given, with two distinct variants |
| Sections.GridWellFormed | packages/duro-core/src/theme/sections.ts:145-164 | the grid layouts are fully given, with four distinct variants |
| Sections.SidebarWellFormed | packages/duro-core/src/theme/sections.ts:166-183 | the sidebar layouts are fully given, with three distinct variants |
| Sections.ClusterWellFormed | packages/duro-core/src/theme/sections.ts:185-201 | the cluster layouts are fully given, with two distinct variants |
| Sections.CommonConfigsWellFormed | packages/duro-core/src/theme/sections.ts:79-202 | all six common configurations are well formed |
| BuildCss.RuleCss | packages/duro-core/src/theme/build-css.ts:41-61 | a rule's text is empty exactly when its layout has no defined value; otherwise it opens with `.` for a section rule or `@` for a query, and closes with a brace |
| BuildCss.Render | packages/duro-core/src/theme/build-css.ts:39-65 | the pieces pushed are rules, never empty, at most one per rule asked for |
| BuildCss.RenderDefined | packages/duro-core/src/theme/build-css.ts:39-65 | rules with defined layouts are pushed one for one, in order |
| BuildCss.RenderSectionRules | packages/duro-core/src/theme/build-css.ts:41-50 | section rules push only plain rules |
| BuildCss.QueryRules | packages/duro-core/src/theme/build-css.ts:53-63 | one container-query rule per breakpoint, in order, under the variant's name |
| BuildCss.VariantRules | packages/duro-core/src/theme/build-css.ts:45-63 | a variant's section rule uses its layout (the `layout` field or the variant itself), followed by its container-query rules exactly when it carries `containerQuery` |
| BuildCss.AllVariantRules | packages/duro-core/src/theme/build-css.ts:45-63 | every variant asks for at least one rule (its section rule); `AllVariantRulesAppend` and `VariantRulesAt` give the order |
| BuildCss.AllVariantRulesAppend | packages/duro-core/src/theme/build-css.ts:45-63 | the rules of two variant lists in a row are the rules of each, in order |
| BuildCss.VariantRulesAt | packages/duro-core/src/theme/build-css.ts:45-63 | the rules of the `k`-th variant sit between the rules of the variants before it and those after it |
| BuildCss.SectionRules | packages/duro-core/src/theme/build-css.ts:39-63 | a section's rules are its base rule followed by the rules of its variants, in order |
| BuildCss.SectionPieces | packages/duro-core/src/theme/build-css.ts:39-65 | every piece of the section part is a rule, at most one per rule asked for |
| BuildCss.RegistryRules | packages/duro-core/src/theme/build-css.ts:39-65 | every section asks for at least one rule (its base rule); `RegistryRulesAppend` gives the order |
| BuildCss.RegistryRulesAppend | packages/duro-core/src/theme/build-css.ts:39-65 | the walk visits sections in registry order |
| BuildCss.SectionPiecesAppend | packages/duro-core/src/theme/build-css.ts:39-65 | the pieces of two registries in a row are the pieces of each, in order |
| BuildCss.PlainVariantRules | packages/duro-core/src/theme/build-css.ts:45-50 | plain variants ask for one section rule each, under their own name, in order |
| BuildCss.ConfigRules | packages/duro-core/src/theme/build-css.ts:39-65 | a well-formed configuration asks for its base rule and one rule per variant, all with defined layouts and no container query |
| BuildCss.CreateAllRules | packages/duro-core/src/theme/build-css.ts:39-65 | well-formed configurations ask for one rule per base layout and per variant, and for no container query |
| BuildCss.CommonSectionRules | packages/duro-core/src/theme/sections.ts:79-202 | the common sections ask for 22 section rules with defined layouts |
| BuildCss.CommonSectionPieces | packages/duro-core/src/theme/build-css.ts:53-63 | the common sections push 22 plain rules and no container query, so the hero's `768px` query never reaches the stylesheet |
| BuildCss.Loaded | packages/duro-core/src/theme/build-css.ts:152-159 | a text is kept exactly when some file yields it, so failed files are skipped; when every file loads, the texts are the files' texts one for one |
| BuildCss.LoadedAppend | packages/duro-core/src/theme/build-css.ts:152-159 | loading two file lists in a row keeps the texts of each, in list order |
| BuildCss.BuildCss | packages/duro-core/src/theme/build-css.ts:18-162 | `buildCompleteCSS` for any theme, registry and file outcomes; it carries no contract of its own, and `BuildLayout` states its layout |
| BuildCss.BuildCompleteCss | packages/duro-core/src/theme/build-css.ts:18-162 | `buildCompleteCSS` with the default theme and the common sections; it carries no contract of its own, and `BuildLayout` and `CommonSectionPieces` state what it holds |
| BuildCss.BuildLayout | packages/duro-core/src/theme/build-css.ts:161 | the section rules sit together, in walk order, between the section header and the utility classes, each part separated by a blank line |
| SectionComponent.ClassList | packages/duro-core/src/Section/index.tsx:38-60 | the base class comes first, then the variant class exactly when the variant is truthy, then `duro-container` exactly when container queries are on, then a truthy class name last |
| SectionComponent.ClassTokens | packages/duro-core/src/Section/index.tsx:59 | when section, variant and class name hold no space, splitting the class attribute at spaces gives back the class list exactly |
| SectionComponent.SectionClass | packages/duro-core/src/Section/index.tsx:38-60 | the class attribute, the class list joined by spaces; it carries no contract of its own, and `ClassTokens` states what it holds |
| SectionComponent.GridProps | packages/duro-core/src/Section/index.tsx:103-105 | `Grid` is the `grid` section, with `containerQuery` defaulting to false |
| SectionComponent.ContainerDefaults | packages/duro-core/src/Section/index.tsx:29-33 | left to the defaults, a `Section` is a `stack` with `duro-container`, and a `Grid` has no `duro-container` |
| SectionComponent.KebabCaseLength | packages/duro-core/src/theme/css-generator.ts:151-153 | kebab case adds one character per upper-case letter, and changes a name exactly when it has one |
| SectionComponent.BaseClassMatchesSelector | packages/duro-core/src/Section/index.tsx:42 | the base class is what the base rule selects exactly when the section name has no upper-case letter |
| SectionComponent.VariantClassMatchesSelector | packages/duro-core/src/Section/index.tsx:46 | the variant class is what the variant rule selects exactly when neither name has an upper-case letter |
| SectionComponent.ClusterSpaceBetweenUnstyled | packages/duro-core/src/theme/sections.ts:197-199 | the class of the `cluster` section's `spaceBetween` variant is not what the compiled rule selects |
| Accordion.InitialOpenItems | packages/duro-core/src/Accordion/index.tsx:86-89 | no open items for an absent or empty default, the array as given, or the one value |
| Accordion.RemoveAll | packages/duro-core/src/Accordion/index.tsx:97 | every occurrence of the value is removed and every other item kept, as multisets |
| Accordion.Toggle | packages/duro-core/src/Accordion/index.tsx:91-101 | the clicked item flips; `single` leaves at most that item open; `multiple` keeps every other item's membership, removes an open item and appends a closed one |
| Accordion.ToggleKeepsNoDuplicates | packages/duro-core/src/Accordion/index.tsx:95-99 | a toggle keeps the open list free of duplicates |
| Accordion.ToggleTwiceRestores | packages/duro-core/src/Accordion/index.tsx:95-99 | in `multiple` mode, toggling a closed item twice restores the list exactly |
| Accordion.SingleAtMostOneOpen | packages/duro-core/src/Accordion/index.tsx:92-93 | in `single` mode, the only item that can be open after a toggle is the one clicked |
| Accordion.ViewItem | packages/duro-core/src/Accordion/index.tsx:117-182 | an item is open exactly when its value is in the open list; `aria-expanded` mirrors it unless the trigger's props give their own, which win; the item, trigger and content classes are the base class, its open marker exactly when open, and the caller's class |
| Accordion.ClickTrigger | packages/duro-core/src/Accordion/index.tsx:151-155 | a click toggles the item exactly when the caller gave no `onClick`, which the props spread would put in place of `toggleItem`; otherwise the open list is unchanged |
| Accordion.StateClassTokens | packages/duro-core/src/Accordion/index.tsx:121-125 | when the base class and the custom class hold no space, the class tokens are the base class first, the open marker present exactly when the item is open or the custom class is itself that marker, and a non-empty custom class last |
| Accordion.StateClasses | packages/duro-core/src/Accordion/index.tsx:121-125 | the class string of an item, trigger or content; it carries no contract of its own, and `StateClassTokens` states what it holds |
| Accordion.ClickFlipsItem | packages/duro-core/src/Accordion/index.tsx:152-155 | without a caller `onClick`, clicking a trigger flips that item, `single` closes every other item and `multiple` leaves them alone; with one, nothing changes |
| Dialog.IsOpen | packages/duro-core/src/Dialog/index.tsx:83 | a controlled dialog is open exactly when its `open` prop says so; an uncontrolled one follows its internal state |
| Dialog.Step | packages/duro-core/src/Dialog/index.tsx:84-89 | an event that requests nothing leaves the state alone and reports nothing; a request goes through `setIsOpen` |
| Dialog.SetIsOpen | packages/duro-core/src/Dialog/index.tsx:84-89 | the internal state takes the value only when uncontrolled; `onOpenChange` receives it in both modes |
| Dialog.RenderContent | packages/duro-core/src/Dialog/index.tsx:157-180 | content renders exactly when open, with the overlay, and the close button exactly when `showClose` holds |
| Dialog.Request | packages/duro-core/src/Dialog/index.tsx:107-174 | the trigger requests open exactly when the caller gave it no `onClick`, which the props spread would put in place; a request to close happens exactly for an overlay click, a close click with the button shown, or Escape, while open |
| Dialog.Run | packages/duro-core/src/Dialog/index.tsx:80-89 | a controlled dialog's internal state never changes; without `onOpenChange` nothing is reported |
| Dialog.StartsClosed | packages/duro-core/src/Dialog/index.tsx:81 | an uncontrolled dialog starts closed and shows no content |
| Dialog.ControlledIgnoresEvents | packages/duro-core/src/Dialog/index.tsx:83-87 | a controlled dialog is open exactly when its `open` prop says so, whatever events occur |
| Dialog.ReportsAreRequests | packages/duro-core/src/Dialog/index.tsx:88 | with `onOpenChange` given, the reports are every request of the run, in order |
| Dialog.LastReportIsState | packages/duro-core/src/Dialog/index.tsx:84-89 | in an uncontrolled dialog the last report is the state it ends in |
| Dialog.UncontrolledEvents | packages/duro-core/src/Dialog/index.tsx:107-174 | uncontrolled, the trigger opens the dialog unless the caller replaced its `onClick`, when it does nothing; overlay, Escape and a shown close button close an open one; while closed, nothing but the trigger has an effect |
| Strings.DecimalRoundTrip | packages/duro-swc-plugin/src/transform.ts:88 | the decimal text of a number reads back as the number |
| Entries.SpreadShape | packages/duro-core/src/theme/css-generator.ts:18 | `{ ...a, ...b }` of duplicate-free objects is `a` in order, each key overridden by `b`, then the keys only `b` has |

## Left out

- Strings.DecimalRoundTrip and Transform.TransformValue: `String(n)` is modelled as plain decimal text for every natural number. JavaScript writes numbers from 10^21 up in exponent form (`1e+21`), and an integer literal above 2^53 is first rounded to the nearest double, so neither contract describes those ranges.
- The Babel plumbing is not part of this model: the visitor, the plugin options and `replaceWithMultiple` in `index.ts`. The syntax tree is an abstract datatype. A numeric literal is a natural number, because a negative number is a unary expression in Babel. Non-integer numbers are left out, and so is `String(n)` for them.
- `transformValue`'s `null` result is not modelled. Every node the transform passes to it is an expression, so that branch is dead for object-literal values.
- The row type's optional `transform` field is never set and never read, so it is not part of the model.
- Case conversion is ASCII-only. JavaScript's `toLowerCase` on other letters is not modelled.
- ThemeMapping.Parse: only completeness is proved (`ParseKey`, and `ParseMiss` for misses). That a hit is a key's spelling follows from the match and is not stated.
- Reading a component style file is a parameter, `Loaded(files)`: each file yields its text or fails. The file list, the path joins and the `console.warn` on failure are left out.
- `sectionLayouts` (sections.ts:36-74) is a table of constants that nothing in the modelled core reads, so it is left out.
- A plain layout with a CSS key literally named `layout` or `containerQuery` would pass the `'layout' in variant` test. The model separates the two variant shapes by constructor, so it does not reproduce that ambiguity.
- The `__proto__` key: assigning it to a plain object changes the prototype instead of adding an entry. Object keys that are array indices come first in `Object.entries`. The entry lists do not model either case.
- Sections.CreateSection: the copy is characterised for duplicate-free variant records. JavaScript object literals cannot hold duplicate keys anyway.
- Dialog: the body-overflow effect and the registration and removal of the keydown listener are left out. Only the events they produce are modelled. React's rendering, batching and stale closures are left out too, so each event sees the state the previous one left.
- The other components' `className` builders are left out, and so are the Accordion's own root classes. The item, trigger and content classes are modelled.
- The trigger props are modelled only as the presence of an `onClick`, an `aria-expanded` value and a class name. A caller's `onClick` is a handler the model cannot see, so it is taken to leave the component's state alone. A caller's `type` given through the spread is not modelled.
- `DuroProvider`, the package index, the Storybook setup and the drawing components are outside the core.

=== FILE: accordion.dfy ===
/** The open-item state of the `Accordion` component: the initial list of
    open items, the toggle of one item in `single` and `multiple` mode, and
    what an item shows for the state. */
module Accordion {
  import opened Wrappers
  import opened Strings

  /** `type`: `single` (the default) or `multiple`. */
  datatype AccordionType = Single | Multiple

  /** `defaultValue`: absent, one value, or an array of values. */
  datatype DefaultValue = NoDefault | One(value: string) | Many(values: seq<string>)

  /** The initial open items: none for an absent or empty-string default
      (both are falsy), the array as given, or the one value. */
  function InitialOpenItems(d: DefaultValue): (r: seq<string>)
    ensures d.NoDefault? ==> r == []
    ensures d.One? ==> (r == [] <==> d.value == "") && (d.value != "" ==> r == [d.value])
    ensures d.Many? ==> r == d.values
  {
    match d
    case NoDefault => []
    case One(v) => if v == "" then [] else [v]
    case Many(vs) => vs
  }

  /** An item is open when its value is in the open list (`includes`). */
  predicate IsOpen(openItems: seq<string>, value: string)
  {
    value in openItems
  }

  /** `openItems.filter((item) => item !== value)`: every occurrence of
      `value` removed, every other item kept in order. */
  function RemoveAll(xs: seq<string>, value: string): (r: seq<string>)
    ensures multiset(r) == multiset(xs)[value := 0]
    ensures |r| <= |xs|
  {
    if xs == [] then []
    else
      var rest := RemoveAll(xs[1..], value);
      assert xs == [xs[0]] + xs[1..];
      if xs[0] == value then rest else [xs[0]] + rest
  }

  /** `toggleItem(value)` on the open list. In `single` mode the list
      becomes empty when the item is open and the item alone otherwise; in
      `multiple` mode an open item is removed and a closed one appended. */
  function Toggle(t: AccordionType, openItems: seq<string>, value: string): (r: seq<string>)
    ensures IsOpen(r, value) <==> !IsOpen(openItems, value)
    ensures t == Single ==> |r| <= 1 && forall i :: 0 <= i < |r| ==> r[i] == value
    ensures t == Multiple ==> forall w :: w != value ==> (IsOpen(r, w) <==> IsOpen(openItems, w))
    ensures t == Multiple && IsOpen(openItems, value) ==> multiset(r) == multiset(openItems)[value := 0]
    ensures t == Multiple && !IsOpen(openItems, value) ==> r == openItems + [value]
  {
    if t == Single then
      if value in openItems then [] else [value]
    else if value in openItems then
      var r := RemoveAll(openItems, value);
      forall w | w != value ensures w in r <==> w in openItems {
        assert multiset(r)[w] == multiset(openItems)[w];
        assert w in r <==> w in multiset(r);
        assert w in openItems <==> w in multiset(openItems);
      }
      assert value !in multiset(r);
      r
    else
      openItems + [value]
  }

  /** No value occurs twice. */
  predicate NoDuplicates(xs: seq<string>)
  {
    forall i, j :: 0 <= i < j < |xs| ==> xs[i] != xs[j]
  }

  /** No value occurs twice exactly when each occurs at most once. */
  lemma {:induction false} NoDuplicatesMultiset(xs: seq<string>)
    ensures NoDuplicates(xs) <==> forall w :: multiset(xs)[w] <= 1
  {
    if xs != [] {
      NoDuplicatesMultiset(xs[1..]);
      assert xs == [xs[0]] + xs[1..];
      assert multiset(xs) == multiset{xs[0]} + multiset(xs[1..]);
      if NoDuplicates(xs) {
        assert xs[0] !in xs[1..] by {
          forall k | 0 <= k < |xs[1..]| ensures xs[1..][k] != xs[0] {
            assert xs[1..][k] == xs[k + 1];
          }
        }
        assert NoDuplicates(xs[1..]) by {
          forall i, j | 0 <= i < j < |xs[1..]| ensures xs[1..][i] != xs[1..][j] {
            assert xs[1..][i] == xs[i + 1] && xs[1..][j] == xs[j + 1];
          }
        }
      }
      if forall w :: multiset(xs)[w] <= 1 {
        assert multiset(xs)[xs[0]] <= 1;
        assert xs[0] !in multiset(xs[1..]);
        assert forall w :: multiset(xs[1..])[w] <= multiset(xs)[w];
        forall i, j | 0 <= i < j < |xs| ensures xs[i] != xs[j] {
          if i == 0 {
            assert xs[j] == xs[1..][j - 1] && xs[j] in xs[1..];
          } else {
            assert xs[i] == xs[1..][i - 1] && xs[j] == xs[1..][j - 1];
          }
        }
      }
    }
  }

  /** Toggling in `multiple` mode keeps the open list free of duplicates;
      in `single` mode the result has at most one item anyway. */
  lemma ToggleKeepsNoDuplicates(t: AccordionType, openItems: seq<string>, value: string)
    requires NoDuplicates(openItems)
    ensures NoDuplicates(Toggle(t, openItems, value))
  {
    var r := Toggle(t, openItems, value);
    if t == Multiple {
      NoDuplicatesMultiset(openItems);
      NoDuplicatesMultiset(r);
      if value !in openItems {
        assert multiset(r) == multiset(openItems) + multiset{value};
        assert multiset(openItems)[value] == 0;
      }
    }
  }

  /** Removing a value that is absent changes nothing. */
  lemma {:induction false} RemoveAbsent(xs: seq<string>, value: string)
    requires value !in xs
    ensures RemoveAll(xs, value) == xs
  {
    if xs != [] {
      assert xs[0] != value;
      RemoveAbsent(xs[1..], value);
      assert xs == [xs[0]] + xs[1..];
    }
  }

  /** Removing from a concatenation removes from each part. */
  lemma {:induction false} RemoveAppend(a: seq<string>, b: seq<string>, value: string)
    ensures RemoveAll(a + b, value) == RemoveAll(a, value) + RemoveAll(b, value)
  {
    if a == [] {
      assert a + b == b;
    } else {
      assert (a + b)[0] == a[0] && (a + b)[1..] == a[1..] + b;
      RemoveAppend(a[1..], b, value);
    }
  }

  /** In `multiple` mode, opening a closed item and toggling it again
      restores the open list exactly. */
  lemma ToggleTwiceRestores(openItems: seq<string>, value: string)
    requires !IsOpen(openItems, value)
    ensures Toggle(Multiple, Toggle(Multiple, openItems, value), value) == openItems
  {
    RemoveAppend(openItems, [value], value);
    RemoveAbsent(openItems, value);
    assert RemoveAll([value], value) == [] by {
      assert [value][1..] == [];
    }
    assert openItems + [] == openItems;
  }

  /** In `single` mode, after any toggle at most one item is open, even
      when the initial list held several. */
  lemma SingleAtMostOneOpen(openItems: seq<string>, value: string, w: string)
    requires IsOpen(Toggle(Single, openItems, value), w)
    ensures w == value && Toggle(Single, openItems, value) == [value]
  {
  }

  /** The props a caller passes to `AccordionTrigger`: its `className`,
      and the `aria-expanded` and `onClick` it gives, if any. The rest of
      the props is spread after the component's own `onClick` and
      `aria-expanded`, so a caller's value replaces the component's. */
  datatype TriggerProps = TriggerProps(className: string, ariaExpanded: Option<bool>, onClick: bool)

  /** What an item renders for the state: whether it is open, the
      trigger's `aria-expanded`, and the class attributes of the item, the
      trigger and the content. */
  datatype ItemView = ItemView(isOpen: bool, ariaExpanded: bool, itemClass: string, triggerClass: string, contentClass: string)

  /** `[base, isOpen && base + '-open', className].filter(Boolean).join(' ')`. */
  function StateClasses(base: string, isOpen: bool, className: string): (r: string)
  {
    Join([base] + (if isOpen then [base + "-open"] else []) + (if className != "" then [className] else []), " ")
  }

  /** An item with its `className`, its trigger's props and its content's
      `className`. `aria-expanded` mirrors the open state unless the caller
      gives one; the three class attributes carry the open marker of their
      own base class. */
  function ViewItem(openItems: seq<string>, value: string, className: string, trigger: TriggerProps,
                    contentClassName: string): (v: ItemView)
    ensures v.isOpen <==> value in openItems
    ensures trigger.ariaExpanded.None? ==> v.ariaExpanded == v.isOpen
    ensures trigger.ariaExpanded.Some? ==> v.ariaExpanded == trigger.ariaExpanded.value
    ensures v.itemClass == StateClasses("duro-accordion-item", v.isOpen, className)
    ensures v.triggerClass == StateClasses("duro-accordion-trigger", v.isOpen, trigger.className)
    ensures v.contentClass == StateClasses("duro-accordion-content", v.isOpen, contentClassName)
  {
    var isOpen := IsOpen(openItems, value);
    ItemView(isOpen, trigger.ariaExpanded.GetOr(isOpen),
      StateClasses("duro-accordion-item", isOpen, className),
      StateClasses("duro-accordion-trigger", isOpen, trigger.className),
      StateClasses("duro-accordion-content", isOpen, contentClassName))
  }

  /** A click on an item's trigger: the component's `toggleItem(value)`,
      unless the caller gave an `onClick`, which replaces it. The caller's
      handler cannot reach the open list, which is private to the
      component, so the list is then unchanged. */
  function ClickTrigger(t: AccordionType, openItems: seq<string>, value: string, trigger: TriggerProps): (r: seq<string>)
    ensures trigger.onClick ==> r == openItems
    ensures !trigger.onClick ==> (IsOpen(r, value) <==> !IsOpen(openItems, value))
  {
    if trigger.onClick then openItems else Toggle(t, openItems, value)
  }

  /** The class attribute splits into the base class, the open marker
      exactly when the item is open, and the custom class name when given. */
  lemma StateClassTokens(base: string, isOpen: bool, className: string)
    requires ' ' !in base && ' ' !in className
    ensures var toks := Split(StateClasses(base, isOpen, className), ' ');
      toks[0] == base
      && ((base + "-open") in toks <==> isOpen || className == base + "-open")
      && (className != "" ==> toks[|toks| - 1] == className)
  {
    var parts := [base] + (if isOpen then [base + "-open"] else []) + (if className != "" then [className] else []);
    assert ' ' !in base + "-open" by {
      assert forall i :: 0 <= i < |base + "-open"| ==> (base + "-open")[i] == if i < |base| then base[i] else "-open"[i - |base|];
    }
    SplitJoin(parts, ' ');
    if (base + "-open") in parts && !isOpen && className != base + "-open" {
      assert base != base + "-open";
    }
  }

  /** Clicking an item's trigger flips that item and, in `single` mode,
      closes every other item, whatever the class names and the
      `aria-expanded` given; a caller's `onClick` leaves every item as it
      was. */
  lemma ClickFlipsItem(t: AccordionType, openItems: seq<string>, value: string, other: string,
                       trigger: TriggerProps, className: string, contentClassName: string)
    requires other != value
    ensures var after := ClickTrigger(t, openItems, value, trigger);
      !trigger.onClick ==>
        ViewItem(after, value, className, trigger, contentClassName).isOpen
          == !ViewItem(openItems, value, className, trigger, contentClassName).isOpen
    ensures var after := ClickTrigger(t, openItems, value, trigger);
      !trigger.onClick && t == Single ==> !ViewItem(after, other, className, trigger, contentClassName).isOpen
    ensures var after := ClickTrigger(t, openItems, value, trigger);
      !trigger.onClick && t == Multiple ==>
        ViewItem(after, other, className, trigger, contentClassName).isOpen
          == ViewItem(openItems, other, className, trigger, contentClassName).isOpen
    ensures trigger.onClick ==> ClickTrigger(t, openItems, value, trigger) == openItems
  {
  }
}

=== FILE: build_css.dfy ===
/** The build of the complete stylesheet: the registry walk that lists the
    section rules, the rendering of each rule, and the assembly of all
    parts separated by blank lines. Reading the component style files is a
    parameter: each file either yields its text or fails and is skipped. */
module BuildCss {
  import opened Wrappers
  import opened Strings
  import opened Entries
  import opened Theme
  import opened CssGenerator
  import opened Sections
  import opened Lists

  /** One rule the walk asks for: a section rule (`generateSectionCSS`)
      or a container-query rule (`generateContainerQueryCSS`). */
  datatype Rule =
    | SectionRule(section: string, layout: Layout, variant: Option<string>)
    | QueryRule(section: string, breakpoint: string, layout: Layout, name: string)

  /** The text of one rule; `''` when its layout has no defined value. */
  function RuleCss(rule: Rule): (css: string)
    ensures css == "" <==> forall i :: 0 <= i < |rule.layout| ==> rule.layout[i].1.None?
    ensures css != "" ==> css[0] == (if rule.SectionRule? then '.' else '@') && css[|css| - 1] == '}'
  {
    match rule
    case SectionRule(section, layout, variant) => SectionCSS(section, layout, variant)
    case QueryRule(section, bp, layout, name) => ContainerQueryCSS(section, bp, layout, Some(name))
  }

  /** A piece of the section part: a rule that opens with a selector (`.`)
      or a container query (`@`) and closes with a brace. */
  predicate RulePiece(p: string)
  {
    |p| > 0 && (p[0] == '.' || p[0] == '@') && p[|p| - 1] == '}'
  }

  /** A piece that is a plain rule, not a container query. */
  predicate PlainPiece(p: string)
  {
    |p| > 0 && p[0] == '.'
  }

  /** The pushes of a list of rules (`if (css) sections.push(css)`): each
      rule's text when it is not empty, in order. */
  function Render(rules: seq<Rule>): (r: seq<string>)
    ensures |r| <= |rules|
    ensures forall i :: 0 <= i < |r| ==> RulePiece(r[i])
  {
    KeepNonEmptyHolds(RuleCss, RulePiece, rules);
    KeepNonEmpty(RuleCss, rules)
  }

  /** A rule whose layout is non-empty and fully given. */
  predicate Defined(rule: Rule)
  {
    |rule.layout| > 0 && AllDefined(rule.layout)
  }

  /** Rules with defined layouts yield one piece each, their own text. */
  lemma RenderDefined(rules: seq<Rule>)
    requires forall i :: 0 <= i < |rules| ==> Defined(rules[i])
    ensures |Render(rules)| == |rules|
    ensures forall i :: 0 <= i < |rules| ==> Render(rules)[i] == RuleCss(rules[i])
  {
    forall i | 0 <= i < |rules| ensures RuleCss(rules[i]) != "" {
      assert rules[i].layout[0].1.Some?;
    }
    KeepNonEmptyAll(RuleCss, rules);
  }

  /** Section rules yield only plain rules. */
  lemma RenderSectionRules(rules: seq<Rule>)
    requires forall i :: 0 <= i < |rules| ==> rules[i].SectionRule?
    ensures forall i :: 0 <= i < |Render(rules)| ==> PlainPiece(Render(rules)[i])
  {
    KeepNonEmptyHolds(RuleCss, PlainPiece, rules);
  }

  /** The container-query rules of one variant, one per breakpoint. */
  function QueryRules(section: string, name: string, queries: Entries<Layout>): (r: seq<Rule>)
    ensures |r| == |queries|
    ensures forall i :: 0 <= i < |r| ==> r[i] == QueryRule(section, queries[i].0, queries[i].1, name)
  {
    if queries == [] then []
    else [QueryRule(section, queries[0].0, queries[0].1, name)] + QueryRules(section, name, queries[1..])
  }

  /** Whether a variant carries container queries: a `{ name, layout }`
      record whose `containerQuery` is present. */
  predicate HasQueries(v: Variant)
  {
    v.Rich? && v.containerQuery.Some?
  }

  /** The rules of one variant: its section rule, then its container-query
      rules. */
  function VariantRules(section: string, name: string, v: Variant): (r: seq<Rule>)
    ensures |r| >= 1 && r[0] == SectionRule(section, v.LayoutOf(), Some(name))
    ensures !HasQueries(v) ==> r == [r[0]]
    ensures HasQueries(v) ==> r[1..] == QueryRules(section, name, v.containerQuery.value)
  {
    [SectionRule(section, v.LayoutOf(), Some(name))]
    + (if HasQueries(v) then QueryRules(section, name, v.containerQuery.value) else [])
  }

  /** The rules of the variants, in variant order. Every variant asks for
      at least its own section rule. */
  function AllVariantRules(section: string, variants: Entries<Variant>): (r: seq<Rule>)
    ensures |r| >= |variants|
  {
    if variants == [] then []
    else VariantRules(section, variants[0].0, variants[0].1) + AllVariantRules(section, variants[1..])
  }

  lemma {:induction false} AllVariantRulesAppend(section: string, a: Entries<Variant>, b: Entries<Variant>)
    ensures AllVariantRules(section, a + b) == AllVariantRules(section, a) + AllVariantRules(section, b)
  {
    if a == [] {
      assert a + b == b;
    } else {
      assert (a + b)[0] == a[0] && (a + b)[1..] == a[1..] + b;
      AllVariantRulesAppend(section, a[1..], b);
    }
  }

  /** Each variant's rules (its section rule, then its container-query
      rules) come after the rules of the variants before it and before the
      rules of the variants after it. */
  lemma VariantRulesAt(section: string, vs: Entries<Variant>, k: nat)
    requires k < |vs|
    ensures AllVariantRules(section, vs)
      == AllVariantRules(section, vs[..k]) + VariantRules(section, vs[k].0, vs[k].1) + AllVariantRules(section, vs[k + 1..])
  {
    assert vs == vs[..k] + ([vs[k]] + vs[k + 1..]);
    AllVariantRulesAppend(section, vs[..k], [vs[k]] + vs[k + 1..]);
    assert ([vs[k]] + vs[k + 1..])[1..] == vs[k + 1..];
  }

  /** The rules of one section: its base rule, then its variants' rules. */
  function SectionRules(name: string, def: SectionDefinition): (r: seq<Rule>)
    ensures |r| >= 1 && r[0] == SectionRule(name, def.baseLayout, None)
    ensures r[1..] == AllVariantRules(name, def.variants)
  {
    [SectionRule(name, def.baseLayout, None)] + AllVariantRules(name, def.variants)
  }

  /** The registry walk, in registry order. */
  function RegistryRules(registry: Registry): (r: seq<Rule>)
    ensures |r| >= |registry|
  {
    if registry == [] then []
    else SectionRules(registry[0].0, registry[0].1) + RegistryRules(registry[1..])
  }

  /** The section part of the stylesheet. Every piece is a rule. */
  function SectionPieces(registry: Registry): (r: seq<string>)
    ensures forall i :: 0 <= i < |r| ==> RulePiece(r[i])
    ensures |r| <= |RegistryRules(registry)|
  {
    Render(RegistryRules(registry))
  }

  /** Walking two registries one after the other walks their
      concatenation. */
  lemma {:induction false} RegistryRulesAppend(a: Registry, b: Registry)
    ensures RegistryRules(a + b) == RegistryRules(a) + RegistryRules(b)
  {
    if a == [] {
      assert a + b == b;
    } else {
      assert (a + b)[0] == a[0] && (a + b)[1..] == a[1..] + b;
      RegistryRulesAppend(a[1..], b);
    }
  }

  lemma SectionPiecesAppend(a: Registry, b: Registry)
    ensures SectionPieces(a + b) == SectionPieces(a) + SectionPieces(b)
  {
    RegistryRulesAppend(a, b);
    KeepNonEmptyAppend(RuleCss, RegistryRules(a), RegistryRules(b));
  }

  /** Plain variants ask for one section rule each, in order. */
  lemma {:induction false} PlainVariantRules(section: string, ls: Entries<Layout>)
    ensures AllVariantRules(section, PlainVariants(ls))
         == seq(|ls|, i requires 0 <= i < |ls| => SectionRule(section, ls[i].1, Some(ls[i].0)))
  {
    if ls != [] {
      var vs := PlainVariants(ls);
      assert vs[1..] == PlainVariants(ls[1..]);
      PlainVariantRules(section, ls[1..]);
    }
  }

  /** A well-formed configuration asks for its base rule and one section
      rule per variant, every one with a defined layout, whatever container
      queries the configuration held. */
  lemma ConfigRules(name: string, c: SectionConfig)
    requires WellFormedConfig(c)
    ensures var rs := SectionRules(name, CreateSection(c));
      |rs| == 1 + |c.variants.GetOr([])|
      && forall i :: 0 <= i < |rs| ==> rs[i].SectionRule? && Defined(rs[i])
  {
    PlainVariantRules(name, c.variants.GetOr([]));
  }

  /** Two runs of defined section rules make one. */
  lemma PlainRulesConcat(a: seq<Rule>, b: seq<Rule>)
    requires forall i :: 0 <= i < |a| ==> a[i].SectionRule? && Defined(a[i])
    requires forall i :: 0 <= i < |b| ==> b[i].SectionRule? && Defined(b[i])
    ensures forall i :: 0 <= i < |a + b| ==> (a + b)[i].SectionRule? && Defined((a + b)[i])
  {
    assert forall i :: |a| <= i < |a + b| ==> (a + b)[i] == b[i - |a|];
  }

  /** One rule per configuration plus one per variant. */
  function RuleCount(configs: Entries<SectionConfig>): nat
  {
    if configs == [] then 0 else 1 + |configs[0].1.variants.GetOr([])| + RuleCount(configs[1..])
  }

  /** Well-formed configurations ask for one section rule per base layout
      and per variant, and for no container query. */
  lemma {:induction false} CreateAllRules(configs: Entries<SectionConfig>)
    requires forall i :: 0 <= i < |configs| ==> WellFormedConfig(configs[i].1)
    ensures var rs := RegistryRules(CreateAll(configs));
      |rs| == RuleCount(configs) && forall i :: 0 <= i < |rs| ==> rs[i].SectionRule? && Defined(rs[i])
  {
    if configs != [] {
      var reg := CreateAll(configs);
      assert reg[1..] == CreateAll(configs[1..]);
      ConfigRules(configs[0].0, configs[0].1);
      CreateAllRules(configs[1..]);
      var a, b := SectionRules(reg[0].0, reg[0].1), RegistryRules(reg[1..]);
      assert RegistryRules(reg) == a + b;
      PlainRulesConcat(a, b);
    }
  }

  lemma RuleCountSix(a: (string, SectionConfig), b: (string, SectionConfig), c: (string, SectionConfig),
                     d: (string, SectionConfig), e: (string, SectionConfig), f: (string, SectionConfig))
    ensures RuleCount([a, b, c, d, e, f]) == 6 + |a.1.variants.GetOr([])| + |b.1.variants.GetOr([])|
      + |c.1.variants.GetOr([])| + |d.1.variants.GetOr([])| + |e.1.variants.GetOr([])| + |f.1.variants.GetOr([])|
  {
    var s := [a, b, c, d, e, f];
    assert RuleCount([f]) == 1 + |f.1.variants.GetOr([])| by { assert [f][1..] == []; }
    assert RuleCount([e, f]) == 1 + |e.1.variants.GetOr([])| + RuleCount([f]) by { assert [e, f][1..] == [f]; }
    assert RuleCount([d, e, f]) == 1 + |d.1.variants.GetOr([])| + RuleCount([e, f]) by { assert [d, e, f][1..] == [e, f]; }
    assert RuleCount([c, d, e, f]) == 1 + |c.1.variants.GetOr([])| + RuleCount([d, e, f]) by {
      assert [c, d, e, f][1..] == [d, e, f];
    }
    assert RuleCount([b, c, d, e, f]) == 1 + |b.1.variants.GetOr([])| + RuleCount([c, d, e, f]) by {
      assert [b, c, d, e, f][1..] == [c, d, e, f];
    }
    assert s[1..] == [b, c, d, e, f];
  }

  /** The walk of the common sections asks for 22 section rules, six base
      rules and sixteen variant rules, each with a defined layout. */
  lemma CommonSectionRules()
    ensures var rs := RegistryRules(CommonSections());
      |rs| == 22 && forall i :: 0 <= i < |rs| ==> rs[i].SectionRule? && Defined(rs[i])
  {
    CommonConfigsWellFormed();
    HeroWellFormed();
    DashboardWellFormed();
    StackWellFormed();
    GridWellFormed();
    SidebarWellFormed();
    ClusterWellFormed();
    CreateAllRules(CommonConfigs);
    RuleCountSix(("hero", HeroConfig), ("dashboard", DashboardConfig), ("stack", StackConfig),
                 ("grid", GridConfig), ("sidebar", SidebarConfig), ("cluster", ClusterConfig));
  }

  /** The common sections yield 22 plain rules and no container query:
      the `768px` container query given to the hero section never reaches
      the stylesheet. */
  lemma CommonSectionPieces()
    ensures |SectionPieces(CommonSections())| == 22
    ensures forall i :: 0 <= i < 22 ==> PlainPiece(SectionPieces(CommonSections())[i])
  {
    CommonSectionRules();
    DefinedRegistryPieces(CommonSections(), RegistryRules(CommonSections()));
  }

  /** `DefinedSectionPieces`, for the rules a registry asks for. */
  lemma DefinedRegistryPieces(registry: Registry, rs: seq<Rule>)
    requires rs == RegistryRules(registry)
    requires forall i :: 0 <= i < |rs| ==> rs[i].SectionRule? && Defined(rs[i])
    ensures |SectionPieces(registry)| == |rs|
    ensures forall i :: 0 <= i < |rs| ==> PlainPiece(SectionPieces(registry)[i])
  {
    assert SectionPieces(registry) == Render(rs);
    DefinedSectionPieces(rs);
  }

  /** Defined section rules push one plain piece each. */
  lemma DefinedSectionPieces(rules: seq<Rule>)
    requires forall i :: 0 <= i < |rules| ==> rules[i].SectionRule? && Defined(rules[i])
    ensures |Render(rules)| == |rules|
    ensures forall i :: 0 <= i < |rules| ==> PlainPiece(Render(rules)[i])
  {
    RenderDefined(rules);
    RenderSectionRules(rules);
  }

  /** The opening part: the font import. */
  const FontsImport := "/* Google Fonts - JetBrains Mono */\n@import url('https://fonts.googleapis.com/css2?family=JetBrains+Mono:wght@100;200;300;400;500;600;700&display=swap');\n"

  const SectionsHeader := "\n/* Section Layouts */"

  const Utilities :=
    "\n/* Utility Classes */\n.duro-container {\n  container-type: inline-size;\n}\n\n"
    + ".duro-visually-hidden {\n  position: absolute;\n  width: 1px;\n  height: 1px;\n  padding: 0;\n"
    + "  margin: -1px;\n  overflow: hidden;\n  clip: rect(0, 0, 0, 0);\n  white-space: nowrap;\n  border-width: 0;\n}\n\n"
    + "/* Base Styles */\n.duro-box {\n  box-sizing: border-box;\n}\n\n.duro-flex {\n  display: flex;\n}\n\n"
    + ".duro-grid {\n  display: grid;\n}\n"

  const ComponentsHeader := "\n/* Component Styles */"

  /** The component style files that could be read, in list order. */
  function Loaded(files: seq<Option<string>>): (r: seq<string>)
    ensures |r| <= |files|
    ensures (forall i :: 0 <= i < |files| ==> files[i].Some?) ==>
      |r| == |files| && forall i :: 0 <= i < |r| ==> files[i] == Some(r[i])
    ensures forall t :: t in r <==> Some(t) in files
  {
    if files == [] then []
    else
      var rest := Loaded(files[1..]);
      var r := (if files[0].Some? then [files[0].value] else []) + rest;
      assert forall t :: Some(t) in files <==> Some(t) == files[0] || Some(t) in files[1..];
      r
  }

  /** Loading two lists of files in a row keeps the texts of each, in
      order. */
  lemma {:induction false} LoadedAppend(a: seq<Option<string>>, b: seq<Option<string>>)
    ensures Loaded(a + b) == Loaded(a) + Loaded(b)
  {
    if a != [] {
      assert (a + b)[0] == a[0] && (a + b)[1..] == a[1..] + b;
      LoadedAppend(a[1..], b);
    } else {
      assert a + b == b;
    }
  }

  /** The parts before the section rules. */
  function Opening(theme: DuroTheme): seq<string>
  {
    [FontsImport, ThemeCSS(theme), SectionsHeader]
  }

  /** The parts after the section rules. */
  function Closing(files: seq<Option<string>>): seq<string>
  {
    [Utilities, ComponentsHeader] + Loaded(files)
  }

  /** `buildCompleteCSS` for a theme, a registry and the outcome of reading
      each component style file: every part joined by a blank line. */
  function BuildCss(theme: DuroTheme, registry: Registry, files: seq<Option<string>>): string
  {
    Join(Opening(theme) + SectionPieces(registry) + Closing(files), "\n\n")
  }

  /** `buildCompleteCSS` itself: the default theme with the common
      sections. */
  function BuildCompleteCss(files: seq<Option<string>>): string
  {
    BuildCss(DefaultTheme.(sections := CommonSections()), CommonSections(), files)
  }

  /** The section rules sit together, in walk order, between the section
      header and the utility classes, each separated by a blank line. */
  lemma BuildLayout(theme: DuroTheme, registry: Registry, files: seq<Option<string>>)
    requires SectionPieces(registry) != []
    ensures BuildCss(theme, registry, files)
         == Join(Opening(theme), "\n\n") + "\n\n" + Join(SectionPieces(registry), "\n\n") + "\n\n"
            + Join(Closing(files), "\n\n")
  {
    JoinAppend3(Opening(theme), SectionPieces(registry), Closing(files), "\n\n");
  }
}

=== FILE: css_generator.dfy ===
/** The theme compiler of the core package: CSS custom properties for a
    theme, the light/dark theme blocks, per-section layout rules and their
    container-query rules. */
module CssGenerator {
  import opened Wrappers
  import opened Strings
  import opened Entries
  import opened Theme

  /** The replacement step of `kebabCase`, the global regular expression
      `([a-z0-9]|(?=[A-Z]))([A-Z])` replaced by `$1-$2`, scanned left to
      right. A lower-case letter or digit followed by an upper-case letter
      is one match; otherwise an upper-case letter alone is a match with an
      empty first group; any other character is not matched. */
  function KebabScan(s: string): (r: string)
    ensures |r| == |s| + CountUpper(s)
    decreases |s|
  {
    if s == [] then []
    else if |s| >= 2 && (IsLower(s[0]) || IsDigit(s[0])) && IsUpper(s[1]) then
      [s[0], '-', s[1]] + KebabScan(s[2..])
    else if IsUpper(s[0]) then ['-', s[0]] + KebabScan(s[1..])
    else [s[0]] + KebabScan(s[1..])
  }

  /** `kebabCase`. */
  function KebabCase(s: string): (r: string)
    ensures NoUpper(r)
  {
    ToLower(KebabScan(s))
  }

  /** `themeVar`: a reference to the variable of `category` named after
      `key` in kebab case. */
  function ThemeVar(category: string, key: string): (r: string)
    ensures StartsWith(r, "var(--duro-" + category + "-")
    ensures r[|r| - 1] == ')'
  {
    var pre := "var(--duro-" + category + "-";
    var r := pre + KebabCase(key) + ")";
    assert r[..|pre|] == pre;
    r
  }

  /** The `mode` argument of `generateCSSVariables`. */
  datatype Mode = Light | Dark

  /** The palette the color lines come from: in dark mode with a dark
      palette, `{ ...colors, ...modes.dark }`; otherwise the base palette. */
  function ColorsFor(theme: DuroTheme, mode: Mode): (p: Palette)
    ensures mode == Light || DarkPalette(theme).None? ==> p == theme.colors.base
    ensures mode == Dark && DarkPalette(theme).Some? ==>
      p == Spread(theme.colors.base, DarkPalette(theme).value)
    ensures (mode == Dark && DarkPalette(theme).Some?
      && UniqueKeys(theme.colors.base) && UniqueKeys(DarkPalette(theme).value)) ==>
      var base, dark := theme.colors.base, DarkPalette(theme).value;
      p == Override(base, dark) + Fresh(base, dark)
  {
    if mode == Dark && DarkPalette(theme).Some? then
      var base, dark := theme.colors.base, DarkPalette(theme).value;
      DarkSpreadShape(base, dark);
      Spread(base, dark)
    else theme.colors.base
  }

  /** `SpreadShape`, for whichever palettes are duplicate-free. */
  lemma DarkSpreadShape(base: Palette, dark: Palette)
    ensures UniqueKeys(base) && UniqueKeys(dark) ==> Spread(base, dark) == Override(base, dark) + Fresh(base, dark)
  {
    if UniqueKeys(base) && UniqueKeys(dark) {
      SpreadShape(base, dark);
    }
  }

  /** The name of the variable `name` of `family`: `--duro-<family>-<name>`. */
  function VarName(family: string, name: string): (r: string)
    ensures StartsWith(r, "--duro-" + family + "-")
  {
    var pre := "--duro-" + family + "-";
    var r := pre + name;
    assert r[..|pre|] == pre;
    r
  }

  /** One variable declaration line, indented by two spaces. */
  function VarLine(family: string, name: string, value: string): (r: string)
    ensures |r| > 0 && r[0] == ' '
  {
    "  " + VarName(family, name) + ": " + value + ";"
  }

  /** Every line is non-empty and starts with a space. */
  predicate AllIndented(lines: seq<string>)
  {
    forall i :: 0 <= i < |lines| ==> |lines[i]| > 0 && lines[i][0] == ' '
  }

  lemma IndentedAppend(a: seq<string>, b: seq<string>)
    requires AllIndented(a) && AllIndented(b)
    ensures AllIndented(a + b)
  {
    assert forall i :: |a| <= i < |a + b| ==> (a + b)[i] == b[i - |a|];
  }

  /** The color entries that yield a line: key not `modes`, value a
      string. */
  function TextColors(p: Palette): (r: Entries<string>)
    ensures |r| <= |p|
    ensures forall i :: 0 <= i < |p| && p[i].0 != "modes" && p[i].1.Some? ==> (p[i].0, p[i].1.value) in r
    ensures forall e :: e in r ==> e.0 != "modes" && (e.0, Some(e.1)) in p
  {
    if p == [] then []
    else
      var rest := TextColors(p[1..]);
      assert forall i :: 1 <= i < |p| ==> p[i] == p[1..][i - 1];
      (if p[0].0 != "modes" && p[0].1.Some? then [(p[0].0, p[0].1.value)] else []) + rest
  }

  /** One line per entry of `scale`, in order, named by the key (kebab-cased
      when `kebab` holds) and holding the value. */
  function ScaleLines(family: string, scale: Entries<string>, kebab: bool): (r: seq<string>)
    ensures |r| == |scale|
    ensures AllIndented(r)
    ensures forall i :: 0 <= i < |scale| ==>
      r[i] == VarLine(family, if kebab then KebabCase(scale[i].0) else scale[i].0, scale[i].1)
  {
    if scale == [] then []
    else
      [VarLine(family, if kebab then KebabCase(scale[0].0) else scale[0].0, scale[0].1)]
      + ScaleLines(family, scale[1..], kebab)
  }

  /** The color lines: the `forEach` over the palette that skips `modes`
      and values that are not strings. */
  function ColorLines(p: Palette): (r: seq<string>)
    ensures |r| <= |p|
  {
    if p == [] then []
    else
      (if p[0].0 != "modes" && p[0].1.Some? then [VarLine("color", KebabCase(p[0].0), p[0].1.value)] else [])
      + ColorLines(p[1..])
  }

  /** The color lines are the scale lines of the string-valued colors. */
  lemma {:induction false} ColorLinesAreTextColorLines(p: Palette)
    ensures ColorLines(p) == ScaleLines("color", TextColors(p), true)
  {
    if p != [] {
      ColorLinesAreTextColorLines(p[1..]);
      var head := if p[0].0 != "modes" && p[0].1.Some? then [(p[0].0, p[0].1.value)] else [];
      ScaleLinesAppend("color", head, TextColors(p[1..]), true);
    }
  }

  lemma {:induction false} ScaleLinesAppend(family: string, a: Entries<string>, b: Entries<string>, kebab: bool)
    ensures ScaleLines(family, a + b, kebab) == ScaleLines(family, a, kebab) + ScaleLines(family, b, kebab)
  {
    if a == [] {
      assert a + b == b;
    } else {
      assert (a + b)[0] == a[0] && (a + b)[1..] == a[1..] + b;
      ScaleLinesAppend(family, a[1..], b, kebab);
    }
  }

  /** A scale as `generateCSSVariables` walks it: the family its variables
      are declared under, its entries, and whether its keys are
      kebab-cased. */
  datatype Part = Part(family: string, scale: Entries<string>, kebab: bool)

  /** The scales in the order their lines are written: the string-valued
      colors, then space (keys used as they are), fonts, font sizes, line
      heights, borders, radii and shadows. */
  function Parts(theme: DuroTheme, mode: Mode): (ps: seq<Part>)
    ensures |ps| == 8
  {
    [Part("color", TextColors(ColorsFor(theme, mode)), true)]
    + ([Part("space", theme.space, false)]
    + ([Part("font", theme.fonts, true)]
    + ([Part("font-size", theme.fontSizes, true)]
    + ([Part("line-height", theme.lineHeights, true)]
    + ([Part("border", theme.borders, true)]
    + ([Part("radius", theme.radii, true)]
    + [Part("shadow", theme.shadows, true)]))))))
  }

  /** The lines of one part. */
  function PartScaleLines(pt: Part): seq<string>
  {
    ScaleLines(pt.family, pt.scale, pt.kebab)
  }

  /** The lines of the parts, one part after the other. */
  function PartLines(ps: seq<Part>): (r: seq<string>)
    ensures AllIndented(r)
  {
    if ps == [] then []
    else
      IndentedAppend(PartScaleLines(ps[0]), PartLines(ps[1..]));
      PartScaleLines(ps[0]) + PartLines(ps[1..])
  }

  lemma {:induction false} PartLinesAppend(a: seq<Part>, b: seq<Part>)
    ensures PartLines(a + b) == PartLines(a) + PartLines(b)
  {
    if a == [] {
      assert a + b == b;
    } else {
      assert (a + b)[0] == a[0] && (a + b)[1..] == a[1..] + b;
      PartLinesAppend(a[1..], b);
    }
  }

  lemma PartLinesCons(pt: Part, rest: seq<Part>)
    ensures PartLines([pt] + rest) == PartScaleLines(pt) + PartLines(rest)
  {
    assert ([pt] + rest)[0] == pt && ([pt] + rest)[1..] == rest;
  }

  /** Line `i` of part `p` sits after the lines of the parts before it and
      declares the `i`-th entry of that part's scale. */
  lemma PartLineAt(ps: seq<Part>, p: nat, i: nat)
    requires p < |ps| && i < |ps[p].scale|
    ensures |PartLines(ps[..p])| + i < |PartLines(ps)|
    ensures var pt := ps[p];
      PartLines(ps)[|PartLines(ps[..p])| + i]
        == VarLine(pt.family, if pt.kebab then KebabCase(pt.scale[i].0) else pt.scale[i].0, pt.scale[i].1)
  {
    assert ps == ps[..p] + ([ps[p]] + ps[p + 1..]);
    PartLinesAppend(ps[..p], [ps[p]] + ps[p + 1..]);
    PartLinesAppend([ps[p]], ps[p + 1..]);
    assert [ps[p]][1..] == [];
  }

  /** Every line belongs to one entry of one part. */
  lemma {:induction false} PartLineLocate(ps: seq<Part>, j: nat) returns (p: nat, i: nat)
    requires j < |PartLines(ps)|
    ensures p < |ps| && i < |ps[p].scale|
    ensures j == |PartLines(ps[..p])| + i
  {
    var head := PartScaleLines(ps[0]);
    if j < |head| {
      p, i := 0, j;
      assert ps[..0] == [];
    } else {
      var p', i' := PartLineLocate(ps[1..], j - |head|);
      p, i := p' + 1, i';
      assert ps[..p] == [ps[0]] + ps[1..][..p'];
      assert ps[..p][0] == ps[0] && ps[..p][1..] == ps[1..][..p'];
    }
  }

  /** Every line of `generateCSSVariables`: the lines of the parts, in the
      order colors, space, fonts, font sizes, line heights, borders, radii,
      shadows. Space keys are used as they are; every other key is
      kebab-cased. */
  function VariableLines(theme: DuroTheme, mode: Mode): (r: seq<string>)
    ensures |r| == |TextColors(ColorsFor(theme, mode))| + |theme.space| + |theme.fonts|
      + |theme.fontSizes| + |theme.lineHeights| + |theme.borders| + |theme.radii| + |theme.shadows|
    ensures AllIndented(r)
  {
    PartsUnfold(theme, mode);
    PartLines(Parts(theme, mode))
  }

  /** The lines as the generator writes them: the color `forEach`, then
      one `Object.entries` loop per scale. */
  lemma VariableLinesWritten(theme: DuroTheme, mode: Mode)
    ensures VariableLines(theme, mode)
      == ColorLines(ColorsFor(theme, mode))
       + (ScaleLines("space", theme.space, false)
       + (ScaleLines("font", theme.fonts, true)
       + (ScaleLines("font-size", theme.fontSizes, true)
       + (ScaleLines("line-height", theme.lineHeights, true)
       + (ScaleLines("border", theme.borders, true)
       + (ScaleLines("radius", theme.radii, true)
       + ScaleLines("shadow", theme.shadows, true)))))))
  {
    ColorLinesAreTextColorLines(ColorsFor(theme, mode));
    PartsUnfold(theme, mode);
  }

  /** `PartLines` of the eight parts, written out. */
  lemma PartsUnfold(theme: DuroTheme, mode: Mode)
    ensures PartLines(Parts(theme, mode))
      == ScaleLines("color", TextColors(ColorsFor(theme, mode)), true)
       + (ScaleLines("space", theme.space, false)
       + (ScaleLines("font", theme.fonts, true)
       + (ScaleLines("font-size", theme.fontSizes, true)
       + (ScaleLines("line-height", theme.lineHeights, true)
       + (ScaleLines("border", theme.borders, true)
       + (ScaleLines("radius", theme.radii, true)
       + ScaleLines("shadow", theme.shadows, true)))))))
  {
    PartLinesEight(
      Part("color", TextColors(ColorsFor(theme, mode)), true), Part("space", theme.space, false),
      Part("font", theme.fonts, true), Part("font-size", theme.fontSizes, true),
      Part("line-height", theme.lineHeights, true), Part("border", theme.borders, true),
      Part("radius", theme.radii, true), Part("shadow", theme.shadows, true));
  }

  lemma PartLinesEight(a: Part, b: Part, c: Part, d: Part, e: Part, f: Part, g: Part, h: Part)
    ensures PartLines([a] + ([b] + ([c] + ([d] + ([e] + ([f] + ([g] + [h])))))))
      == PartScaleLines(a) + (PartScaleLines(b) + (PartScaleLines(c) + (PartScaleLines(d)
       + (PartScaleLines(e) + (PartScaleLines(f) + (PartScaleLines(g) + PartScaleLines(h)))))))
  {
    PartLinesCons(h, []);
    assert [h] == [h] + [];
    assert PartScaleLines(h) + [] == PartScaleLines(h);
    PartLinesCons(g, [h]);
    PartLinesCons(f, [g] + [h]);
    PartLinesCons(e, [f] + ([g] + [h]));
    PartLinesCons(d, [e] + ([f] + ([g] + [h])));
    PartLinesCons(c, [d] + ([e] + ([f] + ([g] + [h]))));
    PartLinesCons(b, [c] + ([d] + ([e] + ([f] + ([g] + [h])))));
    PartLinesCons(a, [b] + ([c] + ([d] + ([e] + ([f] + ([g] + [h]))))));
  }

  /** `generateCSSVariables`: the lines joined by newlines; empty exactly
      when the theme yields no line. */
  function CSSVariables(theme: DuroTheme, mode: Mode): (r: string)
    ensures r == "" <==> VariableLines(theme, mode) == []
  {
    var lines := VariableLines(theme, mode);
    JoinNonEmpty(lines, "\n");
    Join(lines, "\n")
  }

  /** The text splits back into the lines at its newlines, when no value
      holds a newline: with `DeclarationLine`, the text is one declaration
      per entry, in the walk's order. */
  lemma CSSVariablesSplit(theme: DuroTheme, mode: Mode)
    requires VariableLines(theme, mode) != []
    requires forall i :: 0 <= i < |VariableLines(theme, mode)| ==> '\n' !in VariableLines(theme, mode)[i]
    ensures Split(CSSVariables(theme, mode), '\n') == VariableLines(theme, mode)
  {
    assert "\n" == ['\n'];
    SplitJoin(VariableLines(theme, mode), '\n');
  }

  /** Joining lines that are all non-empty gives the empty string only for
      no lines. */
  lemma {:induction false} JoinNonEmpty(xs: seq<string>, sep: string)
    requires AllIndented(xs)
    ensures Join(xs, sep) == "" <==> xs == []
  {
    if |xs| > 1 {
      assert |Join(xs, sep)| >= |xs[0]|;
    }
  }

  /** The dark variables, or `''` when the theme has no dark palette. */
  function DarkVars(theme: DuroTheme): (r: string)
    ensures r == "" <==> DarkPalette(theme).None? || VariableLines(theme, Dark) == []
    ensures r != "" ==> r == CSSVariables(theme, Dark)
  {
    if DarkPalette(theme).Some? then CSSVariables(theme, Dark) else ""
  }

  /** The comment line the stylesheet opens with (its leading `/` kept
      apart so that the first character is evident). */
  const Banner := "/" + "* Duro CSS Variables - Auto-generated from theme */"

  function RootBlock(vars: string): (r: string)
    ensures |r| > 0 && r[0] == ':' && r[|r| - 1] == '}'
    ensures |r| == 30 + |vars| + 2 && r[30..30 + |vars|] == vars
  {
    var open, close := ":root,\n[data-theme=\"light\"] {\n", "\n}";
    var r := open + vars + close;
    assert r[0] == open[0] && r[|r| - 1] == close[|close| - 1];
    r
  }

  function DarkBlock(vars: string): (r: string)
    ensures |r| > 0 && r[0] == '[' && r[|r| - 1] == '}'
    ensures |r| == 22 + |vars| + 2 && r[22..22 + |vars|] == vars
  {
    var open, close := "[data-theme=\"dark\"] {\n", "\n}";
    var r := open + vars + close;
    assert r[0] == open[0] && r[|r| - 1] == close[|close| - 1];
    r
  }

  function MediaBlock(vars: string): (r: string)
    ensures |r| > 0 && r[0] == '@' && r[|r| - 1] == '}'
    ensures |r| == 66 + |vars| + 6 && r[66..66 + |vars|] == vars
  {
    var open, close := "@" + "media (prefers-color-scheme: dark) {\n  :root:not([data-theme]) {\n", "\n  }\n}";
    var r := open + vars + close;
    assert r[0] == open[0] && r[|r| - 1] == close[|close| - 1];
    r
  }

  /** The theme stylesheet as laid out by the template, after trimming:
      the banner, the light block, the dark block when there are dark
      variables, and the `prefers-color-scheme` block holding the dark
      variables if any and the light ones otherwise. */
  function ThemeDocument(light: string, dark: string): (r: string)
    ensures |r| > 0 && r[0] == '/' && r[|r| - 1] == '}'
  {
    var head := Banner + "\n" + RootBlock(light) + "\n\n" + (if dark != "" then DarkBlock(dark) else "") + "\n\n";
    var media := MediaBlock(if dark != "" then dark else light);
    var r := head + media;
    assert Banner[0] == '/';
    assert r[0] == head[0] == Banner[0];
    assert r[|r| - 1] == media[|media| - 1];
    r
  }

  /** Trimming the template removes exactly the newline it opens with and
      the one it closes with. */
  lemma TrimDocument(light: string, dark: string)
    ensures Trim("\n" + ThemeDocument(light, dark) + "\n") == ThemeDocument(light, dark)
  {
    TrimFrame("\n", ThemeDocument(light, dark), "\n");
  }

  /** `generateThemeCSS`. */
  function ThemeCSS(theme: DuroTheme): (r: string)
    ensures r == ThemeDocument(CSSVariables(theme, Light), DarkVars(theme))
  {
    var light, dark := CSSVariables(theme, Light), DarkVars(theme);
    TrimDocument(light, dark);
    Trim("\n" + ThemeDocument(light, dark) + "\n")
  }

  /** Without a dark palette there is no dark block and the media block
      repeats the light variables. */
  lemma NoDarkPaletteNoDarkBlock(theme: DuroTheme)
    requires DarkPalette(theme).None?
    ensures var light := CSSVariables(theme, Light);
      ThemeCSS(theme) == Banner + "\n" + RootBlock(light) + "\n\n" + "\n\n" + MediaBlock(light)
  {
    var light := CSSVariables(theme, Light);
    var x := Banner + "\n" + RootBlock(light) + "\n\n";
    assert x + "" == x;
  }

  /** The stylesheet of the default theme has no dark block. */
  lemma DefaultThemeNoDarkBlock()
    ensures var light := CSSVariables(DefaultTheme, Light);
      ThemeCSS(DefaultTheme) == Banner + "\n" + RootBlock(light) + "\n\n" + "\n\n" + MediaBlock(light)
  {
    DefaultThemeHasNoDarkPalette();
    NoDarkPaletteNoDarkBlock(DefaultTheme);
  }

  /** With dark variables the dark block follows the light block and the
      media block holds the dark variables. */
  lemma DarkPaletteDarkBlock(theme: DuroTheme)
    requires DarkPalette(theme).Some? && VariableLines(theme, Dark) != []
    ensures var light, dark := CSSVariables(theme, Light), CSSVariables(theme, Dark);
      ThemeCSS(theme) == Banner + "\n" + RootBlock(light) + "\n\n" + DarkBlock(dark) + "\n\n" + MediaBlock(dark)
  {
  }

  /** In dark mode, for duplicate-free palettes, the colors are the base
      colors in base order, each overridden by the dark palette, followed by
      the colors only the dark palette has. */
  lemma DarkColorsOverrideBase(theme: DuroTheme)
    requires DarkPalette(theme).Some?
    requires UniqueKeys(theme.colors.base) && UniqueKeys(DarkPalette(theme).value)
    ensures var base, dark := theme.colors.base, DarkPalette(theme).value;
      ColorsFor(theme, Dark) == Override(base, dark) + Fresh(base, dark)
  {
    SpreadShape(theme.colors.base, DarkPalette(theme).value);
  }

  /** Only the `dark` mode is ever read: replacing the `modes` record by
      any other with the same dark palette (say, another `light` palette)
      changes neither the variables nor the stylesheet. */
  lemma OnlyDarkModeRead(theme: DuroTheme, modes: Option<Entries<Palette>>)
    requires DarkPalette(theme.(colors := theme.colors.(modes := modes))) == DarkPalette(theme)
    ensures var other := theme.(colors := theme.colors.(modes := modes));
      CSSVariables(other, Light) == CSSVariables(theme, Light)
      && CSSVariables(other, Dark) == CSSVariables(theme, Dark)
      && ThemeCSS(other) == ThemeCSS(theme)
  {
    var other := theme.(colors := theme.colors.(modes := modes));
    assert ColorsFor(other, Light) == ColorsFor(theme, Light);
    assert ColorsFor(other, Dark) == ColorsFor(theme, Dark);
    assert VariableLines(other, Light) == VariableLines(theme, Light);
    assert VariableLines(other, Dark) == VariableLines(theme, Dark);
  }

  /** The selector of a section rule: the kebab-cased section name, then
      the kebab-cased variant when one is given and non-empty. */
  function SectionSelector(sectionName: string, variant: Option<string>): (r: string)
    ensures StartsWith(r, ".duro-section-" + KebabCase(sectionName))
    ensures variant.Some? && variant.value != "" ==>
      r == ".duro-section-" + KebabCase(sectionName) + "-" + KebabCase(variant.value)
    ensures variant.None? || variant.value == "" ==> r == ".duro-section-" + KebabCase(sectionName)
    ensures NoUpper(r)
  {
    var base := ".duro-section-" + KebabCase(sectionName);
    assert NoUpper(".duro-section-");
    NoUpperConcat(".duro-section-", KebabCase(sectionName));
    if variant.Some? && variant.value != "" then
      var r := base + "-" + KebabCase(variant.value);
      assert r[..|base|] == base;
      NoUpperConcat(base, "-");
      NoUpperConcat(base + "-", KebabCase(variant.value));
      r
    else base
  }

  /** The entries of a layout whose value is defined, unwrapped, in
      order. */
  function DefinedEntries(layout: Layout): (r: Entries<string>)
    ensures |r| <= |layout|
    ensures r == [] <==> forall i :: 0 <= i < |layout| ==> layout[i].1.None?
    ensures forall i :: 0 <= i < |layout| && layout[i].1.Some? ==> (layout[i].0, layout[i].1.value) in r
    ensures forall e :: e in r ==> (e.0, Some(e.1)) in layout
  {
    if layout == [] then []
    else
      var rest := DefinedEntries(layout[1..]);
      assert forall i :: 1 <= i < |layout| ==> layout[i] == layout[1..][i - 1];
      (if layout[0].1.Some? then [(layout[0].0, layout[0].1.value)] else []) + rest
  }

  /** The defined entries of a concatenation are those of each part, in
      order. */
  lemma {:induction false} DefinedEntriesAppend(a: Layout, b: Layout)
    ensures DefinedEntries(a + b) == DefinedEntries(a) + DefinedEntries(b)
  {
    if a == [] {
      assert a + b == b;
    } else {
      assert (a + b)[0] == a[0] && (a + b)[1..] == a[1..] + b;
      DefinedEntriesAppend(a[1..], b);
    }
  }

  /** One entry is kept, unwrapped, exactly when its value is defined. With
      `DefinedEntriesAppend` this fixes the result for every layout. */
  lemma DefinedEntriesSingleton(k: string, v: Option<string>)
    ensures DefinedEntries([(k, v)]) == if v.Some? then [(k, v.value)] else []
  {
    assert [(k, v)][1..] == [];
  }

  /** One declaration line per entry, in order, the property kebab-cased. */
  function DeclLines(indent: string, decls: Entries<string>): (r: seq<string>)
    ensures |r| == |decls|
    ensures forall i :: 0 <= i < |decls| ==> r[i] == indent + KebabCase(decls[i].0) + ": " + decls[i].1 + ";"
  {
    if decls == [] then []
    else [indent + KebabCase(decls[0].0) + ": " + decls[0].1 + ";"] + DeclLines(indent, decls[1..])
  }

  /** `generateSectionCSS`: `''` exactly when every layout value is
      undefined; otherwise the selector and one declaration per defined
      value. */
  function SectionCSS(sectionName: string, layout: Layout, variant: Option<string>): (r: string)
    ensures r == "" <==> forall i :: 0 <= i < |layout| ==> layout[i].1.None?
    ensures r != "" ==> r[0] == '.' && r[|r| - 1] == '}'
    ensures r != "" ==>
      r == SectionSelector(sectionName, variant) + " {\n" + Join(DeclLines("  ", DefinedEntries(layout)), "\n") + "\n}"
  {
    var props := DeclLines("  ", DefinedEntries(layout));
    if props == [] then ""
    else
      var rule := SectionSelector(sectionName, variant) + " {\n" + Join(props, "\n") + "\n}";
      assert rule[0] == '.';
      assert rule[|rule| - 1] == '}';
      TrimFrame("\n", rule, "");
      assert "\n" + rule == "\n" + rule + "";
      Trim("\n" + rule)
  }

  /** `generateContainerQueryCSS`: the same emptiness rule; otherwise the
      section rule, indented, inside `@container (min-width: <bp>)`. */
  function ContainerQueryCSS(sectionName: string, breakpoint: string, layout: Layout, variant: Option<string>): (r: string)
    ensures r == "" <==> forall i :: 0 <= i < |layout| ==> layout[i].1.None?
    ensures r != "" ==> r[0] == '@' && r[|r| - 1] == '}'
    ensures r != "" ==>
      r == "@container (min-width: " + breakpoint + ") {\n  " + SectionSelector(sectionName, variant) + " {\n"
           + Join(DeclLines("    ", DefinedEntries(layout)), "\n") + "\n  }\n}"
  {
    var props := DeclLines("    ", DefinedEntries(layout));
    if props == [] then ""
    else
      var rule := "@container (min-width: " + breakpoint + ") {\n  "
        + SectionSelector(sectionName, variant) + " {\n" + Join(props, "\n") + "\n  }\n}";
      assert rule[0] == '@';
      assert rule[|rule| - 1] == '}';
      TrimFrame("\n", rule, "");
      assert "\n" + rule == "\n" + rule + "";
      Trim("\n" + rule)
  }

  /** A container-query rule exists exactly when the plain rule for the
      same layout does. */
  lemma ContainerRuleIffSectionRule(sectionName: string, breakpoint: string, layout: Layout, variant: Option<string>)
    ensures ContainerQueryCSS(sectionName, breakpoint, layout, variant) == ""
        <==> SectionCSS(sectionName, layout, variant) == ""
  {
  }
}

=== FILE: dialog.dfy ===
/** The open state of the `Dialog` component: controlled by the `open`
    prop when it is given, by internal state otherwise, with every request
    reported to `onOpenChange`; and the events that request a change. */
module Dialog {
  import opened Wrappers

  /** The props that decide the state: `open` (absent for an uncontrolled
      dialog), whether `onOpenChange` is given, `showClose` of the content
      (default true), and whether the caller gives the trigger an `onClick`
      of its own. The trigger spreads its other props after its own
      `onClick`, so a caller's `onClick` replaces the open request. */
  datatype DialogProps = DialogProps(open: Option<bool>, hasOnOpenChange: bool, showClose: bool, triggerOnClick: bool)

  /** The internal state, `useState(false)`. */
  datatype DialogState = DialogState(internalOpen: bool)

  const Initial := DialogState(false)

  predicate Controlled(p: DialogProps)
  {
    p.open.Some?
  }

  /** `isOpen`: the prop when given, the internal state otherwise. */
  function IsOpen(p: DialogProps, s: DialogState): (b: bool)
    ensures Controlled(p) ==> b == p.open.value
    ensures !Controlled(p) ==> b == s.internalOpen
  {
    p.open.GetOr(s.internalOpen)
  }

  /** The result of `setIsOpen(b)`: the next internal state and the values
      passed to `onOpenChange`. */
  datatype Outcome = Outcome(state: DialogState, reported: seq<bool>)

  /** `setIsOpen(b)`: the internal state takes `b` only when uncontrolled;
      `onOpenChange(b)` is called whenever it is given, in both modes. */
  function SetIsOpen(p: DialogProps, s: DialogState, b: bool): (o: Outcome)
    ensures Controlled(p) ==> o.state == s
    ensures !Controlled(p) ==> IsOpen(p, o.state) == b
    ensures o.reported == if p.hasOnOpenChange then [b] else []
  {
    Outcome(if p.open.None? then DialogState(b) else s, if p.hasOnOpenChange then [b] else [])
  }

  /** User events: a click on the trigger, on the overlay or on the close
      button, and a key press. */
  datatype Event = TriggerClick | OverlayClick | CloseClick | KeyDown(key: string)

  /** `DialogContent` renders nothing while closed; open, it renders the
      overlay, the dialog, and the close button when `showClose` holds. */
  datatype ContentView = ContentView(overlay: bool, closeButton: bool)

  function RenderContent(p: DialogProps, s: DialogState): (v: Option<ContentView>)
    ensures v.Some? <==> IsOpen(p, s)
    ensures v.Some? ==> v.value.overlay && v.value.closeButton == p.showClose
  {
    if IsOpen(p, s) then Some(ContentView(true, p.showClose)) else None
  }

  /** The request an event makes, if any: the trigger (always rendered)
      asks to open unless the caller replaced its `onClick`; the overlay,
      the close button (when rendered) and the Escape key (listened to only
      while open) ask to close. */
  function Request(p: DialogProps, s: DialogState, e: Event): (r: Option<bool>)
    ensures r == Some(true) <==> e == TriggerClick && !p.triggerOnClick
    ensures r == Some(false) <==>
      IsOpen(p, s) && (e == OverlayClick || (e == CloseClick && p.showClose) || e == KeyDown("Escape"))
    ensures r.None? && e == TriggerClick ==> p.triggerOnClick
  {
    match e
    case TriggerClick => if p.triggerOnClick then None else Some(true)
    case OverlayClick => if RenderContent(p, s).Some? then Some(false) else None
    case CloseClick =>
      if RenderContent(p, s).Some? && RenderContent(p, s).value.closeButton then Some(false) else None
    case KeyDown(key) => if IsOpen(p, s) && key == "Escape" then Some(false) else None
  }

  /** One event: its request, if any, goes through `setIsOpen`. */
  function Step(p: DialogProps, s: DialogState, e: Event): (o: Outcome)
    ensures Request(p, s, e).None? ==> o == Outcome(s, [])
    ensures Request(p, s, e).Some? ==> o == SetIsOpen(p, s, Request(p, s, e).value)
  {
    match Request(p, s, e)
    case None => Outcome(s, [])
    case Some(b) => SetIsOpen(p, s, b)
  }

  /** A sequence of events from a state, with every report in order. */
  function Run(p: DialogProps, s: DialogState, es: seq<Event>): (o: Outcome)
    ensures Controlled(p) ==> o.state == s
    ensures !p.hasOnOpenChange ==> o.reported == []
    decreases |es|
  {
    if es == [] then Outcome(s, [])
    else
      var first := Step(p, s, es[0]);
      var rest := Run(p, first.state, es[1..]);
      Outcome(rest.state, first.reported + rest.reported)
  }

  /** An uncontrolled dialog starts closed and shows no content. */
  lemma StartsClosed(p: DialogProps)
    requires !Controlled(p)
    ensures !IsOpen(p, Initial) && RenderContent(p, Initial).None?
  {
  }

  /** A controlled dialog is open exactly when its prop says so, whatever
      events occur. */
  lemma ControlledIgnoresEvents(p: DialogProps, s: DialogState, es: seq<Event>)
    requires Controlled(p)
    ensures IsOpen(p, Run(p, s, es).state) == p.open.value
  {
  }

  /** The values the events of a run ask `setIsOpen` for, in order. */
  function Requests(p: DialogProps, s: DialogState, es: seq<Event>): seq<bool>
    decreases |es|
  {
    if es == [] then []
    else
      var r := Request(p, s, es[0]);
      (if r.Some? then [r.value] else []) + Requests(p, Step(p, s, es[0]).state, es[1..])
  }

  /** Every request is reported, in both modes: after a run with
      `onOpenChange` given, the reports are the run's requests in order. */
  lemma {:induction false} ReportsAreRequests(p: DialogProps, s: DialogState, es: seq<Event>)
    requires p.hasOnOpenChange
    ensures Run(p, s, es).reported == Requests(p, s, es)
    decreases |es|
  {
    if es != [] {
      ReportsAreRequests(p, Step(p, s, es[0]).state, es[1..]);
    }
  }

  /** In an uncontrolled dialog with `onOpenChange`, the last value
      reported is the state the dialog ends in; with nothing reported the
      state is unchanged. */
  lemma {:induction false} LastReportIsState(p: DialogProps, s: DialogState, es: seq<Event>)
    requires !Controlled(p) && p.hasOnOpenChange
    ensures var o := Run(p, s, es);
      (o.reported == [] ==> o.state == s)
      && (o.reported != [] ==> o.reported[|o.reported| - 1] == IsOpen(p, o.state))
    decreases |es|
  {
    if es != [] {
      var first := Step(p, s, es[0]);
      LastReportIsState(p, first.state, es[1..]);
      var rest := Run(p, first.state, es[1..]);
      if rest.reported == [] {
        assert first.reported + rest.reported == first.reported;
      } else {
        var all := first.reported + rest.reported;
        assert all[|all| - 1] == rest.reported[|rest.reported| - 1];
      }
    }
  }

  /** In an uncontrolled dialog the trigger opens it (unless the caller
      replaced the trigger's `onClick`, and then it does nothing) and each
      closing event closes it once it is open. */
  lemma UncontrolledEvents(p: DialogProps, s: DialogState)
    requires !Controlled(p)
    ensures !p.triggerOnClick ==> IsOpen(p, Step(p, s, TriggerClick).state)
    ensures p.triggerOnClick ==> Step(p, s, TriggerClick) == Outcome(s, [])
    ensures IsOpen(p, s) ==> !IsOpen(p, Step(p, s, OverlayClick).state)
    ensures IsOpen(p, s) ==> !IsOpen(p, Step(p, s, KeyDown("Escape")).state)
    ensures IsOpen(p, s) && p.showClose ==> !IsOpen(p, Step(p, s, CloseClick).state)
    ensures !IsOpen(p, s) ==> forall e :: e != TriggerClick ==> Step(p, s, e) == Outcome(s, [])
  {
  }
}

=== FILE: entries.dfy ===
/** Plain JavaScript objects as ordered association lists, in the order
    `Object.entries` reports them. `Assign` is `obj[k] = v`; `Spread` is the
    object literal `{ ...a, ...b }`. */
module Entries {
  import opened Wrappers

  type Entries<V> = seq<(string, V)>

  predicate HasKey<V>(es: Entries<V>, k: string)
  {
    exists i :: 0 <= i < |es| && es[i].0 == k
  }

  predicate UniqueKeys<V>(es: Entries<V>)
  {
    forall i, j :: 0 <= i < j < |es| ==> es[i].0 != es[j].0
  }

  function Keys<V>(es: Entries<V>): (ks: seq<string>)
    ensures |ks| == |es|
    ensures forall i :: 0 <= i < |es| ==> ks[i] == es[i].0
  {
    if es == [] then [] else [es[0].0] + Keys(es[1..])
  }

  /** Position of the entry with key `k`, if any. */
  function IndexOf<V>(es: Entries<V>, k: string): (r: Option<nat>)
    ensures r.None? <==> !HasKey(es, k)
    ensures r.Some? ==> r.value < |es| && es[r.value].0 == k
    ensures r.Some? ==> forall j :: 0 <= j < r.value ==> es[j].0 != k
  {
    if es == [] then None
    else if es[0].0 == k then Some(0)
    else match IndexOf(es[1..], k)
      case None => None
      case Some(j) => Some(j + 1)
  }

  /** `obj[k]` for an own property `k`. */
  function Find<V>(es: Entries<V>, k: string): (r: Option<V>)
    ensures r.None? <==> !HasKey(es, k)
  {
    match IndexOf(es, k)
    case None => None
    case Some(i) => Some(es[i].1)
  }

  lemma FindUnique<V>(es: Entries<V>, i: nat)
    requires UniqueKeys(es) && i < |es|
    ensures Find(es, es[i].0) == Some(es[i].1)
  {
  }

  /** `obj[k] = v`: an existing key keeps its position and takes the new
      value; a new key is appended. */
  function Assign<V>(es: Entries<V>, k: string, v: V): (r: Entries<V>)
    ensures HasKey(es, k) ==> |r| == |es|
    ensures !HasKey(es, k) ==> r == es + [(k, v)]
    ensures Keys(r) == if HasKey(es, k) then Keys(es) else Keys(es) + [k]
  {
    match IndexOf(es, k)
    case None => es + [(k, v)]
    case Some(i) => es[i := (k, v)]
  }

  /** Assigns every entry of `src`, in order. */
  function AssignAll<V>(es: Entries<V>, src: Entries<V>): Entries<V>
    decreases |src|
  {
    if src == [] then es else AssignAll(Assign(es, src[0].0, src[0].1), src[1..])
  }

  /** `{ ...a, ...b }`. */
  function Spread<V>(a: Entries<V>, b: Entries<V>): Entries<V>
  {
    AssignAll(AssignAll([], a), b)
  }

  /** Each key of `base` with its value replaced by `src`'s value for that key. */
  function Override<V>(base: Entries<V>, src: Entries<V>): (r: Entries<V>)
    ensures |r| == |base|
    ensures forall i :: 0 <= i < |base| ==> r[i] == (base[i].0, Find(src, base[i].0).GetOr(base[i].1))
  {
    if base == [] then [] else [(base[0].0, Find(src, base[0].0).GetOr(base[0].1))] + Override(base[1..], src)
  }

  /** The entries of `src` whose key `base` does not have, in order. */
  function Fresh<V>(base: Entries<V>, src: Entries<V>): (r: Entries<V>)
    ensures |r| <= |src|
  {
    if src == [] then []
    else (if HasKey(base, src[0].0) then [] else [src[0]]) + Fresh(base, src[1..])
  }

  lemma UniqueKeysTail<V>(es: Entries<V>)
    requires UniqueKeys(es) && |es| > 0
    ensures UniqueKeys(es[1..])
    ensures !HasKey(es[1..], es[0].0)
  {
    assert forall j :: 0 <= j < |es[1..]| ==> es[1..][j] == es[j + 1];
  }

  lemma AssignKeepsUnique<V>(es: Entries<V>, k: string, v: V)
    requires UniqueKeys(es)
    ensures UniqueKeys(Assign(es, k, v))
  {
    var r := Assign(es, k, v);
    assert Keys(r) == if HasKey(es, k) then Keys(es) else Keys(es) + [k];
    forall i, j | 0 <= i < j < |r|
      ensures r[i].0 != r[j].0
    {
      assert r[i].0 == Keys(r)[i] && r[j].0 == Keys(r)[j];
    }
  }

  /** Copying a duplicate-free object into an empty one reproduces it. */
  lemma {:induction false} AssignAllCopies<V>(es: Entries<V>, src: Entries<V>)
    requires UniqueKeys(es + src)
    ensures AssignAll(es, src) == es + src
    decreases |src|
  {
    if src != [] {
      var k := src[0].0;
      assert !HasKey(es, k) by {
        forall i | 0 <= i < |es| ensures es[i].0 != k {
          assert (es + src)[i] == es[i] && (es + src)[|es|] == src[0];
        }
      }
      assert es + src == (es + [src[0]]) + src[1..];
      AssignAllCopies(es + [src[0]], src[1..]);
    }
  }

  lemma OverrideSkipsAbsentKey<V>(base: Entries<V>, src: Entries<V>)
    requires |src| > 0 && !HasKey(base, src[0].0)
    ensures Override(base, src) == Override(base, src[1..])
  {
    var r, r' := Override(base, src), Override(base, src[1..]);
    forall i | 0 <= i < |base|
      ensures r[i] == r'[i]
    {
      assert base[i].0 != src[0].0;
      assert Find(src, base[i].0) == Find(src[1..], base[i].0);
    }
  }

  lemma FreshSkipsOtherKey<V>(base: Entries<V>, k: string, v: V, src: Entries<V>)
    requires !HasKey(src, k)
    ensures Fresh(base + [(k, v)], src) == Fresh(base, src)
    decreases |src|
  {
    if src != [] {
      assert src[0].0 != k;
      assert HasKey(base + [(k, v)], src[0].0) <==> HasKey(base, src[0].0) by {
        if HasKey(base + [(k, v)], src[0].0) {
          var i :| 0 <= i < |base| + 1 && (base + [(k, v)])[i].0 == src[0].0;
          assert i < |base| && base[i].0 == src[0].0;
        }
        if HasKey(base, src[0].0) {
          var i :| 0 <= i < |base| && base[i].0 == src[0].0;
          assert (base + [(k, v)])[i].0 == src[0].0;
        }
      }
      FreshSkipsOtherKey(base, k, v, src[1..]);
    }
  }

  lemma FreshSameKeys<V>(base: Entries<V>, base': Entries<V>, src: Entries<V>)
    requires Keys(base) == Keys(base')
    ensures Fresh(base, src) == Fresh(base', src)
    decreases |src|
  {
    if src != [] {
      assert HasKey(base, src[0].0) <==> HasKey(base', src[0].0) by {
        if HasKey(base, src[0].0) {
          var i :| 0 <= i < |base| && base[i].0 == src[0].0;
          assert Keys(base)[i] == Keys(base')[i];
        }
        if HasKey(base', src[0].0) {
          var i :| 0 <= i < |base'| && base'[i].0 == src[0].0;
          assert Keys(base)[i] == Keys(base')[i];
        }
      }
      FreshSameKeys(base, base', src[1..]);
    }
  }

  lemma OverrideReplaceExisting<V>(base: Entries<V>, k: string, v: V, rest: Entries<V>)
    requires UniqueKeys(base) && !HasKey(rest, k) && HasKey(base, k)
    ensures Override(Assign(base, k, v), rest) == Override(base, [(k, v)] + rest)
  {
    var src := [(k, v)] + rest;
    var base' := Assign(base, k, v);
    var j := IndexOf(base, k).value;
    assert base' == base[j := (k, v)];
    forall i | 0 <= i < |base|
      ensures Override(base', rest)[i] == Override(base, src)[i]
    {
      if i == j {
        assert Find(rest, k).None?;
        assert Find(src, k) == Some(v);
      } else {
        var b := base[i].0;
        assert b != k;
        assert base'[i] == base[i];
        assert src[1..] == rest;
        assert Find(src, b) == Find(rest, b);
      }
    }
  }

  /** One step of `AssignAllShape` when `base` already has the key. */
  lemma AssignShapeExisting<V>(base: Entries<V>, k: string, v: V, rest: Entries<V>)
    requires UniqueKeys(base) && !HasKey(rest, k) && HasKey(base, k)
    ensures Override(Assign(base, k, v), rest) + Fresh(Assign(base, k, v), rest)
         == Override(base, [(k, v)] + rest) + Fresh(base, [(k, v)] + rest)
  {
    var src := [(k, v)] + rest;
    assert src[1..] == rest;
    OverrideReplaceExisting(base, k, v, rest);
    FreshSameKeys(Assign(base, k, v), base, rest);
    assert Fresh(base, src) == Fresh(base, rest);
  }

  lemma OverrideAppendAbsent<V>(base: Entries<V>, k: string, v: V, src: Entries<V>)
    requires !HasKey(src, k)
    ensures Override(base + [(k, v)], src) == Override(base, src) + [(k, v)]
  {
    var o', o := Override(base + [(k, v)], src), Override(base, src);
    forall i | 0 <= i < |o'| ensures o'[i] == (o + [(k, v)])[i] {
      if i < |base| {
        assert (base + [(k, v)])[i] == base[i];
      }
    }
  }

  /** One step of `AssignAllShape` when the key is new to `base`. */
  lemma AssignShapeNew<V>(base: Entries<V>, k: string, v: V, rest: Entries<V>)
    requires !HasKey(rest, k)
    requires !HasKey(base, k)
    ensures Override(base + [(k, v)], rest) + Fresh(base + [(k, v)], rest)
         == Override(base, [(k, v)] + rest) + Fresh(base, [(k, v)] + rest)
  {
    var src := [(k, v)] + rest;
    assert src[1..] == rest;
    OverrideAppendAbsent(base, k, v, rest);
    OverrideSkipsAbsentKey(base, src);
    FreshSkipsOtherKey(base, k, v, rest);
    assert Fresh(base, src) == [(k, v)] + Fresh(base, rest);
    ConcatShift(Override(base, rest), (k, v), Fresh(base, rest));
  }

  lemma ConcatShift<T>(a: seq<T>, x: T, b: seq<T>)
    ensures (a + [x]) + b == a + ([x] + b)
  {
  }

  /** Spreading `src` over `base` (both duplicate-free) keeps every key of
      `base` in place, each with `src`'s value when `src` has that key, and
      appends the keys only `src` has, in `src`'s order. */
  lemma {:induction false} AssignAllShape<V>(base: Entries<V>, src: Entries<V>)
    requires UniqueKeys(base) && UniqueKeys(src)
    ensures AssignAll(base, src) == Override(base, src) + Fresh(base, src)
    decreases |src|
  {
    if src == [] {
      assert Override(base, src) == base;
    } else {
      var k, v := src[0].0, src[0].1;
      AssignKeepsUnique(base, k, v);
      UniqueKeysTail(src);
      AssignAllShape(Assign(base, k, v), src[1..]);
      if HasKey(base, k) {
        assert src == [(k, v)] + src[1..];
        AssignShapeExisting(base, k, v, src[1..]);
      } else {
        assert src == [(k, v)] + src[1..];
        AssignShapeNew(base, k, v, src[1..]);
      }
    }
  }

  /** `{ ...a, ...b }` for duplicate-free objects: `a`'s keys in `a`'s order,
      overridden by `b`, then `b`'s new keys. */
  lemma SpreadShape<V>(a: Entries<V>, b: Entries<V>)
    requires UniqueKeys(a) && UniqueKeys(b)
    ensures Spread(a, b) == Override(a, b) + Fresh(a, b)
  {
    assert [] + a == a;
    AssignAllCopies([], a);
    AssignAllShape(a, b);
  }
}

=== FILE: lists.dfy ===
/** Generic sequence helpers: a map-and-concatenate that may fail, and
    the facts about it that the transforms need. */
module Lists {
  import opened Wrappers

  /** Applies `f` to each element in order and concatenates the results;
      `None` when some application fails. */
  function FlatMapOpt<T, U>(f: T -> Option<seq<U>>, xs: seq<T>): (r: Option<seq<U>>)
    ensures r.None? <==> exists i :: 0 <= i < |xs| && f(xs[i]).None?
  {
    if xs == [] then Some([])
    else
      match f(xs[0])
      case None => None
      case Some(head) =>
        match FlatMapOpt(f, xs[1..])
        case None => None
        case Some(tail) => Some(head + tail)
  }

  lemma SplitHead<T>(a: seq<T>, b: seq<T>)
    requires a != []
    ensures a == [a[0]] + a[1..] && a + b == [a[0]] + (a[1..] + b)
  {
  }

  /** Mapping one element is applying `f` to it. */
  lemma FlatMapOptSingleton<T, U>(f: T -> Option<seq<U>>, x: T)
    ensures FlatMapOpt(f, [x]) == f(x)
  {
    assert [x][0] == x && [x][1..] == [];
    if f(x).Some? {
      assert f(x).value + [] == f(x).value;
    }
  }

  /** Mapping a concatenation concatenates the results. */
  lemma {:induction false} FlatMapOptAppend<T, U>(f: T -> Option<seq<U>>, a: seq<T>, b: seq<T>)
    requires FlatMapOpt(f, a).Some? && FlatMapOpt(f, b).Some?
    ensures FlatMapOpt(f, a + b) == Some(FlatMapOpt(f, a).value + FlatMapOpt(f, b).value)
  {
    if a == [] {
      var vb := FlatMapOpt(f, b).value;
      assert a + b == b && [] + vb == vb;
    } else {
      SplitHead(a, b);
      assert (a + b)[0] == a[0] && (a + b)[1..] == a[1..] + b;
      FlatMapOptAppend(f, a[1..], b);
      var head, ta, tb := f(a[0]).value, FlatMapOpt(f, a[1..]).value, FlatMapOpt(f, b).value;
      assert head + (ta + tb) == (head + ta) + tb;
    }
  }

  /** When every application yields at most one element, so does the whole
      map per input element. */
  lemma {:induction false} FlatMapOptShrinks<T, U>(f: T -> Option<seq<U>>, xs: seq<T>)
    requires forall x :: f(x).Some? ==> |f(x).value| <= 1
    ensures FlatMapOpt(f, xs).Some? ==> |FlatMapOpt(f, xs).value| <= |xs|
  {
    if xs != [] {
      FlatMapOptShrinks(f, xs[1..]);
    }
  }

  /** When every application yields only elements satisfying `p`, so does
      the whole map. */
  lemma {:induction false} FlatMapOptAll<T, U>(f: T -> Option<seq<U>>, p: U -> bool, xs: seq<T>)
    requires forall x, i :: f(x).Some? && 0 <= i < |f(x).value| ==> p(f(x).value[i])
    ensures FlatMapOpt(f, xs).Some? ==>
      forall i :: 0 <= i < |FlatMapOpt(f, xs).value| ==> p(FlatMapOpt(f, xs).value[i])
  {
    if xs != [] && FlatMapOpt(f, xs).Some? {
      FlatMapOptAll(f, p, xs[1..]);
      var head, tail := f(xs[0]).value, FlatMapOpt(f, xs[1..]).value;
      assert FlatMapOpt(f, xs).value == head + tail;
    }
  }

  /** The non-empty images of the elements under `f`, in order (the
      `if (x) out.push(x)` idiom). */
  function KeepNonEmpty<T, U>(f: T -> seq<U>, xs: seq<T>): (r: seq<seq<U>>)
    ensures |r| <= |xs|
    ensures forall i :: 0 <= i < |r| ==> r[i] != []
  {
    if xs == [] then []
    else (if f(xs[0]) != [] then [f(xs[0])] else []) + KeepNonEmpty(f, xs[1..])
  }

  lemma {:induction false} KeepNonEmptyAppend<T, U>(f: T -> seq<U>, a: seq<T>, b: seq<T>)
    ensures KeepNonEmpty(f, a + b) == KeepNonEmpty(f, a) + KeepNonEmpty(f, b)
  {
    if a == [] {
      assert a + b == b;
    } else {
      SplitHead(a, b);
      assert (a + b)[0] == a[0] && (a + b)[1..] == a[1..] + b;
      KeepNonEmptyAppend(f, a[1..], b);
    }
  }

  /** When no image is empty, every element yields its image. */
  lemma {:induction false} KeepNonEmptyAll<T, U>(f: T -> seq<U>, xs: seq<T>)
    requires forall i :: 0 <= i < |xs| ==> f(xs[i]) != []
    ensures KeepNonEmpty(f, xs) == seq(|xs|, i requires 0 <= i < |xs| => f(xs[i]))
  {
    if xs != [] {
      KeepNonEmptyAll(f, xs[1..]);
    }
  }

  /** Every kept image satisfies what every non-empty image satisfies. */
  lemma {:induction false} KeepNonEmptyHolds<T, U>(f: T -> seq<U>, p: seq<U> -> bool, xs: seq<T>)
    requires forall i :: 0 <= i < |xs| && f(xs[i]) != [] ==> p(f(xs[i]))
    ensures forall i :: 0 <= i < |KeepNonEmpty(f, xs)| ==> p(KeepNonEmpty(f, xs)[i])
  {
    if xs != [] {
      KeepNonEmptyHolds(f, p, xs[1..]);
      var head := if f(xs[0]) != [] then [f(xs[0])] else [];
      var tail := KeepNonEmpty(f, xs[1..]);
      assert KeepNonEmpty(f, xs) == head + tail;
      assert forall i :: |head| <= i < |head + tail| ==> (head + tail)[i] == tail[i - |head|];
    }
  }
}

=== FILE: naming_contract.dfy ===
/** How the names the Babel plugin writes meet the names the theme
    compiler declares: the two kebab-case helpers agree on every string,
    and for every line the compiler writes, the reference the plugin builds
    for the line's key names the variable declared there; font weights have
    no scale and no line of their own. */
module NamingContract {
  import opened Wrappers
  import opened Strings
  import opened ThemeMapping
  import opened Entries
  import opened Theme
  import opened CssGenerator

  /** The compiler's regular-expression kebab case inserts the hyphens the
      plugin's character-by-character one does. */
  lemma {:induction false} KebabScanIsHyphenateUpper(s: string)
    ensures KebabScan(s) == HyphenateUpper(s)
    decreases |s|
  {
    if s != [] {
      if |s| >= 2 && (IsLower(s[0]) || IsDigit(s[0])) && IsUpper(s[1]) {
        KebabScanIsHyphenateUpper(s[2..]);
        assert s[1..][0] == s[1] && s[1..][1..] == s[2..];
        assert !IsUpper(s[0]);
        assert HyphenateUpper(s) == [s[0]] + (['-', s[1]] + HyphenateUpper(s[2..]));
      } else {
        KebabScanIsHyphenateUpper(s[1..]);
      }
    }
  }

  /** Hence `kebabCase` and `camelToKebab` agree on every string. */
  lemma KebabCaseIsCamelToKebab(s: string)
    ensures KebabCase(s) == CamelToKebab(s)
  {
    KebabScanIsHyphenateUpper(s);
  }

  /** The family name under which the compiler declares the variables of a
      category; font weights have no scale in the theme and no family. */
  function Family(c: Category): (r: Option<string>)
    ensures r.Some? <==> c != FontWeights
    ensures r.Some? ==> r.value == c.Name()
  {
    match c
    case Colors => Some("color")
    case Space => Some("space")
    case Fonts => Some("font")
    case FontSizes => Some("font-size")
    case FontWeights => None
    case LineHeights => Some("line-height")
    case Borders => Some("border")
    case Radii => Some("radius")
    case Shadows => Some("shadow")
  }

  /** The variable name the compiler declares for the entry `key` of the
      scale of category `c`: space keys are taken as they are, every other
      key is kebab-cased. */
  function DeclaredName(c: Category, key: string): (r: Option<string>)
    ensures r.Some? <==> Family(c).Some?
    ensures r.Some? ==> StartsWith(r.value, "--duro-" + Family(c).value + "-")
  {
    if c == FontWeights then None
    else Some(VarName(c.Name(), if c == Space then key else KebabCase(key)))
  }

  /** The scale the compiler walks for category `c` in `mode`: the
      string-valued colors of the mode's palette, or the theme's scale;
      font weights have none. */
  function ScaleOf(theme: DuroTheme, mode: Mode, c: Category): Entries<string>
  {
    match c
    case Colors => TextColors(ColorsFor(theme, mode))
    case Space => theme.space
    case Fonts => theme.fonts
    case FontSizes => theme.fontSizes
    case FontWeights => []
    case LineHeights => theme.lineHeights
    case Borders => theme.borders
    case Radii => theme.radii
    case Shadows => theme.shadows
  }

  /** The position of a category's part in the compiler's walk. */
  function PartIndex(c: Category): (n: nat)
    requires c != FontWeights
    ensures n < 8
  {
    match c
    case Colors => 0
    case Space => 1
    case Fonts => 2
    case FontSizes => 3
    case LineHeights => 4
    case Borders => 5
    case Radii => 6
    case Shadows => 7
  }

  /** The category whose part is at position `n`. */
  function CategoryAt(n: nat): (c: Category)
    requires n < 8
    ensures c != FontWeights && PartIndex(c) == n
  {
    if n == 0 then Colors else if n == 1 then Space else if n == 2 then Fonts
    else if n == 3 then FontSizes else if n == 4 then LineHeights else if n == 5 then Borders
    else if n == 6 then Radii else Shadows
  }

  /** The compiler's part for a category is its family, its scale, and
      kebab-cased keys for every category but space. */
  lemma PartOfCategory(theme: DuroTheme, mode: Mode, c: Category)
    requires c != FontWeights
    ensures Parts(theme, mode)[PartIndex(c)] == Part(Family(c).value, ScaleOf(theme, mode, c), c != Space)
  {
    var p7 := [Part("shadow", theme.shadows, true)];
    var p6 := [Part("radius", theme.radii, true)] + p7;
    var p5 := [Part("border", theme.borders, true)] + p6;
    var p4 := [Part("line-height", theme.lineHeights, true)] + p5;
    var p3 := [Part("font-size", theme.fontSizes, true)] + p4;
    var p2 := [Part("font", theme.fonts, true)] + p3;
    var p1 := [Part("space", theme.space, false)] + p2;
    var p0 := [Part("color", TextColors(ColorsFor(theme, mode)), true)] + p1;
    assert Parts(theme, mode) == p0;
    match c {
      case Colors =>
      case Space => assert p0[1] == p1[0];
      case Fonts => assert p0[2] == p1[1] == p2[0];
      case FontSizes => assert p0[3] == p1[2] == p2[1] == p3[0];
      case LineHeights => assert p0[4] == p1[3] == p2[2] == p3[1] == p4[0];
      case Borders => assert p0[5] == p1[4] == p2[3] == p3[2] == p4[1] == p5[0];
      case Radii => assert p0[6] == p1[5] == p2[4] == p3[3] == p4[2] == p5[1] == p6[0];
      case Shadows => assert p0[7] == p1[6] == p2[5] == p3[4] == p4[3] == p5[2] == p6[1] == p7[0];
    }
  }

  /** Where the lines of category `c` start among the variables of `mode`:
      after the lines of every category written before it. */
  function Offset(theme: DuroTheme, mode: Mode, c: Category): nat
    requires c != FontWeights
  {
    |PartLines(Parts(theme, mode)[..PartIndex(c)])|
  }

  /** The line `generateCSSVariables` writes for the entry `(k, v)`:
      `  <declared name>: <v>;`. */
  function Declaration(c: Category, k: string, v: string): string
    requires c != FontWeights
  {
    "  " + DeclaredName(c, k).value + ": " + v + ";"
  }

  /** The `i`-th entry of the scale of `c` is declared on line
      `Offset + i`, under its declared name. */
  lemma DeclarationLine(theme: DuroTheme, mode: Mode, c: Category, i: nat)
    requires c != FontWeights && i < |ScaleOf(theme, mode, c)|
    ensures Offset(theme, mode, c) + i < |VariableLines(theme, mode)|
    ensures var e := ScaleOf(theme, mode, c)[i];
      VariableLines(theme, mode)[Offset(theme, mode, c) + i] == Declaration(c, e.0, e.1)
  {
    var ps, scale := Parts(theme, mode), ScaleOf(theme, mode, c);
    PartOfCategory(theme, mode, c);
    DeclarationInParts(ps, c, scale, i);
    assert VariableLines(theme, mode) == PartLines(ps);
  }

  /** `DeclarationLine` for any walk whose part for `c` is `c`'s. */
  lemma DeclarationInParts(ps: seq<Part>, c: Category, scale: Entries<string>, i: nat)
    requires c != FontWeights && PartIndex(c) < |ps| && i < |scale|
    requires ps[PartIndex(c)] == Part(Family(c).value, scale, c != Space)
    ensures |PartLines(ps[..PartIndex(c)])| + i < |PartLines(ps)|
    ensures PartLines(ps)[|PartLines(ps[..PartIndex(c)])| + i] == Declaration(c, scale[i].0, scale[i].1)
  {
    PartLineAt(ps, PartIndex(c), i);
    DeclarationIsVarLine(c, scale[i].0, scale[i].1);
  }

  /** The declaration of an entry is the line `VarLine` writes for it. */
  lemma DeclarationIsVarLine(c: Category, k: string, v: string)
    requires c != FontWeights
    ensures VarLine(Family(c).value, if c != Space then KebabCase(k) else k, v) == Declaration(c, k, v)
  {
  }

  /** Conversely, every line declares one entry of the scale of a category
      other than font weights: no line is written for anything else. */
  lemma EveryLineDeclares(theme: DuroTheme, mode: Mode, j: nat) returns (c: Category, i: nat)
    requires j < |VariableLines(theme, mode)|
    ensures c != FontWeights && i < |ScaleOf(theme, mode, c)|
    ensures j == Offset(theme, mode, c) + i
    ensures var e := ScaleOf(theme, mode, c)[i];
      VariableLines(theme, mode)[j] == Declaration(c, e.0, e.1)
  {
    var p;
    p, i := PartLineLocate(Parts(theme, mode), j);
    c := CategoryAt(p);
    PartOfCategory(theme, mode, c);
    DeclarationLine(theme, mode, c, i);
  }

  /** The plugin's reference to `key` in a category with a family is
      `var(<declared name>)`, when a space key has no upper-case letter. */
  lemma ReferenceIsDeclaredName(c: Category, key: string)
    requires c != FontWeights
    requires c == Space ==> NoUpper(key)
    ensures GetThemeVar(c, key) == "var(" + DeclaredName(c, key).value + ")"
  {
    KebabCaseIsCamelToKebab(key);
    if c == Space {
      CamelToKebabIdentity(key);
    }
    ReferenceShape(c, key);
    var k := CamelToKebab(key);
    assert GetThemeVar(c, key) == VarPrefix + c.Name() + "-" + k + ")";
    Assoc5(VarPrefix, c.Name(), "-", k, ")");
  }

  /** For every entry the compiler writes, in either mode, the plugin's
      reference to the entry's key names the variable declared on that
      entry's line, provided a space key has no upper-case letter (every
      default space key is a digit). */
  lemma ReferenceMatchesDeclaration(theme: DuroTheme, mode: Mode, c: Category, i: nat)
    requires c != FontWeights && i < |ScaleOf(theme, mode, c)|
    requires c == Space ==> NoUpper(ScaleOf(theme, mode, c)[i].0)
    ensures var e := ScaleOf(theme, mode, c)[i];
      var name := DeclaredName(c, e.0).value;
      Offset(theme, mode, c) + i < |VariableLines(theme, mode)|
      && VariableLines(theme, mode)[Offset(theme, mode, c) + i] == "  " + name + ": " + e.1 + ";"
      && GetThemeVar(c, e.0) == "var(" + name + ")"
  {
    DeclarationLine(theme, mode, c, i);
    ReferenceIsDeclaredName(c, ScaleOf(theme, mode, c)[i].0);
  }

  /** A space key with an upper-case letter is declared on its line under
      its raw name, and the plugin references another name. */
  lemma SpaceKeyWithUpperMismatch(theme: DuroTheme, mode: Mode, i: nat)
    requires i < |theme.space| && !NoUpper(theme.space[i].0)
    ensures var (key, v) := theme.space[i];
      var name := DeclaredName(Space, key).value;
      Offset(theme, mode, Space) + i < |VariableLines(theme, mode)|
      && VariableLines(theme, mode)[Offset(theme, mode, Space) + i] == "  " + name + ": " + v + ";"
      && name == VarName(Space.Name(), key)
      && GetThemeVar(Space, key) != "var(" + name + ")"
  {
    var key := theme.space[i].0;
    DeclarationLine(theme, mode, Space, i);
    assert ScaleOf(theme, mode, Space)[i] == theme.space[i];
    assert DeclaredName(Space, key).value == VarName(Space.Name(), key);
    SpaceNameMismatch(key);
  }

  /** The name-level fact behind `SpaceKeyWithUpperMismatch`: the
      reference holds one more character per upper-case letter than the
      declared name. */
  lemma SpaceNameMismatch(key: string)
    requires !NoUpper(key)
    ensures GetThemeVar(Space, key) != "var(" + DeclaredName(Space, key).value + ")"
  {
    var k := CamelToKebab(key);
    assert |k| > |key|;
    ReferenceShape(Space, key);
    assert |GetThemeVar(Space, key)| == |VarPrefix| + |Space.Name()| + 1 + |k| + 1;
  }

  /** `fontWeight` keys map to the `font-weight` category. No scale of the
      theme is declared under that family: every line the compiler writes
      belongs to a category with another family (`EveryLineDeclares`). */
  lemma FontWeightUndeclared(key: string)
    ensures DeclaredName(FontWeights, key).None?
    ensures forall c :: Family(c) != Some("font-weight")
    ensures StartsWith(GetThemeVar(FontWeights, key), VarPrefix + FontWeights.Name() + "-")
  {
    forall c ensures Family(c) != Some("font-weight") {
      NotFontWeightFamily(c);
    }
    FontWeightReferencePrefix(key);
  }

  lemma FontWeightReferencePrefix(key: string)
    ensures StartsWith(GetThemeVar(FontWeights, key), VarPrefix + FontWeights.Name() + "-")
  {
    var r := GetThemeVar(FontWeights, key);
    var pre := VarPrefix + FontWeights.Name() + "-";
    assert r == pre + (CamelToKebab(key) + ")");
    assert r[..|pre|] == pre;
  }

  lemma NotFontWeightFamily(c: Category)
    ensures Family(c) != Some("font-weight")
  {
    assert "font-weight"[5] == 'w';
    if c == FontSizes {
      assert "font-size"[5] == 's';
    }
  }

  /** `font-weight` is the `font` family followed by `-weight`. */
  lemma FontWeightName()
    ensures FontWeights.Name() == Fonts.Name() + "-weight"
  {
  }

  /** The reference to a declared name, regrouped after the common
      `var(--duro-` prefix. */
  lemma ReferenceShape(c: Category, key: string)
    requires c != FontWeights
    ensures "var(" + DeclaredName(c, key).value + ")"
      == VarPrefix + (c.Name() + "-" + (if c == Space then key else KebabCase(key)) + ")")
  {
    var n := if c == Space then key else KebabCase(key);
    assert DeclaredName(c, key).value == "--duro-" + c.Name() + "-" + n;
    VarPrefixSplit();
    ReferenceRegroup("var(", "--duro-", c.Name(), n);
  }

  lemma VarPrefixSplit()
    ensures VarPrefix == "var(" + "--duro-"
  {
  }

  lemma ReferenceRegroup(v: string, d: string, f: string, n: string)
    ensures v + (d + f + "-" + n) + ")" == (v + d) + (f + "-" + n + ")")
  {
  }

  lemma Assoc5(a: string, b: string, c: string, d: string, e: string)
    ensures a + b + c + d + e == a + (b + c + d + e)
  {
  }

  /** Two strings after the same prefix are equal when the wholes are. */
  lemma CancelPrefix(p: string, a: string, b: string)
    requires p + a == p + b
    ensures a == b
  {
    assert a == (p + a)[|p|..] && b == (p + b)[|p|..];
  }

  /** A family tail equal to `font-weight-<K>)` is the `font` family
      followed by `weight-<K>`. */
  lemma FontWeightTail(c: Category, n: string, kk: string)
    requires c != FontWeights
    ensures c.Name() + "-" + n + ")" == FontWeights.Name() + "-" + kk + ")" ==> c == Fonts && n == "weight-" + kk
  {
    if c == Fonts {
      FontsTail(n, kk);
    } else {
      OtherFamilyDiffers(c, n, kk);
    }
  }

  lemma FontsTail(n: string, kk: string)
    ensures Fonts.Name() + "-" + n + ")" == FontWeights.Name() + "-" + kk + ")" ==> n == "weight-" + kk
  {
    var d := Fonts.Name() + "-" + n + ")";
    var t := FontWeights.Name() + "-" + kk + ")";
    if d == t {
      FontWeightName();
      assert d == "font-" + (n + ")");
      assert t == "font-" + ("weight-" + kk + ")");
      CancelPrefix("font-", n + ")", "weight-" + kk + ")");
      assert n == (n + ")")[..|n|];
    }
  }

  /** Every other family differs from `font-weight` in its first or sixth
      character. */
  lemma OtherFamilyDiffers(c: Category, n: string, kk: string)
    requires c != Fonts && c != FontWeights
    ensures c.Name() + "-" + n + ")" != FontWeights.Name() + "-" + kk + ")"
  {
    var d := c.Name() + "-" + n + ")";
    var t := FontWeights.Name() + "-" + kk + ")";
    match c {
      case FontSizes => assert d[5] == 's' && t[5] == 'w';
      case Colors => assert d[0] == 'c' && t[0] == 'f';
      case Space => assert d[0] == 's' && t[0] == 'f';
      case LineHeights => assert d[0] == 'l' && t[0] == 'f';
      case Borders => assert d[0] == 'b' && t[0] == 'f';
      case Radii => assert d[0] == 'r' && t[0] == 'f';
      case Shadows => assert d[0] == 's' && t[0] == 'f';
      case Fonts =>
      case FontWeights =>
    }
  }

  /** A `fontWeight` reference can still name a declared variable, but only
      one of the `fonts` scale whose kebab-cased key is `weight-` followed by
      the kebab-cased weight key (a `fonts` key `weightBold` declares
      `--duro-font-weight-bold`). */
  lemma FontWeightOnlyThroughFonts(c: Category, key: string, k: string)
    requires c != FontWeights
    requires GetThemeVar(FontWeights, k) == "var(" + DeclaredName(c, key).value + ")"
    ensures c == Fonts && KebabCase(key) == "weight-" + CamelToKebab(k)
  {
    var n := if c == Space then key else KebabCase(key);
    ReferenceShape(c, key);
    Assoc5(VarPrefix, FontWeights.Name(), "-", CamelToKebab(k), ")");
    CancelPrefix(VarPrefix, c.Name() + "-" + n + ")", FontWeights.Name() + "-" + CamelToKebab(k) + ")");
    FontWeightTail(c, n, CamelToKebab(k));
  }

  /** The compiler's `themeVar` is the plugin's `getThemeVar` for the
      category's family. */
  lemma ThemeVarIsGetThemeVar(c: Category, key: string)
    ensures ThemeVar(c.Name(), key) == GetThemeVar(c, key)
  {
    KebabCaseIsCamelToKebab(key);
  }
}

=== FILE: section_component.dfy ===
/** The class list of the `Section` layout component and of its `Grid`
    preset, and how its classes meet the selectors the theme compiler
    writes for the same section and variant. */
module SectionComponent {
  import opened Wrappers
  import opened Strings
  import opened ThemeMapping
  import opened CssGenerator
  import opened NamingContract

  /** The props that decide the class list. An absent prop is `None`. */
  datatype SectionProps = SectionProps(
    section: Option<string>,
    variant: Option<string>,
    containerQuery: Option<bool>,
    className: Option<string>)

  /** JavaScript truthiness of an optional string. */
  predicate Truthy(s: Option<string>)
  {
    s.Some? && s.value != ""
  }

  /** `section = 'stack'`: the default applies only to an absent prop. */
  function SectionName(p: SectionProps): string
  {
    p.section.GetOr("stack")
  }

  /** `containerQuery = true`. */
  function ContainerFlag(p: SectionProps): bool
  {
    p.containerQuery.GetOr(true)
  }

  function BaseClass(section: string): string
  {
    "duro-section-" + section
  }

  function VariantClass(section: string, variant: string): string
  {
    "duro-section-" + section + "-" + variant
  }

  /** The class list before joining: the base class, the variant class
      when the variant is truthy, `duro-container` when container queries
      are on, and the custom class name when it is truthy, in that order. */
  function ClassList(p: SectionProps): (r: seq<string>)
    ensures |r| == 1 + (if Truthy(p.variant) then 1 else 0) + (if ContainerFlag(p) then 1 else 0)
                     + (if Truthy(p.className) then 1 else 0)
    ensures r[0] == BaseClass(SectionName(p))
    ensures Truthy(p.variant) ==> r[1] == VariantClass(SectionName(p), p.variant.value)
    ensures ContainerFlag(p) ==> r[if Truthy(p.variant) then 2 else 1] == "duro-container"
    ensures Truthy(p.className) ==> r[|r| - 1] == p.className.value
    ensures forall i :: 1 <= i < |r| ==>
      r[i] == "duro-container"
      || (Truthy(p.variant) && r[i] == VariantClass(SectionName(p), p.variant.value))
      || (Truthy(p.className) && r[i] == p.className.value)
  {
    [BaseClass(SectionName(p))]
    + (if Truthy(p.variant) then [VariantClass(SectionName(p), p.variant.value)] else [])
    + (if ContainerFlag(p) then ["duro-container"] else [])
    + (if Truthy(p.className) then [p.className.value] else [])
  }

  /** `sectionClass`: the class list joined by single spaces. */
  function SectionClass(p: SectionProps): string
  {
    Join(ClassList(p), " ")
  }

  /** No part of the class list holds a space: section, variant and
      class name are single tokens. */
  predicate SingleTokens(p: SectionProps)
  {
    ' ' !in SectionName(p)
    && (p.variant.Some? ==> ' ' !in p.variant.value)
    && (p.className.Some? ==> ' ' !in p.className.value)
  }

  lemma NoSpaceConcat(a: string, b: string)
    requires ' ' !in a && ' ' !in b
    ensures ' ' !in a + b
  {
    assert forall i :: 0 <= i < |a + b| ==> (a + b)[i] == if i < |a| then a[i] else b[i - |a|];
  }

  /** The class tokens the element carries, splitting the attribute at
      spaces, are exactly the class list: the join loses nothing. */
  lemma ClassTokens(p: SectionProps)
    requires SingleTokens(p)
    ensures Split(SectionClass(p), ' ') == ClassList(p)
  {
    var r := ClassList(p);
    var name := SectionName(p);
    assert ' ' !in "duro-section-";
    assert ' ' !in "-";
    assert ' ' !in "duro-container";
    NoSpaceConcat("duro-section-", name);
    if Truthy(p.variant) {
      NoSpaceConcat("duro-section-" + name, "-");
      NoSpaceConcat("duro-section-" + name + "-", p.variant.value);
    }
    SplitJoin(r, ' ');
  }

  /** `Grid`: the `grid` section, whose `containerQuery` defaults to
      false. */
  function GridProps(p: SectionProps): (q: SectionProps)
    ensures SectionName(q) == "grid"
    ensures ContainerFlag(q) == p.containerQuery.GetOr(false)
    ensures q.variant == p.variant && q.className == p.className
  {
    p.(section := Some("grid"), containerQuery := Some(p.containerQuery.GetOr(false)))
  }

  /** Left to their defaults, a `Section` opts into container queries and
      a `Grid` does not. */
  lemma ContainerDefaults(p: SectionProps)
    requires p.containerQuery.None? && !Truthy(p.variant) && !Truthy(p.className)
    ensures ClassList(p) == [BaseClass(SectionName(p)), "duro-container"]
    ensures ClassList(GridProps(p)) == ["duro-section-grid"]
  {
    assert BaseClass("grid") == "duro-section-grid";
  }

  /** The length of a kebab-cased name exceeds the name's by its number of
      upper-case letters. */
  lemma KebabCaseLength(s: string)
    ensures |KebabCase(s)| == |s| + CountUpper(s)
    ensures KebabCase(s) == s <==> NoUpper(s)
  {
    KebabCaseIsCamelToKebab(s);
    CamelToKebabIdentity(s);
  }

  /** The base class is what the base rule's selector selects exactly
      when the section name has no upper-case letter. */
  lemma BaseClassMatchesSelector(section: string)
    ensures SectionSelector(section, None) == "." + BaseClass(section) <==> NoUpper(section)
  {
    KebabCaseLength(section);
    SelectorPrefix();
    var sel := SectionSelector(section, None);
    var cls := "." + BaseClass(section);
    if sel == cls {
      assert |sel| == 14 + |KebabCase(section)| && |cls| == 14 + |section|;
    }
  }

  /** The selector prefix is a dot before the class prefix. */
  lemma SelectorPrefix()
    ensures ".duro-section-" == "." + "duro-section-" && |".duro-section-"| == 14
  {
  }

  /** The variant class is what the variant rule's selector selects
      exactly when neither the section name nor the variant name has an
      upper-case letter. */
  lemma VariantClassMatchesSelector(section: string, variant: string)
    requires variant != ""
    ensures SectionSelector(section, Some(variant)) == "." + VariantClass(section, variant)
        <==> NoUpper(section) && NoUpper(variant)
  {
    KebabCaseLength(section);
    KebabCaseLength(variant);
    SelectorPrefix();
    var ks, kv := KebabCase(section), KebabCase(variant);
    var sel := SectionSelector(section, Some(variant));
    var cls := "." + VariantClass(section, variant);
    assert sel == ".duro-section-" + ks + "-" + kv;
    if sel == cls {
      assert |sel| == 15 + |ks| + |kv| && |cls| == 15 + |section| + |variant|;
    }
    if NoUpper(section) && NoUpper(variant) {
      DotRegroup(".", "duro-section-", section, "-", variant);
    }
  }

  lemma DotRegroup(d: string, p: string, a: string, h: string, b: string)
    ensures d + (p + a + h + b) == (d + p) + a + h + b
  {
  }

  /** The `spaceBetween` variant of the `cluster` section gets the class
      `duro-section-cluster-spaceBetween`, which the compiled rule
      `.duro-section-cluster-space-between` does not select. */
  lemma ClusterSpaceBetweenUnstyled()
    ensures SectionSelector("cluster", Some("spaceBetween")) != "." + VariantClass("cluster", "spaceBetween")
  {
    assert IsUpper("spaceBetween"[5]);
    VariantClassMatchesSelector("cluster", "spaceBetween");
  }
}

=== FILE: sections.dfy ===
/** The section registry helpers: `createSection`, which turns a
    configuration into a section definition, and the registry of common
    sections the stylesheet is built from. */
module Sections {
  import opened Wrappers
  import opened Entries
  import opened Theme

  /** The argument of `createSection`. `variants` and `containerQueries`
      are optional records from a name (a breakpoint for container
      queries) to a layout. */
  datatype SectionConfig = SectionConfig(
    baseLayout: Layout,
    variants: Option<Entries<Layout>>,
    containerQueries: Option<Entries<Layout>>)

  /** Each layout stored as a plain-layout variant under its own name. */
  function PlainVariants(ls: Entries<Layout>): (r: Entries<Variant>)
    ensures |r| == |ls|
    ensures forall i :: 0 <= i < |ls| ==> r[i] == (ls[i].0, Plain(ls[i].1))
  {
    if ls == [] then [] else [(ls[0].0, Plain(ls[0].1))] + PlainVariants(ls[1..])
  }

  lemma PlainVariantsKeys(ls: Entries<Layout>)
    ensures Keys(PlainVariants(ls)) == Keys(ls)
  {
  }

  /** Assigning the plain variants of a duplicate-free record into an empty
      record copies them. */
  lemma AssignPlainVariants(ls: Entries<Layout>)
    ensures UniqueKeys(ls) ==> AssignAll([], PlainVariants(ls)) == PlainVariants(ls)
  {
    if UniqueKeys(ls) {
      var vs := PlainVariants(ls);
      PlainVariantsKeys(ls);
      assert UniqueKeys([] + vs) by {
        assert [] + vs == vs;
        forall i, j | 0 <= i < j < |vs| ensures vs[i].0 != vs[j].0 {
          assert vs[i].0 == Keys(vs)[i] && vs[j].0 == Keys(vs)[j];
        }
      }
      AssignAllCopies([], vs);
    }
  }

  /** `createSection`: the base layout as given, and every variant layout
      assigned, in order, into a fresh record. The `containerQueries`
      field is read and dropped. */
  function CreateSection(config: SectionConfig): (r: SectionDefinition)
    ensures r.baseLayout == config.baseLayout
    ensures UniqueKeys(config.variants.GetOr([])) ==>
      r.variants == PlainVariants(config.variants.GetOr([]))
  {
    AssignPlainVariants(config.variants.GetOr([]));
    SectionDefinition(config.baseLayout, AssignAll([], PlainVariants(config.variants.GetOr([]))))
  }

  /** For a record without duplicate names every variant is a plain layout
      stored under its name, so no variant carries container queries,
      whatever `containerQueries` held. */
  lemma CreateSectionPlain(config: SectionConfig)
    requires UniqueKeys(config.variants.GetOr([]))
    ensures var vs := CreateSection(config).variants;
      |vs| == |config.variants.GetOr([])|
      && forall i :: 0 <= i < |vs| ==>
           vs[i].1.Plain? && vs[i] == (config.variants.GetOr([])[i].0, Plain(config.variants.GetOr([])[i].1))
    ensures forall cq :: CreateSection(config.(containerQueries := cq)) == CreateSection(config)
  {
  }

  /** Without variants the definition has none. */
  lemma CreateSectionNoVariants(base: Layout, cq: Option<Entries<Layout>>)
    ensures CreateSection(SectionConfig(base, None, cq)) == SectionDefinition(base, [])
  {
    assert UniqueKeys<Layout>([]);
  }

  /** A layout whose values are all given. */
  predicate AllDefined(l: Layout)
  {
    forall i :: 0 <= i < |l| ==> l[i].1.Some?
  }

  // The common sections, one configuration each.

  const HeroConfig := SectionConfig(
    [ ("display", Some("flex")), ("flexDirection", Some("column")), ("alignItems", Some("center")),
      ("justifyContent", Some("center")), ("padding", Some("var(--duro-space-6)")),
      ("gap", Some("var(--duro-space-4)")) ],
    Some([ ("centered", [("textAlign", Some("center"))]),
           ("split", [ ("display", Some("grid")), ("gridTemplateColumns", Some("1fr")),
                       ("gap", Some("var(--duro-space-6)")) ]) ]),
    Some([ ("768px", [("padding", Some("var(--duro-space-8)"))]) ]))

  const DashboardConfig := SectionConfig(
    [ ("display", Some("grid")), ("gap", Some("var(--duro-space-4)")), ("padding", Some("var(--duro-space-4)")) ],
    Some([ ("admin", [ ("gridTemplateAreas", Some("\"header header\" \"sidebar main\" \"sidebar footer\"")),
                       ("gridTemplateColumns", Some("250px 1fr")), ("gridTemplateRows", Some("auto 1fr auto")) ]),
           ("guest", [ ("gridTemplateAreas", Some("\"header\" \"main\" \"footer\"")),
                       ("gridTemplateColumns", Some("1fr")), ("gridTemplateRows", Some("auto 1fr auto")) ]),
           ("simple", [("gridTemplateColumns", Some("1fr"))]) ]),
    None)

  const StackConfig := SectionConfig(
    [ ("display", Some("flex")), ("flexDirection", Some("column")), ("gap", Some("var(--duro-space-4)")) ],
    Some([ ("tight", [("gap", Some("var(--duro-space-2)"))]),
           ("loose", [("gap", Some("var(--duro-space-6)"))]) ]),
    None)

  const GridConfig := SectionConfig(
    [ ("display", Some("grid")), ("gap", Some("var(--duro-space-4)")) ],
    Some([ ("cols2", [("gridTemplateColumns", Some("repeat(2, 1fr)"))]),
           ("cols3", [("gridTemplateColumns", Some("repeat(3, 1fr)"))]),
           ("cols4", [("gridTemplateColumns", Some("repeat(4, 1fr)"))]),
           ("responsive", [("gridTemplateColumns", Some("repeat(auto-fit, minmax(300px, 1fr))"))]) ]),
    None)

  const SidebarConfig := SectionConfig(
    [ ("display", Some("grid")), ("gridTemplateColumns", Some("1fr")), ("gap", Some("var(--duro-space-4)")) ],
    Some([ ("left", [("gridTemplateColumns", Some("250px 1fr"))]),
           ("right", [("gridTemplateColumns", Some("1fr 250px"))]),
           ("wide", [("gridTemplateColumns", Some("350px 1fr"))]) ]),
    None)

  const ClusterConfig := SectionConfig(
    [ ("display", Some("flex")), ("flexWrap", Some("wrap")), ("gap", Some("var(--duro-space-3)")),
      ("alignItems", Some("flex-start")) ],
    Some([ ("center", [("justifyContent", Some("center")), ("alignItems", Some("center"))]),
           ("spaceBetween", [("justifyContent", Some("space-between"))]) ]),
    None)

  const CommonConfigs: Entries<SectionConfig> :=
    [ ("hero", HeroConfig), ("dashboard", DashboardConfig), ("stack", StackConfig),
      ("grid", GridConfig), ("sidebar", SidebarConfig), ("cluster", ClusterConfig) ]

  /** Each configuration passed through `createSection`. */
  function CreateAll(configs: Entries<SectionConfig>): (r: Registry)
    ensures |r| == |configs|
    ensures forall i :: 0 <= i < |configs| ==> r[i] == (configs[i].0, CreateSection(configs[i].1))
  {
    if configs == [] then [] else [(configs[0].0, CreateSection(configs[0].1))] + CreateAll(configs[1..])
  }

  /** `commonSections`. */
  function CommonSections(): Registry
  {
    CreateAll(CommonConfigs)
  }

  /** A configuration whose layouts are all fully given and whose variant
      names are distinct. */
  predicate WellFormedConfig(c: SectionConfig)
  {
    AllDefined(c.baseLayout) && |c.baseLayout| > 0
    && UniqueKeys(c.variants.GetOr([]))
    && forall i :: 0 <= i < |c.variants.GetOr([])| ==>
         AllDefined(c.variants.GetOr([])[i].1) && |c.variants.GetOr([])[i].1| > 0
  }

  lemma HeroWellFormed()
    ensures WellFormedConfig(HeroConfig) && |HeroConfig.variants.value| == 2
  {
    assert HeroConfig.variants.value[0].0 != HeroConfig.variants.value[1].0;
  }

  lemma DashboardWellFormed()
    ensures WellFormedConfig(DashboardConfig) && |DashboardConfig.variants.value| == 3
  {
    var vs := DashboardConfig.variants.value;
    assert vs[0].0 != vs[1].0 && vs[0].0 != vs[2].0 && vs[1].0 != vs[2].0;
  }

  lemma StackWellFormed()
    ensures WellFormedConfig(StackConfig) && |StackConfig.variants.value| == 2
  {
    assert StackConfig.variants.value[0].0 != StackConfig.variants.value[1].0;
  }

  lemma GridWellFormed()
    ensures WellFormedConfig(GridConfig) && |GridConfig.variants.value| == 4
  {
    var vs := GridConfig.variants.value;
    assert vs[0].0 != vs[1].0 && vs[0].0 != vs[2].0 && vs[0].0 != vs[3].0;
    assert vs[1].0 != vs[2].0 && vs[1].0 != vs[3].0 && vs[2].0 != vs[3].0;
  }

  lemma SidebarWellFormed()
    ensures WellFormedConfig(SidebarConfig) && |SidebarConfig.variants.value| == 3
  {
    var vs := SidebarConfig.variants.value;
    assert vs[0].0 != vs[1].0 && vs[0].0 != vs[2].0 && vs[1].0 != vs[2].0;
  }

  lemma ClusterWellFormed()
    ensures WellFormedConfig(ClusterConfig) && |ClusterConfig.variants.value| == 2
  {
    assert ClusterConfig.variants.value[0].0 != ClusterConfig.variants.value[1].0;
  }

  lemma CommonConfigsWellFormed()
    ensures |CommonConfigs| == 6
    ensures forall i :: 0 <= i < 6 ==> WellFormedConfig(CommonConfigs[i].1)
  {
    HeroWellFormed();
    DashboardWellFormed();
    StackWellFormed();
    GridWellFormed();
    SidebarWellFormed();
    ClusterWellFormed();
  }
}

=== FILE: strings.dfy ===
/** The JavaScript string built-ins the core relies on: character classes,
    `toLowerCase`/`toUpperCase` (ASCII letters only), `trim`, `Array.join`
    and `String(n)` for natural numbers. */
module Strings {

  predicate IsUpper(c: char) { 'A' <= c <= 'Z' }
  predicate IsLower(c: char) { 'a' <= c <= 'z' }
  predicate IsDigit(c: char) { '0' <= c <= '9' }

  predicate IsAscii(s: string)
  {
    forall i :: 0 <= i < |s| ==> s[i] < '\U{80}'
  }

  /** True iff `s` contains no ASCII upper-case letter. */
  predicate NoUpper(s: string)
  {
    forall i :: 0 <= i < |s| ==> !IsUpper(s[i])
  }

  /** A concatenation has no upper-case letter when neither part has. */
  lemma NoUpperConcat(a: string, b: string)
    requires NoUpper(a) && NoUpper(b)
    ensures NoUpper(a + b)
  {
    assert forall i :: |a| <= i < |a + b| ==> (a + b)[i] == b[i - |a|];
  }

  /** Number of ASCII upper-case letters in `s`. */
  function CountUpper(s: string): (n: nat)
    ensures n <= |s|
    ensures n == 0 <==> NoUpper(s)
  {
    if s == [] then 0
    else (if IsUpper(s[0]) then 1 else 0) + CountUpper(s[1..])
  }

  function LowerChar(c: char): (d: char)
    ensures IsUpper(c) ==> IsLower(d) && d as int == c as int + 32
    ensures !IsUpper(c) ==> d == c
  {
    if IsUpper(c) then (c as int + 32) as char else c
  }

  function UpperChar(c: char): (d: char)
    ensures IsLower(c) ==> IsUpper(d) && d as int + 32 == c as int
    ensures !IsLower(c) ==> d == c
  {
    if IsLower(c) then (c as int - 32) as char else c
  }

  /** `String.prototype.toLowerCase`, on ASCII letters. */
  function ToLower(s: string): (r: string)
    ensures |r| == |s|
    ensures forall i :: 0 <= i < |s| ==> r[i] == LowerChar(s[i])
    ensures NoUpper(r)
  {
    if s == [] then [] else [LowerChar(s[0])] + ToLower(s[1..])
  }

  lemma ToLowerAppend(a: string, b: string)
    ensures ToLower(a + b) == ToLower(a) + ToLower(b)
  {
    assert forall i :: 0 <= i < |a + b| ==> ToLower(a + b)[i] == (ToLower(a) + ToLower(b))[i];
  }

  /** The characters `String.prototype.trim` removes: ECMAScript WhiteSpace
      and LineTerminator code points. */
  predicate IsJsSpace(c: char)
  {
    || c == ' ' || c == '\t' || c == '\n' || c == '\r'
    || c == '\U{000B}' || c == '\U{000C}' || c == '\U{00A0}' || c == '\U{1680}'
    || ('\U{2000}' <= c <= '\U{200A}')
    || c == '\U{2028}' || c == '\U{2029}' || c == '\U{202F}' || c == '\U{205F}'
    || c == '\U{3000}' || c == '\U{FEFF}'
  }

  predicate AllJsSpace(s: string)
  {
    forall i :: 0 <= i < |s| ==> IsJsSpace(s[i])
  }

  function TrimStart(s: string): (r: string)
    ensures |r| <= |s|
    ensures r == s[|s| - |r|..]
  {
    if |s| > 0 && IsJsSpace(s[0]) then TrimStart(s[1..]) else s
  }

  function TrimEnd(s: string): (r: string)
    ensures |r| <= |s|
    ensures r == s[..|r|]
  {
    if |s| > 0 && IsJsSpace(s[|s| - 1]) then TrimEnd(s[..|s| - 1]) else s
  }

  /** `String.prototype.trim`. */
  function Trim(s: string): string
  {
    TrimEnd(TrimStart(s))
  }

  lemma {:induction false} TrimStartFrame(pre: string, rest: string)
    requires AllJsSpace(pre)
    requires |rest| > 0 && !IsJsSpace(rest[0])
    ensures TrimStart(pre + rest) == rest
    decreases |pre|
  {
    if pre == [] {
      assert pre + rest == rest;
    } else {
      assert (pre + rest)[1..] == pre[1..] + rest;
      TrimStartFrame(pre[1..], rest);
    }
  }

  lemma {:induction false} TrimEndFrame(rest: string, post: string)
    requires AllJsSpace(post)
    requires |rest| > 0 && !IsJsSpace(rest[|rest| - 1])
    ensures TrimEnd(rest + post) == rest
    decreases |post|
  {
    if post == [] {
      assert rest + post == rest;
    } else {
      var n := |rest + post|;
      assert (rest + post)[..n - 1] == rest + post[..|post| - 1];
      TrimEndFrame(rest, post[..|post| - 1]);
    }
  }

  /** Trimming a text framed by white space leaves exactly the framed text,
      when that text starts and ends with a visible character. */
  lemma TrimFrame(pre: string, inner: string, post: string)
    requires AllJsSpace(pre) && AllJsSpace(post)
    requires |inner| > 0 && !IsJsSpace(inner[0]) && !IsJsSpace(inner[|inner| - 1])
    ensures Trim(pre + inner + post) == inner
  {
    assert pre + inner + post == pre + (inner + post);
    TrimStartFrame(pre, inner + post);
    TrimEndFrame(inner, post);
  }

  /** `Array.prototype.join(sep)` on an array of strings. */
  function Join(xs: seq<string>, sep: string): string
  {
    if |xs| == 0 then ""
    else if |xs| == 1 then xs[0]
    else xs[0] + sep + Join(xs[1..], sep)
  }

  lemma {:induction false} JoinAppend(a: seq<string>, b: seq<string>, sep: string)
    requires |a| > 0 && |b| > 0
    ensures Join(a + b, sep) == Join(a, sep) + sep + Join(b, sep)
    decreases |a|
  {
    if |a| == 1 {
      assert (a + b)[1..] == b;
    } else {
      assert (a + b)[1..] == a[1..] + b;
      JoinAppend(a[1..], b, sep);
    }
  }

  /** Joining three non-empty runs puts the separator between the runs. */
  lemma JoinAppend3(a: seq<string>, b: seq<string>, c: seq<string>, sep: string)
    requires |a| > 0 && |b| > 0 && |c| > 0
    ensures Join(a + b + c, sep) == Join(a, sep) + sep + Join(b, sep) + sep + Join(c, sep)
  {
    JoinAppend(a, b, sep);
    JoinAppend(a + b, c, sep);
  }

  /** `String.prototype.split` on a one-character separator: the pieces
      between occurrences of `c`, empty pieces included. */
  function Split(s: string, c: char): (r: seq<string>)
    ensures |r| >= 1
  {
    if s == [] then [""]
    else if s[0] == c then [""] + Split(s[1..], c)
    else
      var rest := Split(s[1..], c);
      [[s[0]] + rest[0]] + rest[1..]
  }

  /** A word without the separator is glued to the first piece of what
      follows it. */
  lemma {:induction false} SplitWord(w: string, t: string, c: char)
    requires c !in w
    ensures Split(w + t, c) == [w + Split(t, c)[0]] + Split(t, c)[1..]
  {
    var st := Split(t, c);
    if w == [] {
      assert w + t == t && w + st[0] == st[0];
      assert st == [st[0]] + st[1..];
    } else {
      assert (w + t)[0] == w[0] && (w + t)[1..] == w[1..] + t;
      SplitWord(w[1..], t, c);
      var rest := Split(w[1..] + t, c);
      assert rest[0] == w[1..] + st[0] && rest[1..] == st[1..];
      assert Split(w + t, c) == [[w[0]] + rest[0]] + rest[1..];
      assert [w[0]] + (w[1..] + st[0]) == w + st[0];
    }
  }

  /** Splitting on the separator of a join gives the joined strings back,
      when none of them holds the separator. */
  lemma {:induction false} SplitJoin(xs: seq<string>, c: char)
    requires |xs| > 0
    requires forall i :: 0 <= i < |xs| ==> c !in xs[i]
    ensures Split(Join(xs, [c]), c) == xs
  {
    if |xs| == 1 {
      SplitWord(xs[0], "", c);
      assert xs[0] + "" == xs[0];
    } else {
      var rest := Join(xs[1..], [c]);
      SplitJoin(xs[1..], c);
      assert xs[0] + [c] + rest == xs[0] + ([c] + rest);
      SplitWord(xs[0], [c] + rest, c);
      assert ([c] + rest)[1..] == rest;
      assert Split([c] + rest, c) == [""] + xs[1..];
      assert xs[0] + "" == xs[0];
    }
  }

  predicate StartsWith(s: string, prefix: string)
  {
    |prefix| <= |s| && s[..|prefix|] == prefix
  }

  function DigitChar(d: nat): (c: char)
    requires d < 10
    ensures IsDigit(c)
  {
    ('0' as int + d) as char
  }

  /** `String(n)` for a natural number: its decimal digits, no leading zero. */
  function NatToDecimal(n: nat): (s: string)
    ensures |s| > 0
    ensures forall i :: 0 <= i < |s| ==> IsDigit(s[i])
    ensures s[0] == '0' ==> s == "0"
  {
    if n < 10 then [DigitChar(n)] else NatToDecimal(n / 10) + [DigitChar(n % 10)]
  }

  /** Reads a string of decimal digits back as a number. */
  function DecimalToNat(s: string): nat
    requires forall i :: 0 <= i < |s| ==> IsDigit(s[i])
  {
    if s == [] then 0
    else
      var last := s[|s| - 1];
      assert IsDigit(last);
      DecimalToNat(s[..|s| - 1]) * 10 + (last as int - '0' as int)
  }

  lemma {:induction false} DecimalRoundTrip(n: nat)
    ensures DecimalToNat(NatToDecimal(n)) == n
  {
    if n >= 10 {
      var s := NatToDecimal(n);
      assert s[..|s| - 1] == NatToDecimal(n / 10);
      DecimalRoundTrip(n / 10);
    }
  }

  /** Distinct numbers print differently. */
  lemma NatToDecimalInjective(m: nat, n: nat)
    requires NatToDecimal(m) == NatToDecimal(n)
    ensures m == n
  {
    DecimalRoundTrip(m);
    DecimalRoundTrip(n);
  }
}

=== FILE: theme.dfy ===
/** The theme object of the core package: scales as ordered association
    lists (in the order `Object.entries` lists them), the section layout
    types and the default theme. */
module Theme {
  import opened Wrappers
  import opened Entries

  /** A color palette. A value is `None` when it is not a string (an
      explicitly undefined optional color). The `modes` record is kept
      apart in `ColorScale`. */
  type Palette = Entries<Option<string>>

  /** `colors`: the base palette and the optional `modes` record, which
      maps a mode name to a partial palette. */
  datatype ColorScale = ColorScale(base: Palette, modes: Option<Entries<Palette>>)

  /** `SectionLayout`: CSS property names (camel case) to optional values. */
  type Layout = Entries<Option<string>>

  /** A section variant: a `{ name, layout, containerQuery? }` record, or a
      plain layout. `containerQuery` maps a breakpoint to a layout. */
  datatype Variant =
    | Rich(name: string, layout: Layout, containerQuery: Option<Entries<Layout>>)
    | Plain(plain: Layout)
  {
    /** `'layout' in variant ? variant.layout : variant`. */
    function LayoutOf(): (l: Layout)
      ensures this.Rich? ==> l == this.layout
      ensures this.Plain? ==> l == this.plain
    {
      match this
      case Rich(_, layout, _) => layout
      case Plain(layout) => layout
    }
  }

  datatype SectionDefinition = SectionDefinition(baseLayout: Layout, variants: Entries<Variant>)

  type Registry = Entries<SectionDefinition>

  /** `DuroTheme`. */
  datatype DuroTheme = DuroTheme(
    colors: ColorScale,
    space: Entries<string>,
    fonts: Entries<string>,
    fontSizes: Entries<string>,
    lineHeights: Entries<string>,
    borders: Entries<string>,
    radii: Entries<string>,
    shadows: Entries<string>,
    breakpoints: Entries<Option<string>>,
    sections: Registry)

  /** `theme.colors.modes?.dark`: the dark palette, when there is one. */
  function DarkPalette(theme: DuroTheme): (d: Option<Palette>)
    ensures theme.colors.modes.None? ==> d.None?
    ensures theme.colors.modes.Some? ==> d == Find(theme.colors.modes.value, "dark")
  {
    match theme.colors.modes
    case None => None
    case Some(modes) => Find(modes, "dark")
  }

  /** The default palette; its `modes` record has only a `light` palette. */
  const DefaultColors := ColorScale(
    [ ("text", Some("#FFFFFF")), ("background", Some("#000000")),
      ("primary", Some("#FFFFFF")), ("secondary", Some("#808080")),
      ("accent", Some("#404040")), ("muted", Some("#1a1a1a")),
      ("success", Some("#FFFFFF")), ("warning", Some("#808080")),
      ("error", Some("#FFFFFF")), ("info", Some("#808080")) ],
    Some([ ("light",
            [ ("text", Some("#000000")), ("background", Some("#FFFFFF")),
              ("primary", Some("#000000")), ("secondary", Some("#808080")),
              ("muted", Some("#F0F0F0")) ]) ]))

  const DefaultSpace: Entries<string> :=
    [ ("0", "0"), ("1", "0.25rem"), ("2", "0.5rem"), ("3", "0.75rem"), ("4", "1rem"),
      ("5", "1.5rem"), ("6", "2rem"), ("7", "3rem"), ("8", "4rem") ]

  const MonoStack := "\"JetBrains Mono\", \"Fira Code\", \"SF Mono\", Menlo, Monaco, \"Courier New\", monospace"

  const DefaultFonts: Entries<string> :=
    [ ("body", MonoStack), ("heading", MonoStack), ("monospace", MonoStack) ]

  const DefaultFontSizes: Entries<string> :=
    [ ("xs", "0.6875rem"), ("sm", "0.75rem"), ("md", "0.875rem"), ("lg", "1rem"),
      ("xl", "1.125rem"), ("2xl", "1.25rem"), ("3xl", "1.5rem") ]

  const DefaultLineHeights: Entries<string> :=
    [ ("tight", "1.2"), ("normal", "1.5"), ("relaxed", "1.75") ]

  const DefaultBorders: Entries<string> :=
    [ ("none", "none"), ("thin", "1px solid"), ("medium", "1px solid"), ("thick", "2px solid") ]

  const DefaultRadii: Entries<string> :=
    [ ("none", "0"), ("sm", "0"), ("md", "0"), ("lg", "0"), ("full", "0") ]

  const DefaultShadows: Entries<string> :=
    [ ("none", "none"), ("sm", "none"), ("md", "none"), ("lg", "none"), ("xl", "none"),
      ("glow", "0 0 10px rgba(255, 255, 255, 0.3)"),
      ("glowStrong", "0 0 20px rgba(255, 255, 255, 0.5)") ]

  const DefaultBreakpoints: Entries<Option<string>> :=
    [ ("sm", Some("640px")), ("md", Some("768px")), ("lg", Some("1024px")),
      ("xl", Some("1280px")), ("2xl", Some("1536px")) ]

  /** `duroTheme`: the default HUD theme, with an empty section registry. */
  const DefaultTheme := DuroTheme(
    DefaultColors, DefaultSpace, DefaultFonts, DefaultFontSizes, DefaultLineHeights,
    DefaultBorders, DefaultRadii, DefaultShadows, DefaultBreakpoints, [])

  /** The default theme has no dark palette: only `light` is defined; and
      its section registry is empty. */
  lemma DefaultThemeHasNoDarkPalette()
    ensures DarkPalette(DefaultTheme).None?
    ensures DefaultTheme.sections == []
    ensures DefaultTheme.colors.modes.Some? && Keys(DefaultTheme.colors.modes.value) == ["light"]
  {
    assert DefaultTheme.colors.modes.value[0].0 != "dark";
  }

  /** The default space scale has exactly the keys `0` to `8`, in order. */
  lemma DefaultSpaceKeys()
    ensures Keys(DefaultSpace) == ["0", "1", "2", "3", "4", "5", "6", "7", "8"]
  {
    var ks := Keys(DefaultSpace);
    assert |ks| == 9;
    assert ks[0] == "0" && ks[1] == "1" && ks[2] == "2" && ks[3] == "3" && ks[4] == "4";
    assert ks[5] == "5" && ks[6] == "6" && ks[7] == "7" && ks[8] == "8";
  }
}

=== FILE: theme_mapping.dfy ===
/** The plugin's fixed tables and naming helpers: the shorthand table (an
    `sx` key to a CSS property and a theme category), the passthrough set,
    the two case converters, the CSS variable reference builder and the
    theme-key test. */
module ThemeMapping {
  import opened Wrappers
  import opened Strings

  /** The theme categories the shorthand table uses. */
  datatype Category = Colors | Space | Fonts | FontSizes | FontWeights | LineHeights | Borders | Radii | Shadows
  {
    /** The category's text, as it appears inside a variable name. */
    function Name(): string
    {
      match this
      case Colors => "color"
      case Space => "space"
      case Fonts => "font"
      case FontSizes => "font-size"
      case FontWeights => "font-weight"
      case LineHeights => "line-height"
      case Borders => "border"
      case Radii => "radius"
      case Shadows => "shadow"
    }
  }

  /** One row of the shorthand table. The optional `transform` field of the
      row type is never set by any row and never read, so it is not part of
      the model. */
  datatype Mapping = Mapping(property: string, category: Category)

  /** The keys of `sxThemeMapping`, in declaration order, one type per
      commented section of the table. */
  datatype ColorKey = Color | Bg | BackgroundColor
  datatype MarginKey = M | Margin | Mt | MarginTop | Mr | MarginRight | Mb | MarginBottom | Ml | MarginLeft | Mx | MarginX | My | MarginY
  datatype PaddingKey = P | Padding | Pt | PaddingTop | Pr | PaddingRight | Pb | PaddingBottom | Pl | PaddingLeft | Px | PaddingX | Py | PaddingY
  datatype LayoutKey = Width | W | Height | H | MinWidth | MaxWidth | MinHeight | MaxHeight
  datatype TypographyKey = FontSize | FontFamily | FontWeight | LineHeight
  datatype BorderKey = Border | BorderTop | BorderRight | BorderBottom | BorderLeft | BorderWidth | BorderStyle | BorderColor
  datatype RadiusKey = BorderRadius | BorderTopLeftRadius | BorderTopRightRadius | BorderBottomLeftRadius | BorderBottomRightRadius
  datatype ShadowKey = BoxShadow | TextShadow
  datatype FlexboxKey = Gap | RowGap | ColumnGap

  /** A key of `sxThemeMapping`. */
  datatype Shorthand =
    | ColorSection(color: ColorKey)
    | MarginSection(margin: MarginKey)
    | PaddingSection(padding: PaddingKey)
    | LayoutSection(layout: LayoutKey)
    | TypographySection(typography: TypographyKey)
    | BorderSection(border: BorderKey)
    | RadiusSection(radius: RadiusKey)
    | ShadowSection(shadow: ShadowKey)
    | FlexboxSection(flexbox: FlexboxKey)

  /** The key's spelling in an `sx` object. */
  function Key(s: Shorthand): string
  {
    match s
    // Colors
    case ColorSection(k) =>
      (match k
      case Color => "color"
      case Bg => "bg"
      case BackgroundColor => "backgroundColor")
    // Spacing: margin
    case MarginSection(k) =>
      (match k
      case M => "m"
      case Margin => "margin"
      case Mt => "mt"
      case MarginTop => "marginTop"
      case Mr => "mr"
      case MarginRight => "marginRight"
      case Mb => "mb"
      case MarginBottom => "marginBottom"
      case Ml => "ml"
      case MarginLeft => "marginLeft"
      case Mx => "mx"
      case MarginX => "marginX"
      case My => "my"
      case MarginY => "marginY")
    // Spacing: padding
    case PaddingSection(k) =>
      (match k
      case P => "p"
      case Padding => "padding"
      case Pt => "pt"
      case PaddingTop => "paddingTop"
      case Pr => "pr"
      case PaddingRight => "paddingRight"
      case Pb => "pb"
      case PaddingBottom => "paddingBottom"
      case Pl => "pl"
      case PaddingLeft => "paddingLeft"
      case Px => "px"
      case PaddingX => "paddingX"
      case Py => "py"
      case PaddingY => "paddingY")
    // Layout
    case LayoutSection(k) =>
      (match k
      case Width => "width"
      case W => "w"
      case Height => "height"
      case H => "h"
      case MinWidth => "minWidth"
      case MaxWidth => "maxWidth"
      case MinHeight => "minHeight"
      case MaxHeight => "maxHeight")
    // Typography
    case TypographySection(k) =>
      (match k
      case FontSize => "fontSize"
      case FontFamily => "fontFamily"
      case FontWeight => "fontWeight"
      case LineHeight => "lineHeight")
    // Border
    case BorderSection(k) =>
      (match k
      case Border => "border"
      case BorderTop => "borderTop"
      case BorderRight => "borderRight"
      case BorderBottom => "borderBottom"
      case BorderLeft => "borderLeft"
      case BorderWidth => "borderWidth"
      case BorderStyle => "borderStyle"
      case BorderColor => "borderColor")
    // Border radius
    case RadiusSection(k) =>
      (match k
      case BorderRadius => "borderRadius"
      case BorderTopLeftRadius => "borderTopLeftRadius"
      case BorderTopRightRadius => "borderTopRightRadius"
      case BorderBottomLeftRadius => "borderBottomLeftRadius"
      case BorderBottomRightRadius => "borderBottomRightRadius")
    // Shadow
    case ShadowSection(k) =>
      (match k
      case BoxShadow => "boxShadow"
      case TextShadow => "textShadow")
    // Flexbox
    case FlexboxSection(k) =>
      match k
      case Gap => "gap"
      case RowGap => "rowGap"
      case ColumnGap => "columnGap"
  }

  /** The key's row in `sxThemeMapping`. */
  function Row(s: Shorthand): Mapping
  {
    match s
    // Colors
    case ColorSection(k) =>
      (match k
      case Color => Mapping("color", Colors)
      case Bg => Mapping("background", Colors)
      case BackgroundColor => Mapping("backgroundColor", Colors))
    // Spacing: margin
    case MarginSection(k) =>
      (match k
      case M => Mapping("margin", Space)
      case Margin => Mapping("margin", Space)
      case Mt => Mapping("marginTop", Space)
      case MarginTop => Mapping("marginTop", Space)
      case Mr => Mapping("marginRight", Space)
      case MarginRight => Mapping("marginRight", Space)
      case Mb => Mapping("marginBottom", Space)
      case MarginBottom => Mapping("marginBottom", Space)
      case Ml => Mapping("marginLeft", Space)
      case MarginLeft => Mapping("marginLeft", Space)
      case Mx => Mapping("marginInline", Space)
      case MarginX => Mapping("marginInline", Space)
      case My => Mapping("marginBlock", Space)
      case MarginY => Mapping("marginBlock", Space))
    // Spacing: padding
    case PaddingSection(k) =>
      (match k
      case P => Mapping("padding", Space)
      case Padding => Mapping("padding", Space)
      case Pt => Mapping("paddingTop", Space)
      case PaddingTop => Mapping("paddingTop", Space)
      case Pr => Mapping("paddingRight", Space)
      case PaddingRight => Mapping("paddingRight", Space)
      case Pb => Mapping("paddingBottom", Space)
      case PaddingBottom => Mapping("paddingBottom", Space)
      case Pl => Mapping("paddingLeft", Space)
      case PaddingLeft => Mapping("paddingLeft", Space)
      case Px => Mapping("paddingInline", Space)
      case PaddingX => Mapping("paddingInline", Space)
      case Py => Mapping("paddingBlock", Space)
      case PaddingY => Mapping("paddingBlock", Space))
    // Layout
    case LayoutSection(k) =>
      (match k
      case Width => Mapping("width", Space)
      case W => Mapping("width", Space)
      case Height => Mapping("height", Space)
      case H => Mapping("height", Space)
      case MinWidth => Mapping("minWidth", Space)
      case MaxWidth => Mapping("maxWidth", Space)
      case MinHeight => Mapping("minHeight", Space)
      case MaxHeight => Mapping("maxHeight", Space))
    // Typography
    case TypographySection(k) =>
      (match k
      case FontSize => Mapping("fontSize", FontSizes)
      case FontFamily => Mapping("fontFamily", Fonts)
      case FontWeight => Mapping("fontWeight", FontWeights)
      case LineHeight => Mapping("lineHeight", LineHeights))
    // Border
    case BorderSection(k) =>
      (match k
      case Border => Mapping("border", Borders)
      case BorderTop => Mapping("borderTop", Borders)
      case BorderRight => Mapping("borderRight", Borders)
      case BorderBottom => Mapping("borderBottom", Borders)
      case BorderLeft => Mapping("borderLeft", Borders)
      case BorderWidth => Mapping("borderWidth", Borders)
      case BorderStyle => Mapping("borderStyle", Borders)
      case BorderColor => Mapping("borderColor", Colors))
    // Border radius
    case RadiusSection(k) =>
      (match k
      case BorderRadius => Mapping("borderRadius", Radii)
      case BorderTopLeftRadius => Mapping("borderTopLeftRadius", Radii)
      case BorderTopRightRadius => Mapping("borderTopRightRadius", Radii)
      case BorderBottomLeftRadius => Mapping("borderBottomLeftRadius", Radii)
      case BorderBottomRightRadius => Mapping("borderBottomRightRadius", Radii))
    // Shadow
    case ShadowSection(k) =>
      (match k
      case BoxShadow => Mapping("boxShadow", Shadows)
      case TextShadow => Mapping("textShadow", Shadows))
    // Flexbox
    case FlexboxSection(k) =>
      match k
      case Gap => Mapping("gap", Space)
      case RowGap => Mapping("rowGap", Space)
      case ColumnGap => Mapping("columnGap", Space)
  }

  /** The shorthand key spelled `name`, if there is one. The cases are
      grouped by the length of the name, so that finding a given name only
      compares it with the keys of the same length. */
  function Parse(name: string): Option<Shorthand>
  {
    match |name|
    case 1 =>
      (match name
      case "m" => Some(MarginSection(M))
      case "p" => Some(PaddingSection(P))
      case "w" => Some(LayoutSection(W))
      case "h" => Some(LayoutSection(H))
      case _ => None)
    case 2 =>
      (match name
      case "bg" => Some(ColorSection(Bg))
      case "mt" => Some(MarginSection(Mt))
      case "mr" => Some(MarginSection(Mr))
      case "mb" => Some(MarginSection(Mb))
      case "ml" => Some(MarginSection(Ml))
      case "mx" => Some(MarginSection(Mx))
      case "my" => Some(MarginSection(My))
      case "pt" => Some(PaddingSection(Pt))
      case "pr" => Some(PaddingSection(Pr))
      case "pb" => Some(PaddingSection(Pb))
      case "pl" => Some(PaddingSection(Pl))
      case "px" => Some(PaddingSection(Px))
      case "py" => Some(PaddingSection(Py))
      case _ => None)
    case 3 =>
      (match name
      case "gap" => Some(FlexboxSection(Gap))
      case _ => None)
    case 5 =>
      (match name
      case "color" => Some(ColorSection(Color))
      case "width" => Some(LayoutSection(Width))
      case _ => None)
    case 6 =>
      (match name
      case "margin" => Some(MarginSection(Margin))
      case "height" => Some(LayoutSection(Height))
      case "border" => Some(BorderSection(Border))
      case "rowGap" => Some(FlexboxSection(RowGap))
      case _ => None)
    case 7 =>
      (match name
      case "marginX" => Some(MarginSection(MarginX))
      case "marginY" => Some(MarginSection(MarginY))
      case "padding" => Some(PaddingSection(Padding))
      case _ => None)
    case 8 =>
      (match name
      case "paddingX" => Some(PaddingSection(PaddingX))
      case "paddingY" => Some(PaddingSection(PaddingY))
      case "minWidth" => Some(LayoutSection(MinWidth))
      case "maxWidth" => Some(LayoutSection(MaxWidth))
      case "fontSize" => Some(TypographySection(FontSize))
      case _ => None)
    case 9 =>
      (match name
      case "marginTop" => Some(MarginSection(MarginTop))
      case "minHeight" => Some(LayoutSection(MinHeight))
      case "maxHeight" => Some(LayoutSection(MaxHeight))
      case "borderTop" => Some(BorderSection(BorderTop))
      case "boxShadow" => Some(ShadowSection(BoxShadow))
      case "columnGap" => Some(FlexboxSection(ColumnGap))
      case _ => None)
    case 10 =>
      (match name
      case "marginLeft" => Some(MarginSection(MarginLeft))
      case "paddingTop" => Some(PaddingSection(PaddingTop))
      case "fontFamily" => Some(TypographySection(FontFamily))
      case "fontWeight" => Some(TypographySection(FontWeight))
      case "lineHeight" => Some(TypographySection(LineHeight))
      case "borderLeft" => Some(BorderSection(BorderLeft))
      case "textShadow" => Some(ShadowSection(TextShadow))
      case _ => None)
    case 11 =>
      (match name
      case "marginRight" => Some(MarginSection(MarginRight))
      case "paddingLeft" => Some(PaddingSection(PaddingLeft))
      case "borderRight" => Some(BorderSection(BorderRight))
      case "borderWidth" => Some(BorderSection(BorderWidth))
      case "borderStyle" => Some(BorderSection(BorderStyle))
      case "borderColor" => Some(BorderSection(BorderColor))
      case _ => None)
    case 12 =>
      (match name
      case "marginBottom" => Some(MarginSection(MarginBottom))
      case "paddingRight" => Some(PaddingSection(PaddingRight))
      case "borderBottom" => Some(BorderSection(BorderBottom))
      case "borderRadius" => Some(RadiusSection(BorderRadius))
      case _ => None)
    case 13 =>
      (match name
      case "paddingBottom" => Some(PaddingSection(PaddingBottom))
      case _ => None)
    case 15 =>
      (match name
      case "backgroundColor" => Some(ColorSection(BackgroundColor))
      case _ => None)
    case 19 =>
      (match name
      case "borderTopLeftRadius" => Some(RadiusSection(BorderTopLeftRadius))
      case _ => None)
    case 20 =>
      (match name
      case "borderTopRightRadius" => Some(RadiusSection(BorderTopRightRadius))
      case _ => None)
    case 22 =>
      (match name
      case "borderBottomLeftRadius" => Some(RadiusSection(BorderBottomLeftRadius))
      case _ => None)
    case 23 =>
      (match name
      case "borderBottomRightRadius" => Some(RadiusSection(BorderBottomRightRadius))
      case _ => None)
    case _ => None
  }

  /** `passthroughProperties.has(name)`: the CSS properties an `sx` object
      may use under their own name. As in `Parse`, the names are grouped by
      length. */
  predicate IsPassthrough(name: string)
  {
    match |name|
    case 3 =>
      (match name
      case "top" => true
      case _ => false)
    case 4 =>
      (match name
      case "left" => true
      case "flex" => true
      case _ => false)
    case 5 =>
      (match name
      case "right" => true
      case _ => false)
    case 6 =>
      (match name
      case "bottom" => true
      case "zIndex" => true
      case "cursor" => true
      case _ => false)
    case 7 =>
      (match name
      case "display" => true
      case "gridRow" => true
      case "opacity" => true
      case _ => false)
    case 8 =>
      (match name
      case "position" => true
      case "flexWrap" => true
      case "flexGrow" => true
      case "gridArea" => true
      case "overflow" => true
      case _ => false)
    case 9 =>
      (match name
      case "flexBasis" => true
      case "alignSelf" => true
      case "overflowX" => true
      case "overflowY" => true
      case "textAlign" => true
      case "transform" => true
      case "animation" => true
      case _ => false)
    case 10 =>
      (match name
      case "flexShrink" => true
      case "alignItems" => true
      case "gridColumn" => true
      case "transition" => true
      case _ => false)
    case 11 =>
      (match name
      case "justifySelf" => true
      case _ => false)
    case 12 =>
      (match name
      case "alignContent" => true
      case "justifyItems" => true
      case _ => false)
    case 13 =>
      (match name
      case "flexDirection" => true
      case "pointerEvents" => true
      case "textTransform" => true
      case _ => false)
    case 14 =>
      (match name
      case "justifyContent" => true
      case "textDecoration" => true
      case _ => false)
    case 16 =>
      (match name
      case "gridTemplateRows" => true
      case _ => false)
    case 17 =>
      (match name
      case "gridTemplateAreas" => true
      case _ => false)
    case 19 =>
      (match name
      case "gridTemplateColumns" => true
      case _ => false)
    case _ => false
  }

  /** True for the names `Object.prototype` provides. Reading such a name
      from the table object finds the inherited member, which is truthy but
      has no `property` or `category`. */
  predicate IsPrototypeMember(name: string)
  {
    match |name|
    case 7 =>
      (match name
      case "valueOf" => true
      case _ => false)
    case 8 =>
      (match name
      case "toString" => true
      case _ => false)
    case 9 =>
      (match name
      case "__proto__" => true
      case _ => false)
    case 11 =>
      (match name
      case "constructor" => true
      case _ => false)
    case 13 =>
      (match name
      case "isPrototypeOf" => true
      case _ => false)
    case 14 =>
      (match name
      case "hasOwnProperty" => true
      case "toLocaleString" => true
      case _ => false)
    case 16 =>
      (match name
      case "__defineGetter__" => true
      case "__defineSetter__" => true
      case "__lookupGetter__" => true
      case "__lookupSetter__" => true
      case _ => false)
    case 20 =>
      (match name
      case "propertyIsEnumerable" => true
      case _ => false)
    case _ => false
  }

  /** The spacing keys are found under their own spelling. */
  lemma ParseSpacingKey(s: Shorthand)
    requires s.MarginSection? || s.PaddingSection?
    ensures Parse(Key(s)) == Some(s)
  {
  }

  /** The other keys are found under their own spelling. */
  lemma ParseOtherKey(s: Shorthand)
    requires !s.MarginSection? && !s.PaddingSection?
    ensures Parse(Key(s)) == Some(s)
  {
  }

  /** Every key of the table is found under its own spelling. */
  lemma ParseKey(s: Shorthand)
    ensures Parse(Key(s)) == Some(s)
  {
    if s.MarginSection? || s.PaddingSection? {
      ParseSpacingKey(s);
    } else {
      ParseOtherKey(s);
    }
  }

  /** A name that is not found is no key's spelling. */
  lemma ParseMiss(name: string)
    requires Parse(name) == None
    ensures forall s :: Key(s) != name
  {
    forall s ensures Key(s) != name {
      ParseKey(s);
    }
  }

  /** `sxThemeMapping[name]`, for an own key of the table. */
  function Lookup(name: string): Option<Mapping>
  {
    match Parse(name)
    case Some(s) => Some(Row(s))
    case None => None
  }

  /** A passthrough property is never a shorthand key, so the order in
      which the transform consults the two tables never matters. */
  lemma PassthroughNotMapped(name: string)
    requires IsPassthrough(name)
    ensures Parse(name) == None
  {
  }

  /** No shorthand key is a passthrough property. */
  lemma TableDisjointFromPassthrough()
    ensures forall s :: !IsPassthrough(Key(s))
  {
    forall s ensures !IsPassthrough(Key(s)) {
      ParseKey(s);
      if IsPassthrough(Key(s)) {
        PassthroughNotMapped(Key(s));
      }
    }
  }

  /** A row is closed when the property it names is either no key at all or
      a key whose row is the same row. */
  predicate RowClosed(s: Shorthand)
  {
    Lookup(Row(s).property).Some? ==> Lookup(Row(s).property) == Some(Row(s))
  }

  /** Closure for the colors keys. */
  lemma ColorRowsClosed(s: Shorthand)
    requires s.ColorSection?
    ensures RowClosed(s)
  {
  }

  /** Closure for the margin keys. */
  lemma MarginRowsClosed(s: Shorthand)
    requires s.MarginSection?
    ensures RowClosed(s)
  {
  }

  /** Closure for the padding keys. */
  lemma PaddingRowsClosed(s: Shorthand)
    requires s.PaddingSection?
    ensures RowClosed(s)
  {
  }

  /** Closure for the layout keys. */
  lemma LayoutRowsClosed(s: Shorthand)
    requires s.LayoutSection?
    ensures RowClosed(s)
  {
  }

  /** Closure for the typography keys. */
  lemma TypographyRowsClosed(s: Shorthand)
    requires s.TypographySection?
    ensures RowClosed(s)
  {
  }

  /** Closure for the border keys. */
  lemma BorderRowsClosed(s: Shorthand)
    requires s.BorderSection?
    ensures RowClosed(s)
  {
  }

  /** Closure for the border radius keys. */
  lemma RadiusRowsClosed(s: Shorthand)
    requires s.RadiusSection?
    ensures RowClosed(s)
  {
  }

  /** Closure for the shadow keys. */
  lemma ShadowRowsClosed(s: Shorthand)
    requires s.ShadowSection?
    ensures RowClosed(s)
  {
  }

  /** Closure for the flexbox keys. */
  lemma FlexboxRowsClosed(s: Shorthand)
    requires s.FlexboxSection?
    ensures RowClosed(s)
  {
  }

  /** The table is closed under its own output: when the property a key
      maps to is itself a key, that key maps to the same property in the
      same category. The short spellings map to the row of their long
      spelling; `bg` and the `x`/`y` spellings map to properties that are
      no key. */
  lemma TableClosed()
    ensures forall s :: RowClosed(s)
  {
    forall s ensures RowClosed(s) {
      match s {
        case ColorSection(_) => ColorRowsClosed(s);
        case MarginSection(_) => MarginRowsClosed(s);
        case PaddingSection(_) => PaddingRowsClosed(s);
        case LayoutSection(_) => LayoutRowsClosed(s);
        case TypographySection(_) => TypographyRowsClosed(s);
        case BorderSection(_) => BorderRowsClosed(s);
        case RadiusSection(_) => RadiusRowsClosed(s);
        case ShadowSection(_) => ShadowRowsClosed(s);
        case FlexboxSection(_) => FlexboxRowsClosed(s);
      }
    }
  }

  lemma SpacingRowNotPrototypeMember(s: Shorthand)
    requires s.MarginSection? || s.PaddingSection?
    ensures !IsPrototypeMember(Row(s).property)
  {
  }

  lemma OtherRowNotPrototypeMember(s: Shorthand)
    requires !s.MarginSection? && !s.PaddingSection?
    ensures !IsPrototypeMember(Row(s).property)
  {
  }

  /** No property the table maps to is a name `Object.prototype` provides. */
  lemma RowNotPrototypeMember(s: Shorthand)
    ensures !IsPrototypeMember(Row(s).property)
  {
    if s.MarginSection? || s.PaddingSection? {
      SpacingRowNotPrototypeMember(s);
    } else {
      OtherRowNotPrototypeMember(s);
    }
  }

  /** `mx`/`marginX` and `my`/`marginY` share one row: a logical (inline or
      block) margin. */
  lemma MarginAliasesShareRow()
    ensures Row(MarginSection(Mx)) == Row(MarginSection(MarginX)) == Mapping("marginInline", Space)
    ensures Row(MarginSection(My)) == Row(MarginSection(MarginY)) == Mapping("marginBlock", Space)
  {
  }

  /** The same for the padding spellings. */
  lemma PaddingAliasesShareRow()
    ensures Row(PaddingSection(Px)) == Row(PaddingSection(PaddingX)) == Mapping("paddingInline", Space)
    ensures Row(PaddingSection(Py)) == Row(PaddingSection(PaddingY)) == Mapping("paddingBlock", Space)
  {
  }

  /** `w` and `h` share the row of `width` and `height`. */
  lemma SizeAliasesShareRow()
    ensures Row(LayoutSection(W)) == Row(LayoutSection(Width))
    ensures Row(LayoutSection(H)) == Row(LayoutSection(Height))
  {
  }

  /** `str.replace(/([A-Z])/g, '-$1')`: a hyphen before every upper-case
      letter. */
  function HyphenateUpper(s: string): (r: string)
    ensures |r| == |s| + CountUpper(s)
  {
    if s == [] then []
    else (if IsUpper(s[0]) then ['-', s[0]] else [s[0]]) + HyphenateUpper(s[1..])
  }

  /** The replacement works character by character: a lone character gets
      a hyphen before it exactly when it is upper case ... */
  lemma HyphenateUpperChar(c: char)
    ensures HyphenateUpper([c]) == if IsUpper(c) then ['-', c] else [c]
  {
  }

  /** ... and the replacement of a concatenation is the concatenation of
      the replacements, so every hyphen sits right before its letter. */
  lemma {:induction false} HyphenateUpperAppend(a: string, b: string)
    ensures HyphenateUpper(a + b) == HyphenateUpper(a) + HyphenateUpper(b)
    decreases |a|
  {
    if a == [] {
      assert a + b == b;
    } else {
      assert (a + b)[0] == a[0] && (a + b)[1..] == a[1..] + b;
      HyphenateUpperAppend(a[1..], b);
    }
  }

  /** `camelToKebab`. */
  function CamelToKebab(s: string): (r: string)
    ensures |r| == |s| + CountUpper(s)
    ensures NoUpper(r)
  {
    ToLower(HyphenateUpper(s))
  }

  /** What `CamelToKebab` makes of one character. */
  function KebabPiece(c: char): string
  {
    if IsUpper(c) then ['-', LowerChar(c)] else [c]
  }

  lemma CamelToKebabCons(c: char, t: string)
    ensures CamelToKebab([c] + t) == KebabPiece(c) + CamelToKebab(t)
  {
    assert ([c] + t)[1..] == t;
    ToLowerAppend(if IsUpper(c) then ['-', c] else [c], HyphenateUpper(t));
  }

  /** `CamelToKebab` changes a string exactly when it has an upper-case
      letter. */
  lemma {:induction false} CamelToKebabIdentity(s: string)
    ensures CamelToKebab(s) == s <==> NoUpper(s)
  {
    if s != [] && NoUpper(s) {
      assert NoUpper(s[1..]);
      CamelToKebabIdentity(s[1..]);
      CamelToKebabCons(s[0], s[1..]);
      assert [s[0]] + s[1..] == s;
    }
  }

  /** `kebabToCamel`: `str.replace(/-([a-z])/g, ...)`, which upper-cases each
      lower-case letter that follows a hyphen and drops the hyphen. */
  function KebabToCamel(s: string): (r: string)
    ensures |r| <= |s|
    decreases |s|
  {
    if |s| >= 2 && s[0] == '-' && IsLower(s[1]) then [UpperChar(s[1])] + KebabToCamel(s[2..])
    else if s == [] then []
    else [s[0]] + KebabToCamel(s[1..])
  }

  /** For a string without hyphens, `kebabToCamel` undoes `camelToKebab`. */
  lemma {:induction false} KebabRoundTrip(s: string)
    requires forall i :: 0 <= i < |s| ==> s[i] != '-'
    ensures KebabToCamel(CamelToKebab(s)) == s
  {
    if s != [] {
      var c, t := s[0], s[1..];
      assert s == [c] + t;
      CamelToKebabCons(c, t);
      KebabRoundTrip(t);
      var k := CamelToKebab(t);
      if IsUpper(c) {
        assert (KebabPiece(c) + k)[2..] == k;
      } else {
        assert (KebabPiece(c) + k)[1..] == k;
      }
    }
  }

  predicate IsKeyChar(c: char)
  {
    IsUpper(c) || IsLower(c) || IsDigit(c) || c == '-'
  }

  /** `isThemeKey` on a string: `/^[a-zA-Z0-9-]+$/`. */
  function IsThemeKey(v: string): (b: bool)
    ensures b <==> |v| > 0 && forall i :: 0 <= i < |v| ==> IsKeyChar(v[i])
  {
    |v| > 0 && IsKeyChar(v[0]) && (|v| == 1 || IsThemeKey(v[1..]))
  }

  const VarPrefix := "var(--duro-"

  /** `getThemeVar`: the reference to the theme variable of `category`
      named after `value` in kebab case. It is never itself a theme key. */
  function GetThemeVar(category: Category, value: string): (r: string)
    ensures StartsWith(r, VarPrefix) && r[|r| - 1] == ')'
    ensures !IsThemeKey(r)
  {
    var r := VarPrefix + category.Name() + "-" + CamelToKebab(value) + ")";
    assert r[3] == '(' && !IsKeyChar(r[3]);
    r
  }

  /** Different hyphen-free values of one category name different
      variables. */
  lemma GetThemeVarInjective(category: Category, a: string, b: string)
    requires forall i :: 0 <= i < |a| ==> a[i] != '-'
    requires forall i :: 0 <= i < |b| ==> b[i] != '-'
    requires GetThemeVar(category, a) == GetThemeVar(category, b)
    ensures a == b
  {
    var pre := VarPrefix + category.Name() + "-";
    var ra, rb := GetThemeVar(category, a), GetThemeVar(category, b);
    assert ra == pre + CamelToKebab(a) + ")";
    assert rb == pre + CamelToKebab(b) + ")";
    assert CamelToKebab(a) == ra[|pre|..|ra| - 1];
    assert CamelToKebab(b) == rb[|pre|..|rb| - 1];
    KebabRoundTrip(a);
    KebabRoundTrip(b);
  }
}

=== FILE: transform.dfy ===
/** The `sx` shorthand transform of the Babel plugin, over an abstract
    syntax tree of object literals and JSX attributes. An `sx` object is
    rewritten entry by entry into a `style` object: shorthand keys become
    CSS properties and theme keys become `var(--duro-…)` references. */
module Transform {
  import opened Wrappers
  import opened Strings
  import opened ThemeMapping
  import opened Lists

  /** The key of an object member: an identifier, or anything else (a
      string or numeric literal, a non-identifier computed expression). */
  datatype PropKey = Ident(name: string) | OtherKey(code: string)

  /** Expressions. `Num` is a numeric literal, which in the syntax tree is
      never negative (`-4` is a unary expression, so `OtherExpr`). */
  datatype Expr =
    | Str(s: string)
    | Num(n: nat)
    | Obj(members: seq<Member>)
    | OtherExpr(code: string)

  /** Members of an object literal. `computed` is true for `{[k]: v}`. */
  datatype Member =
    | Prop(key: PropKey, value: Expr, computed: bool)
    | SpreadMember(arg: Expr)
    | MethodMember(name: string)

  /** The name of a JSX attribute: `sx` or `ns:sx`. */
  datatype JsxName = JsxIdent(name: string) | JsxNamespaced(ns: string, name: string)

  /** The value of a JSX attribute: `{expr}`, `"text"`, an element, or none. */
  datatype JsxValue = Container(expr: Expr) | Text(text: string) | ElementValue | NoValue

  datatype Attr = Attr(name: JsxName, value: JsxValue)

  /** `TransformOptions`: `propName` defaults to `sx` when absent. */
  datatype Options = Options(propName: Option<string>)

  /** How the transform treats an identifier key. `Inherited` is a name the
      table object only inherits: reading it is truthy, so the transform
      takes the mapped branch and builds an identifier from an undefined
      property name, which throws. */
  datatype KeyClass = Mapped(row: Mapping) | Inherited | Passthrough | Unknown

  function Classify(name: string): (k: KeyClass)
    ensures k.Mapped? <==> Lookup(name).Some?
    ensures k.Mapped? ==> Lookup(name) == Some(k.row)
    ensures k.Inherited? <==> Lookup(name).None? && IsPrototypeMember(name)
    ensures k.Passthrough? <==> Lookup(name).None? && !IsPrototypeMember(name) && IsPassthrough(name)
    ensures k.Unknown? <==> Lookup(name).None? && !IsPrototypeMember(name) && !IsPassthrough(name)
  {
    match Lookup(name)
    case Some(row) => Mapped(row)
    case None =>
      if IsPrototypeMember(name) then Inherited
      else if IsPassthrough(name) then Passthrough
      else Unknown
  }

  /** `transformValue`: a theme-key string becomes the variable reference
      of the category; a numeric literal does so only in the `space`
      category, through its decimal text; every other expression is kept.
      A value that changes becomes a `var(...)` string. */
  function TransformValue(v: Expr, c: Category): (r: Expr)
    ensures r != v ==> r.Str? && StartsWith(r.s, VarPrefix) && !IsThemeKey(r.s)
    ensures r != v <==> (v.Str? && IsThemeKey(v.s)) || (v.Num? && c == Space)
    ensures v.Str? && IsThemeKey(v.s) ==> r == Str(GetThemeVar(c, v.s))
    ensures v.Num? && c == Space ==> r == Str(GetThemeVar(Space, NatToDecimal(v.n)))
  {
    match v
    case Str(s) => if IsThemeKey(s) then Str(GetThemeVar(c, s)) else v
    case Num(n) => if c == Space then Str(GetThemeVar(Space, NatToDecimal(n))) else v
    case _ => v
  }

  /** A second pass over a value changes nothing. */
  lemma TransformValueIdempotent(v: Expr, c: Category)
    ensures TransformValue(TransformValue(v, c), c) == TransformValue(v, c)
  {
  }

  /** The members the transform reads: properties with an identifier key.
      The `computed` flag is not consulted, so `{[bg]: x}` is read as `bg`. */
  predicate IsRead(m: Member)
  {
    m.Prop? && m.key.Ident?
  }

  /** Reading `m` throws. */
  predicate Throws(m: Member)
  {
    IsRead(m) && Classify(m.key.name).Inherited?
  }

  /** The output of one member: nothing for a member that is not read, one
      member for a member that is read, `None` when building it throws. */
  function TransformMember(m: Member): (r: Option<seq<Member>>)
    ensures r.None? <==> Throws(m)
    ensures r.Some? ==> (|r.value| == 1 <==> IsRead(m)) && |r.value| <= 1
    ensures r.Some? && IsRead(m) ==> r.value[0].Prop? && r.value[0].key.Ident?
    ensures r.Some? && IsRead(m) && Lookup(m.key.name).None? ==>
      r.value[0].key == m.key && r.value[0].value == m.value
    ensures r.Some? && IsRead(m) && Lookup(m.key.name).Some? ==>
      var row := Lookup(m.key.name).value;
      r.value == [Prop(Ident(row.property), TransformValue(m.value, row.category), false)]
    ensures r.Some? && IsRead(m) && Classify(m.key.name).Passthrough? ==>
      r.value == [Prop(Ident(m.key.name), m.value, false)]
    ensures r.Some? && IsRead(m) && Classify(m.key.name).Unknown? ==> r.value == [m]
  {
    if !IsRead(m) then Some([])
    else
      match Classify(m.key.name)
      case Mapped(row) => Some([Prop(Ident(row.property), TransformValue(m.value, row.category), false)])
      case Inherited => None
      case Passthrough => Some([Prop(Ident(m.key.name), m.value, false)])
      case Unknown => Some([m])
  }

  /** `transformSxProp` on the members of the `sx` object, in order. It
      throws exactly when some read key names an inherited member;
      otherwise the output holds at most one member per input member, and
      every output member is an identifier-keyed property. */
  function TransformSxProp(ms: seq<Member>): (r: Option<seq<Member>>)
    ensures r.None? <==> exists i :: 0 <= i < |ms| && Throws(ms[i])
    ensures r.Some? ==> |r.value| <= |ms|
    ensures r.Some? ==> forall i :: 0 <= i < |r.value| ==> IsRead(r.value[i])
  {
    FlatMapOptShrinks(TransformMember, ms);
    FlatMapOptAll(TransformMember, IsRead, ms);
    FlatMapOpt(TransformMember, ms)
  }

  /** The members that are read, in order. */
  function ReadMembers(ms: seq<Member>): (r: seq<Member>)
    ensures |r| <= |ms|
  {
    if ms == [] then []
    else (if IsRead(ms[0]) then [ms[0]] else []) + ReadMembers(ms[1..])
  }

  /** The output is the read members, each replaced by its own output:
      dropped members vanish and the order is kept. */
  lemma {:induction false} TransformIsFilterMap(ms: seq<Member>)
    requires TransformSxProp(ms).Some?
    ensures |TransformSxProp(ms).value| == |ReadMembers(ms)|
    ensures forall i :: 0 <= i < |ReadMembers(ms)| ==>
      TransformMember(ReadMembers(ms)[i]) == Some([TransformSxProp(ms).value[i]])
  {
    if ms != [] {
      TransformIsFilterMap(ms[1..]);
      var out, tail := TransformSxProp(ms).value, TransformSxProp(ms[1..]).value;
      var head := TransformMember(ms[0]).value;
      assert out == head + tail;
      if IsRead(ms[0]) {
        assert ReadMembers(ms) == [ms[0]] + ReadMembers(ms[1..]);
      } else {
        assert head == [] && ReadMembers(ms) == ReadMembers(ms[1..]);
      }
    }
  }

  /** The transform of a concatenation is the concatenation of the
      transforms, when neither part throws. */
  lemma TransformAppend(a: seq<Member>, b: seq<Member>)
    requires TransformSxProp(a).Some? && TransformSxProp(b).Some?
    ensures TransformSxProp(a + b) == Some(TransformSxProp(a).value + TransformSxProp(b).value)
  {
    FlatMapOptAppend(TransformMember, a, b);
  }

  /** The property a row maps to reads, in its turn, as the same row or as
      a name outside the table; it never throws. */
  lemma RowPropertyClass(s: Shorthand)
    ensures var k := Classify(Row(s).property);
      !k.Inherited? && (k.Mapped? ==> k.row == Row(s))
  {
    TableClosed();
    assert RowClosed(s);
    RowNotPrototypeMember(s);
  }

  /** One output member read a second time gives itself back. The mapped
      case rests on the closure of the table and on variable references not
      being theme keys. */
  lemma MemberOutputFixed(m: Member)
    requires TransformMember(m).Some? && IsRead(m)
    ensures TransformMember(TransformMember(m).value[0]) == TransformMember(m)
  {
    var name := m.key.name;
    match Classify(name)
    case Mapped(row) =>
      var s := Parse(name).value;
      assert row == Row(s);
      RowPropertyClass(s);
      TransformValueIdempotent(m.value, row.category);
    case Inherited =>
    case Passthrough =>
    case Unknown =>
  }

  /** An object with one member transforms as that member does. */
  lemma SingletonTransform(m: Member)
    ensures TransformSxProp([m]) == TransformMember(m)
  {
    FlatMapOptSingleton(TransformMember, m);
  }

  /** `transformSxProp` is idempotent: its output is a fixed point. */
  lemma {:induction false} TransformIdempotent(ms: seq<Member>)
    requires TransformSxProp(ms).Some?
    ensures TransformSxProp(TransformSxProp(ms).value) == TransformSxProp(ms)
  {
    if ms != [] {
      var head := TransformMember(ms[0]).value;
      var tail := TransformSxProp(ms[1..]).value;
      assert TransformSxProp(ms).value == head + tail;
      TransformIdempotent(ms[1..]);
      if IsRead(ms[0]) {
        MemberOutputFixed(ms[0]);
        assert head == [head[0]];
        SingletonTransform(head[0]);
      } else {
        assert head == [];
      }
      TransformAppend(head, tail);
    }
  }

  /** `isSxProp`: the attribute's name is the plain identifier `propName`. */
  predicate IsSxProp(attr: Attr, propName: string)
  {
    attr.name.JsxIdent? && attr.name.name == propName
  }

  /** `transformSxAttribute`: an `sx={{…}}` attribute becomes one `style`
      attribute holding the transformed object; every other attribute is
      returned alone and unchanged. */
  function TransformSxAttribute(attr: Attr, options: Options): (r: Option<seq<Attr>>)
    ensures r.Some? ==> |r.value| == 1
    ensures r.Some? && r.value[0] != attr ==>
      r.value[0].name == JsxIdent("style") && r.value[0].value.Container? && r.value[0].value.expr.Obj?
    ensures !IsSxProp(attr, options.propName.GetOr("sx")) ==> r == Some([attr])
    ensures !(attr.value.Container? && attr.value.expr.Obj?) ==> r == Some([attr])
    ensures r.None? <==>
      IsSxProp(attr, options.propName.GetOr("sx")) && attr.value.Container? && attr.value.expr.Obj?
      && TransformSxProp(attr.value.expr.members).None?
    ensures (IsSxProp(attr, options.propName.GetOr("sx")) && attr.value.Container? && attr.value.expr.Obj?
      && TransformSxProp(attr.value.expr.members).Some?) ==>
      r == Some([Attr(JsxIdent("style"), Container(Obj(TransformSxProp(attr.value.expr.members).value)))])
  {
    var propName := options.propName.GetOr("sx");
    if !IsSxProp(attr, propName) then Some([attr])
    else
      match attr.value
      case Container(Obj(ms)) =>
        (match TransformSxProp(ms)
        case None => None
        case Some(out) => Some([Attr(JsxIdent("style"), Container(Obj(out)))]))
      case _ => Some([attr])
  }

  /** Transforming the resulting attribute again changes nothing, whatever
      the prop name: a `style` attribute is left alone unless the prop name
      is `style`, and then the object is already a fixed point. */
  lemma AttributeIdempotent(attr: Attr, options: Options)
    requires TransformSxAttribute(attr, options).Some?
    ensures var out := TransformSxAttribute(attr, options).value[0];
      TransformSxAttribute(out, options) == Some([out])
  {
    var propName := options.propName.GetOr("sx");
    if IsSxProp(attr, propName) && attr.value.Container? && attr.value.expr.Obj? {
      TransformIdempotent(attr.value.expr.members);
    }
  }
}

=== FILE: transform_examples.dfy ===
/** Worked cases of the naming helpers and of the shorthand table, the
    facts the worked cases of the transform rest on. */
module ThemeMappingExamples {
  import opened Wrappers
  import opened Strings
  import opened Entries
  import opened ThemeMapping
  import opened Theme

  lemma PrimaryIsKey()
    ensures IsThemeKey("primary")
  {
  }

  lemma HexIsNoKey()
    ensures !IsThemeKey("#FF0000")
  {
    assert !IsKeyChar("#FF0000"[0]);
  }

  lemma PrimaryKebab()
    ensures CamelToKebab("primary") == "primary"
  {
    assert NoUpper("primary");
    CamelToKebabIdentity("primary");
  }

  /** `getThemeVar('color', 'primary')`. */
  lemma PrimaryVar()
    ensures GetThemeVar(Colors, "primary") == "var(--duro-color-primary)"
  {
    PrimaryKebab();
  }

  /** `getThemeVar('space', String(4))`. */
  lemma FourVar()
    ensures GetThemeVar(Space, NatToDecimal(4)) == "var(--duro-space-4)"
  {
    assert NatToDecimal(4) == "4";
    CamelToKebabIdentity("4");
  }

  /** Every key of the scale is a theme key, so an `sx` value naming it is
      rewritten to a variable reference. */
  predicate AllThemeKeys<V>(es: Entries<V>)
  {
    forall i :: 0 <= i < |es| ==> IsThemeKey(es[i].0)
  }

  /** A scale whose every key is a non-empty run of key characters
      names theme keys only. */
  lemma KeysByChars<V>(es: Entries<V>)
    requires forall i :: 0 <= i < |es| ==> |es[i].0| > 0
    requires forall i, j :: 0 <= i < |es| && 0 <= j < |es[i].0| ==> IsKeyChar(es[i].0[j])
    ensures AllThemeKeys(es)
  {
    forall i | 0 <= i < |es|
      ensures IsThemeKey(es[i].0)
    {
    }
  }

  lemma DefaultColorKeys()
    ensures AllThemeKeys(DefaultColors.base)
  {
    KeysByChars(DefaultColors.base);
  }

  lemma DefaultSpaceAndFontKeys()
    ensures AllThemeKeys(DefaultSpace) && AllThemeKeys(DefaultFonts)
  {
    KeysByChars(DefaultSpace);
    KeysByChars(DefaultFonts);
  }

  lemma DefaultSizeKeys()
    ensures AllThemeKeys(DefaultFontSizes) && AllThemeKeys(DefaultLineHeights)
  {
    KeysByChars(DefaultFontSizes);
    KeysByChars(DefaultLineHeights);
  }

  lemma DefaultBorderAndRadiusKeys()
    ensures AllThemeKeys(DefaultBorders) && AllThemeKeys(DefaultRadii)
  {
    KeysByChars(DefaultBorders);
    KeysByChars(DefaultRadii);
  }

  lemma DefaultShadowKeys()
    ensures AllThemeKeys(DefaultShadows) && AllThemeKeys(DefaultBreakpoints)
  {
    KeysByChars(DefaultShadows);
    KeysByChars(DefaultBreakpoints);
  }

  /** Every key of every scale of the default theme, `2xl` and
      `glowStrong` included, is a theme key. */
  lemma DefaultScaleKeysAreThemeKeys()
    ensures AllThemeKeys(DefaultTheme.colors.base) && AllThemeKeys(DefaultTheme.space)
      && AllThemeKeys(DefaultTheme.fonts) && AllThemeKeys(DefaultTheme.fontSizes)
      && AllThemeKeys(DefaultTheme.lineHeights) && AllThemeKeys(DefaultTheme.borders)
      && AllThemeKeys(DefaultTheme.radii) && AllThemeKeys(DefaultTheme.shadows)
      && AllThemeKeys(DefaultTheme.breakpoints)
  {
    DefaultColorKeys();
    DefaultSpaceAndFontKeys();
    DefaultSizeKeys();
    DefaultBorderAndRadiusKeys();
    DefaultShadowKeys();
  }

  /** `bg` is the colors row of `background`. */
  lemma BgLookup()
    ensures Lookup("bg") == Some(Mapping("background", Colors))
  {
    ParseKey(ColorSection(Bg));
  }

  lemma PLookup()
    ensures Lookup("p") == Some(Mapping("padding", Space))
  {
    ParseKey(PaddingSection(P));
  }

  lemma PxLookup()
    ensures Lookup("px") == Some(Mapping("paddingInline", Space))
  {
    ParseKey(PaddingSection(Px));
  }

  lemma DisplayLookup()
    ensures Lookup("display") == None && IsPassthrough("display")
  {
    PassthroughNotMapped("display");
  }

  /** `auto` matches the theme-key pattern. */
  lemma AutoIsKey()
    ensures IsThemeKey("auto")
    ensures GetThemeVar(Space, "auto") == "var(--duro-space-auto)"
  {
    assert NoUpper("auto");
    CamelToKebabIdentity("auto");
  }

  lemma WidthLookup()
    ensures Lookup("width") == Some(Mapping("width", Space))
  {
    ParseKey(LayoutSection(Width));
  }

  lemma OutlineLookup()
    ensures Lookup("outline") == None && !IsPassthrough("outline") && !IsPrototypeMember("outline")
  {
  }

  lemma ConstructorLookup()
    ensures Lookup("constructor") == None && IsPrototypeMember("constructor")
  {
  }
}

/** Worked cases of the `sx` transform, one per behaviour the plugin's own
    examples exercise: a color key, a literal color, a spacing number, a
    logical spacing alias, a passthrough property, an unknown property, a
    computed key and an inherited name. */
module TransformExamples {
  import opened Wrappers
  import opened ThemeMapping
  import opened ThemeMappingExamples
  import opened Transform

  /** `bg: 'primary'` becomes `background: "var(--duro-color-primary)"`. */
  lemma BgExample()
    ensures TransformMember(Prop(Ident("bg"), Str("primary"), false))
         == Some([Prop(Ident("background"), Str("var(--duro-color-primary)"), false)])
  {
    BgLookup();
    PrimaryIsKey();
    PrimaryVar();
  }

  /** A literal color is no theme key and is kept: `bg: '#FF0000'` becomes
      `background: "#FF0000"`. */
  lemma HexExample()
    ensures TransformMember(Prop(Ident("bg"), Str("#FF0000"), false))
         == Some([Prop(Ident("background"), Str("#FF0000"), false)])
  {
    BgLookup();
    HexIsNoKey();
  }

  /** The computed key `{[bg]: 'primary'}` is read as `bg` all the same. */
  lemma ComputedKeyExample()
    ensures TransformMember(Prop(Ident("bg"), Str("primary"), true))
         == TransformMember(Prop(Ident("bg"), Str("primary"), false))
  {
    BgLookup();
  }

  /** `p: 4` becomes `padding: "var(--duro-space-4)"`. */
  lemma PaddingExample()
    ensures TransformMember(Prop(Ident("p"), Num(4), false))
         == Some([Prop(Ident("padding"), Str("var(--duro-space-4)"), false)])
  {
    PLookup();
    FourVar();
  }

  /** `px: 4` becomes `paddingInline: "var(--duro-space-4)"`. */
  lemma PaddingInlineExample()
    ensures TransformMember(Prop(Ident("px"), Num(4), false))
         == Some([Prop(Ident("paddingInline"), Str("var(--duro-space-4)"), false)])
  {
    PxLookup();
    FourVar();
  }

  /** `display: 'flex'` passes through unchanged. */
  lemma DisplayExample()
    ensures TransformMember(Prop(Ident("display"), Str("flex"), false))
         == Some([Prop(Ident("display"), Str("flex"), false)])
  {
    DisplayLookup();
  }

  /** `width: 'auto'` is rewritten like a theme key, to
      `width: "var(--duro-space-auto)"`: only strings outside the theme-key
      pattern (`100%`, `#FF0000`) are kept. */
  lemma AutoExample()
    ensures TransformMember(Prop(Ident("width"), Str("auto"), false))
         == Some([Prop(Ident("width"), Str("var(--duro-space-auto)"), false)])
  {
    WidthLookup();
    AutoIsKey();
  }

  /** A property in neither table keeps its original member, the computed
      flag included. */
  lemma UnknownExample()
    ensures TransformMember(Prop(Ident("outline"), Str("none"), true))
         == Some([Prop(Ident("outline"), Str("none"), true)])
  {
    OutlineLookup();
  }

  /** `constructor` is found on the table object's prototype, so the
      transform throws. */
  lemma InheritedExample()
    ensures TransformMember(Prop(Ident("constructor"), Str("primary"), false)) == None
  {
    ConstructorLookup();
  }

  /** `sx={{ bg: 'primary' }}` becomes a `style` attribute. */
  lemma AttributeExample()
    ensures TransformSxAttribute(
              Attr(JsxIdent("sx"), Container(Obj([Prop(Ident("bg"), Str("primary"), false)]))),
              Options(None))
         == Some([Attr(JsxIdent("style"),
                       Container(Obj([Prop(Ident("background"), Str("var(--duro-color-primary)"), false)])))])
  {
    BgExample();
    var m := Prop(Ident("bg"), Str("primary"), false);
    SingletonTransform(m);
  }
}

=== FILE: wrappers.dfy ===
/** Optional values: JavaScript's `undefined` (an absent optional prop, a
    missing object key, an explicitly undefined layout value) is `None`. */
module Wrappers {

  datatype Option<+T> = None | Some(value: T) {

    /** Returns the value in Some, or `default` for None. */
    function GetOr(default: T): T
    {
      match this
      case Some(v) => v
      case None => default
    }
  }
}
